=== FILE: README.md ===
# curtin storage core in Dafny

This project models the storage-configuration core of curtin, the installer
back end that partitions disks, builds RAID arrays and sets up swap on a target
system. It covers four parts of curtin and proves properties about each:

- **Storage configuration** (`curtin/storage_config.py`). The config is an
  ordered dictionary of items keyed by `id`. Each item names the other items it
  depends on. The model covers:
  - the per-type tables: dependency keys, allowed dependency types and sort keys;
  - the dependency walk in `find_item_dependencies`;
  - the dependency tree from `get_config_tree`;
  - the registry, level loop and type-grouped sort in
    `merge_config_trees_to_list`;
  - `config_tree_to_list` and `extract_storage_ordered_dict`;
  - the partition-table type lookup `ptable_uuid_to_flag_entry`;
  - the `valid_id` check of ptable ids and `partition_parent_devname`.
- **Partition-table scripting** (`curtin/commands/block_meta_v2.py`).
  - `SfdiskTable` is a class with fields that its `Add` method updates in place,
    like `SFDiskPartTable` and its GPT and DOS subclasses.
  - Its layout rules (1 MiB alignment, DOS primary and logical numbering, the
    extended-partition requirement) are given as functions on the table state.
  - The loop of `disk_handler_v2` (`PlanPartitions`) builds the wipe map, the set
    of preserved offsets and the list of quick-zero offsets.
  - The deletion wipes and the new-partition wipes are computed from the
    partitions found on the disk.
- **mdadm decisions** (`curtin/block/mdadm.py`):
  - the raid-level short form and the minimum member count;
  - the checks and the command line built by `mdadm_create`;
  - the level, member-list and array-state checks on an existing array;
  - the superblock zeroing offsets of `zero_device`;
  - the name matching of `md_present`;
  - the udev device-key names.
- **Swap** (`curtin/swap.py`): the suggested swap size, the filesystem and
  kernel checks for swap files, and the decision taken by `setup_swapfile`.

The shape follows the source. Loops that build a result step by step are
methods with loop invariants. Each such method is proved equal to a function,
and the lemmas are proved about that function. The partition table is a class
with its own state. Everything else is datatypes, functions and lemmas.

Outside input is passed in as parameters:

- the sector size;
- the partitions sfdisk reports;
- the partitions in sysfs;
- the hostname;
- the devices that have holders;
- the `mdadm --examine` fields;
- the sysfs array values;
- the lines of `/proc/mdstat`;
- memory size;
- the filesystem type of a directory;
- the target's kernel major version.

Modelling choices that a reader of the source should know:

- **The config.** An `OrderedDict` is modelled as a sequence of items with
  distinct ids (`StorageConfig.DistinctIds`).
- **Termination of the dependency walk.** The walk terminates through a ghost
  rank map, which requires the config to be acyclic (`StorageDeps.Ranked`).
  The source would recurse forever on a cycle.
- **`_stype_to_deps`.** It returns a Python set. The model iterates its keys in
  the order the source writes them (`StorageTypes.DepKeys`).
- **`_find_same_dep`.** It compares the whole field value. A field that holds a
  list therefore never matches a single id, exactly as in the source.
- **Sorting.** `sorted(..., key=itemgetter(k))` fails with a missing key or with
  keys of mixed kinds (Python's `KeyError` or `TypeError`). `StorageConfig.SortByKey`
  returns an error in those cases. Otherwise it returns a stable sort
  (`Sorting.InsertionSort`), as `sorted` does; `StorageConfig.SortByKeyStable`
  proves the stability.
- **`align_up` and `align_down`.** They are computed with an exact `AndNot` on
  naturals (`PartTable.AndNot`), that is `a & ~(b - 1)`.
- **Python quirks kept on purpose:**
  - `md_raidlevel_short` has no short form for `mirror`. So
    `md_minimum_devices('mirror')` fails and `mdadm_create` with `mirror` raises.
  - `raid4` has minimum `-1`, so every device count passes.
  - A `msdos` logical partition ignores its `number`.

## Model

| member | source | states |
|---|---|---|
| StorageTypes.ParseType | curtin/storage_config.py:47-60 | a parsed type name prints back as the same string |
| StorageTypes.TypeNameRoundTrip | curtin/storage_config.py:47-60 | every storage type parses back from its name |
| StorageTypes.StypeToDeps | curtin/storage_config.py:139-169 | succeeds exactly for known types and then yields that type's dependency keys |
| StorageTypes.StypeToOrderKey | curtin/storage_config.py:172-191 | succeeds exactly for known types and then yields that type's sort key |
| StorageTypes.MountAndZfsTargets | curtin/storage_config.py:199-214 | a mount may depend only on a format, a zfs only on a zpool, and a dasd may depend on nothing |
| StorageTypes.DepKeysHaveTargets | curtin/storage_config.py:154-214 | every type with dependency keys has allowed targets, and disk is the only type with targets but no keys |
| StorageConfig.Chain | curtin/storage_config.py:260-288 | `deps.extend` inside the walk: the first error wins, otherwise the lists are concatenated |
| StorageConfig.ChainAssoc | curtin/storage_config.py:260-288 | extending a list step by step is associative, so the walk can be split at any point |
| StorageConfig.Lookup | curtin/storage_config.py:252-254 | `config.get(id)` finds an item exactly when the id is present, and finds the item with that id |
| StorageConfig.UpsertDistinct | curtin/storage_config.py:300-303 | assigning `od[id] = item` keeps ids distinct, replaces an existing entry in place, and appends a new one |
| StorageConfig.OrderedByIdSpec | curtin/storage_config.py:387 | `OrderedDict((d["id"], d) for d in scfg)` has distinct ids, the same id set, and keeps the last item given for each id |
| StorageConfig.ExtractStorageOrderedDict | curtin/storage_config.py:378-389 | fails exactly when `storage` or its `config` is missing or empty; otherwise yields a non-empty dict with the input's ids |
| StorageConfig.ConfigTreeToList | curtin/storage_config.py:369-375 | the list is the tree reversed, so the requested item comes last |
| StorageConfig.ValidateDepType | curtin/storage_config.py:195-243 | a missing source id or dependency id is reported by name; passes exactly when both exist, both types are known and the dependency's type is one the source type may depend on |
| StorageConfig.ItemLeTotalPreorder | curtin/storage_config.py:277-279 | comparing items by a key field is a total preorder, so `sorted` is well defined |
| StorageConfig.SortByKey | curtin/storage_config.py:277-279 | fails exactly when an item lacks the key or the values are of mixed kinds; otherwise the result is a sorted permutation |
| StorageConfig.SortByKeyStable | curtin/storage_config.py:277-279 | the sort is stable: items whose key values tie come out in their input order |
| StorageConfig.PtableUuidToFlagEntry | curtin/storage_config.py:1257-1265 | the flag and the type code are both present or both absent, exactly when the upper-cased code is in the type map, and then they are the map's entry |
| StorageConfig.PtableLookupCaseInsensitive | curtin/storage_config.py:1257-1265 | looking up a guid or code does not depend on its letter case |
| StorageConfig.PtableBareCodeGetsPrefix | curtin/storage_config.py:1259-1261 | a bare MBR code without a dash is treated as its `0x` form |
| StorageConfig.PtableBareLinuxCode | curtin/storage_config.py:1256-1264 | the bare code `83` gets the `0x` prefix and maps to linux with code `83` |
| StorageConfig.PtablePrefixedExtendedCode | curtin/storage_config.py:1256-1264 | the lower-case code `0xc5` is found upper-cased and maps to an extended partition with code `f` |
| StorageConfig.HexValueZero | curtin/storage_config.py:635-643 | a hex body has value zero exactly when every digit is zero |
| StorageConfig.ValidIdRejects | curtin/storage_config.py:635-643 | a `0x` id is rejected exactly when its body, with trailing blanks stripped, is ASCII hex digits (each optionally after one `_`) that are all zero; a body of any other form is accepted; any other id is rejected exactly when it is all blanks |
| StorageConfig.PartitionParentDevname | curtin/storage_config.py:674-684 | fails exactly when DEVTYPE is not `partition`: a missing DEVTYPE is a key error, any other value the not-a-partition error; a parent name it yields is `/dev/` plus one path component |
| StorageConfig.PartitionParentOfPath | curtin/storage_config.py:674-684 | the parent of `<prefix>/<parent>/<name>` is `/dev/<parent>` |
| Sorting.InsertionSortPermutation | curtin/storage_config.py:347-350 | the stable sort used for `sorted` returns a permutation of its input |
| Sorting.InsertionSortSorted | curtin/storage_config.py:347-350 | under a total preorder, the sort's result is ordered |
| Sorting.InsertionSortStable | curtin/storage_config.py:347-350 | under a total preorder, the elements that tie with any given element keep their input order |
| StorageDeps.MeasureDecreases | curtin/storage_config.py:282-286 | every recursive call of the walk is on an item of strictly smaller rank |
| StorageDeps.Targets | curtin/storage_config.py:265-268 | a field value that is a list or a single id yields exactly the ids it names |
| StorageDeps.SameDep | curtin/storage_config.py:256-258 | `_find_same_dep` returns exactly the items whose field equals the given dependency |
| StorageDeps.FindItemDependencies | curtin/storage_config.py:246-288 | the loop-based walk returns exactly the recursive definition of the item's dependencies, including every error; an empty config raises, and an id missing from the config gives None |
| StorageDeps.CollectField | curtin/storage_config.py:263-268 | handling one dependency key extends the list by that key's dependencies |
| StorageDeps.CollectValue | curtin/storage_config.py:269-286 | the loop over a field's values extends the list value by value |
| StorageDeps.CollectDep | curtin/storage_config.py:270-286 | the ids one dependency contributes start with the ids of the items whose field holds that dependency, sorted by the order key, and those items are exactly the config's items with that field value |
| StorageDeps.AppendIds | curtin/storage_config.py:280-281 | the loop appends the ids of the sorted items in order |
| StorageDeps.DepsCover | curtin/storage_config.py:260-288 | every item an item refers to is in its dependency list, with that item's own dependencies; with validation on, the target exists |
| StorageDeps.DepsSiblings | curtin/storage_config.py:270-281 | for a field holding one id, the walk lists as one block the ids of every config item whose same field holds that id, the item itself included, sorted by the item's order key with ties in config order |
| StorageDeps.DepStepSiblings | curtin/storage_config.py:270-281 | a successful step for one dependency begins with the ids of its sorted siblings |
| StorageDeps.GetConfigTree | curtin/storage_config.py:291-303 | the method's tree equals the function definition of the item plus its dependencies |
| StorageDeps.InsertAllSpec | curtin/storage_config.py:300-302 | inserting the dependencies succeeds exactly when every one is in the config, keeps ids distinct and has exactly the item's and the dependencies' ids |
| StorageDeps.TreeOfSpec | curtin/storage_config.py:291-303 | the tree starts with the item, holds only config items with distinct ids, and holds every dependency |
| StorageDeps.DependencyTreeContained | curtin/storage_config.py:291-303 | the tree of an item's dependency is contained in the item's own tree and is no larger |
| StorageMerge.MaxLevelSpec | curtin/storage_config.py:326-331 | `max_level` is the length of the longest tree, and 0 for no trees |
| StorageMerge.RegistryOk | curtin/storage_config.py:327-336 | building the registry succeeds exactly when no tree is empty |
| StorageMerge.RegistryIds | curtin/storage_config.py:327-336 | the registry has one entry per distinct top item |
| StorageMerge.RegistryFirst | curtin/storage_config.py:333-336 | for a repeated top item, the first tree wins |
| StorageMerge.RegistryErrPersists | curtin/storage_config.py:327-336 | once an empty tree is met, the registry stays an error |
| StorageMerge.FilterTypeMembers | curtin/storage_config.py:340-344 | the group of a type holds exactly the configs of that type |
| StorageMerge.DistinctTypesSpec | curtin/storage_config.py:340-344 | the group keys are the distinct types present, without repetition |
| StorageMerge.TypeNameLeTotalPreorder | curtin/storage_config.py:347 | ordering the type names is a total preorder |
| StorageMerge.GroupByType | curtin/storage_config.py:339-344 | the loop builds a map from each type present to its configs in input order |
| StorageMerge.SortLevel | curtin/storage_config.py:338-353 | the method computes the grouped and sorted level exactly |
| StorageMerge.SortLevelPermutation | curtin/storage_config.py:338-353 | a sorted level is a permutation of its configs |
| StorageMerge.SortLevelOrdered | curtin/storage_config.py:338-353 | a sorted level is ordered by type name, and then by the type's sort key |
| StorageMerge.GroupSortedTypes | curtin/storage_config.py:347-351 | a sorted group holds only its type, which is known, ordered by its sort key |
| StorageMerge.GroupSortedStable | curtin/storage_config.py:347-351 | within a type, items whose sort keys tie keep the order the level listed them in |
| StorageMerge.LevelConfigs | curtin/storage_config.py:359-361 | the loop collects exactly the registry items at that level, in order |
| StorageMerge.BuildRegistry | curtin/storage_config.py:326-336 | the loop returns the registry and `max_level` exactly |
| StorageMerge.MergeLevel | curtin/storage_config.py:357-364 | one level's pass extends the merged list by that level's sorted items |
| StorageMerge.MergeLevels | curtin/storage_config.py:357-364 | the level loop yields every level from 0 to `max_level` in order |
| StorageMerge.MergeConfigTreesToList | curtin/storage_config.py:306-366 | the method returns the merge exactly as the function defines it |
| StorageMerge.LevelsPermutation | curtin/storage_config.py:357-364 | the levels together are a permutation of the registry items in that level range |
| StorageMerge.MergedPermutation | curtin/storage_config.py:306-366 | the merged list is a permutation of the registry's items |
| StorageMerge.MergedTops | curtin/storage_config.py:306-366 | the merged list has distinct ids, exactly the top items of the trees |
| StorageMerge.MergedFirstTops | curtin/storage_config.py:333-366 | every merged item is the top of the first tree with its id, and its level is that tree's length |
| StorageMerge.MergedOrdered | curtin/storage_config.py:306-366 | the merged list runs from the least to the most dependent level, and each level is type-ordered |
| StorageMerge.MergedDropsRepeats | curtin/storage_config.py:333-336 | trees whose tops are already registered do not change the merge |
| StorageMerge.MergedTwice | curtin/storage_config.py:306-366 | merging a list of trees twice over gives the same result as merging it once |
| StorageMerge.LevelsExtend | curtin/storage_config.py:357 | levels above the highest registered level add nothing |
| PartTable.AlignUpSpec | curtin/commands/block_meta_v2.py:45-46 | `align_up` gives the least multiple of the block size that is at least the size |
| PartTable.AlignDownSpec | curtin/commands/block_meta_v2.py:49-50 | `align_down` gives the greatest multiple of the block size that is at most the size |
| PartTable.AndNotLowBits | curtin/commands/block_meta_v2.py:45-50 | masking with `~(b - 1)` for a power of two `b` removes the remainder modulo `b` |
| PartTable.OneMibSectors | curtin/commands/block_meta_v2.py:67-74 | sectors per MiB exist exactly when the sector size divides 1 MiB, and times the sector size make 1 MiB |
| PartTable.OneMibSectorsPow2 | curtin/commands/block_meta_v2.py:42-74 | an accepted sector size and the sectors per MiB are both powers of two |
| PartTable.TableLabel | curtin/commands/block_meta_v2.py:218-221 | `msdos` selects the DOS table, `gpt` the GPT table, and anything else neither |
| PartTable.SectorsRoundTrip | curtin/commands/block_meta_v2.py:76-80 | converting sectors to bytes and back is the identity |
| PartTable.BytesRoundTrip | curtin/commands/block_meta_v2.py:76-80 | converting bytes to sectors and back rounds down to a whole sector, and is exact only for whole sectors |
| PartTable.FlagToGuidInvertsGptMap | curtin/commands/block_meta_v2.py:53-55 | `FLAG_TO_GUID` inverts the flags of the GPT guid map |
| PartTable.FlagToMbrTypeDerived | curtin/commands/block_meta_v2.py:56-59 | each GPT flag's MBR type is the first two characters of its type code, upper-cased |
| PartTable.FlagToMbrTypeKeys | curtin/commands/block_meta_v2.py:56-60 | the MBR map has only GPT flags and `extended`, which maps to `05` |
| PartTable.MapGet | curtin/commands/block_meta_v2.py:119 | `dict.get` with an optional key finds a value exactly when the key is present |
| PartTable.LastIndexWhere | curtin/commands/block_meta_v2.py:139-143 | finds the last entry of the requested kind, and none of that kind follows it |
| PartTable.AddSpec | curtin/commands/block_meta_v2.py:109-186 | adding fails exactly in the DOS error cases, and otherwise appends the new entry; GPT has no extended partition |
| PartTable.GptAddKeepsLayout | curtin/commands/block_meta_v2.py:109-123 | an unplaced GPT partition is always added, starts less than 1 MiB after the previous partition's end, and keeps the table laid out |
| PartTable.GptLayout | curtin/commands/block_meta_v2.py:109-123 | adding unplaced GPT partitions never fails and keeps the layout; one entry is added per action |
| PartTable.GptStartsIncrease | curtin/commands/block_meta_v2.py:114-118 | in a laid-out table of non-empty partitions, starts strictly increase |
| PartTable.LastLogicalOfLogicals | curtin/commands/block_meta_v2.py:139-143 | the last logical entry is the last of the logical entries, and there is none exactly when there are no logicals |
| PartTable.DosLogicalNumber | curtin/commands/block_meta_v2.py:136-162 | a logical partition is numbered 5 plus the number of earlier logicals, whatever number it asks for |
| PartTable.DosNumbering | curtin/commands/block_meta_v2.py:131-186 | adding DOS partitions numbers logicals consecutively from 5, in table order, and only under an extended partition |
| PartTable.DosLogicalStart | curtin/commands/block_meta_v2.py:151-162 | an unplaced logical starts on a 1 MiB boundary, between 1 and 2 MiB after the extended partition's start or the previous logical's end |
| PartTable.DosPrimaryStart | curtin/commands/block_meta_v2.py:163-176 | an unplaced primary gets a number of at most 4 and starts at 1 MiB or at the aligned end of the last primary |
| PartTable.DosFlags | curtin/commands/block_meta_v2.py:177-186 | the DOS entry's type comes from the MBR map, it is bootable exactly for `boot`, has no uuid, and an `extended` entry becomes the extended partition |
| PartTable.GptFields | curtin/commands/block_meta_v2.py:109-123 | the GPT entry's number, size, uuid and type come from the action and the flag-to-guid map |
| PartTable.FindLastLogical | curtin/commands/block_meta_v2.py:139-143 | the reverse loop finds the last logical entry |
| PartTable.FindLastPrimary | curtin/commands/block_meta_v2.py:168-171 | the forward loop finds the last primary entry |
| PartTable.SfdiskTable.constructor | curtin/commands/block_meta_v2.py:67-74 | a new table is empty, with no extended partition, for the given label and sector size |
| PartTable.NewTable | curtin/commands/block_meta_v2.py:67-74 | constructing a table succeeds exactly when the sector size divides 1 MiB, and otherwise reports that error |
| PartTable.SfdiskTable.Add | curtin/commands/block_meta_v2.py:109-186 | `add` returns the new entry and updates the table as the add function says, and on error changes nothing |
| PartTable.SfdiskTable.AddGpt | curtin/commands/block_meta_v2.py:109-123 | the GPT `add` updates the table exactly as the GPT function says |
| PartTable.SfdiskTable.AddDos | curtin/commands/block_meta_v2.py:131-186 | the DOS `add` updates the table exactly as the DOS function says, and on error changes nothing |
| PartTable.RenderEntryNumber | curtin/commands/block_meta_v2.py:31-39 | a rendered entry begins with its number, which parses back |
| PartTable.RenderEntryOneLine | curtin/commands/block_meta_v2.py:31-39 | a rendered entry is a single line when its type and uuid are |
| PartTable.TableRenderLines | curtin/commands/block_meta_v2.py:82-84 | splitting the script at newlines gives the label header, a blank line and one line per entry |
| PartTable.WipeForAction | curtin/commands/block_meta_v2.py:197-206 | an explicit wipe wins; otherwise there is no wipe exactly for preserved or extended partitions, and `superblock` for the rest |
| PartTable.FindPartInfo | curtin/commands/block_meta_v2.py:189-194 | finds the first sfdisk partition at the offset, and fails exactly when there is none |
| PartTable.Plan | curtin/commands/block_meta_v2.py:233-250 | a successful plan adds one entry per action and keeps the earlier entries |
| PartTable.PlanPartitions | curtin/commands/block_meta_v2.py:233-250 | the loop of `disk_handler_v2` leaves the table and returns the plan exactly as the plan function says, including errors |
| PartTable.PlanErrPersists | curtin/commands/block_meta_v2.py:233-250 | an error in a prefix of the actions is the error of the whole loop |
| PartTable.PlanWipeKeys | curtin/commands/block_meta_v2.py:248 | the wipe map has exactly the starts of the added entries as keys |
| PartTable.PlanWipeLast | curtin/commands/block_meta_v2.py:248 | each added start maps to the wipe of the last action placed there |
| PartTable.PlanPreserved | curtin/commands/block_meta_v2.py:236-247 | the preserved offsets are exactly the starts of the preserved actions' entries |
| PartTable.PlanPreservedExist | curtin/commands/block_meta_v2.py:236-247 | every preserved offset is the start of a partition sfdisk reports |
| PartTable.PlanQuickZero | curtin/commands/block_meta_v2.py:249-250 | the quick-zero offsets are the byte starts of the entries that are wiped, in order, one at most per action |
| PartTable.DeleteWipes | curtin/commands/block_meta_v2.py:253-257 | the partitions wiped for deletion are exactly the existing ones whose start is not preserved |
| PartTable.PreservedNotDeleted | curtin/commands/block_meta_v2.py:253-257 | a preserved partition is never wiped for deletion |
| PartTable.NewPartitionWipes | curtin/commands/block_meta_v2.py:261-266 | fails exactly when a partition after the write has no wipe entry, and otherwise lists each partition with its wipe mode |
| Mdadm.AssertValidDevpath | curtin/block/mdadm.py:481-487 | a devpath passes exactly when present and starting with `/dev`, and otherwise raises the invalid-devpath error |
| Mdadm.RaidlevelShortForms | curtin/block/mdadm.py:512-517 | the number `n`, the text of `n` and `raid<n>` all have short form `n` |
| Mdadm.RaidlevelShortNotNumber | curtin/block/mdadm.py:512-517 | a name other than `linear`, `stripe` and `container` holding a printable, non-blank ASCII character that is not a digit, a sign, `_` or a letter of `raid` (as in `mirror`, `abc`, `raidx`) has no short form: `int()` raises on the `raid`-stripped text |
| Mdadm.MinimumDevicesTable | curtin/block/mdadm.py:520-527 | levels 0 and 1 need 2 devices, 5 needs 3, 6 and 10 need 4, every other number gives -1, and `linear`, `stripe` and `container` need 2 |
| Mdadm.MinimumDevicesOfValid | curtin/block/mdadm.py:27-40 | every valid level except `mirror` and the raid4 spellings needs at least 2 devices; raid4 gives -1 and `mirror` fails |
| Mdadm.ValidLevelCases | curtin/block/mdadm.py:27-40 | every valid level is a named level, `mirror`, or a spelling of 0, 1, 4, 5, 6 or 10 |
| Mdadm.CreateCheck | curtin/block/mdadm.py:159-176 | a passing check yields the member count: the container's members when a container is named, the devices otherwise |
| Mdadm.CreateRejects | curtin/block/mdadm.py:149-213 | an invalid devpath, an invalid level, too few devices and spares on a no-spare level are rejected in that order; a built command had a valid devpath and level, allowed spares, no member with holders, and every member and spare zeroed without error |
| Mdadm.CreateFailsAtMember | curtin/block/mdadm.py:201-207 | once the checks pass, the first member that has holders or cannot be zeroed stops the creation with that error, before any later member is looked at |
| Mdadm.CreateFailsAtSpare | curtin/block/mdadm.py:209-213 | with every member accepted, the first spare that cannot be zeroed stops the creation with that error |
| Mdadm.ZeroErrorMissingOffset | curtin/block/mdadm.py:401-409 | a device with 1.1 or 1.2 metadata but no `super_offset` field cannot be zeroed: reading the field raises |
| Mdadm.AppendDevices | curtin/block/mdadm.py:201-213 | the loop checks each device for holders, zeroes it and appends its path, and stops with the error of the first device refused |
| Mdadm.FirstFailureAt | curtin/block/mdadm.py:201-207 | a refused device after accepted ones is the first failure, and its error is the preparation's error |
| Mdadm.AppendSpares | curtin/block/mdadm.py:209-213 | the spares are added after the members as `--spare-devices=<n>` and their paths, each zeroed first; the first that cannot be zeroed stops the loop with its error |
| Mdadm.BuildCreateCommand | curtin/block/mdadm.py:149-213 | the method builds exactly the `mdadm --create` command the function defines, failing where it fails |
| Mdadm.CreateCommandHead | curtin/block/mdadm.py:178-197 | the command starts `mdadm --create <md> --run`, then `--homehost=` with the stripped hostname, then a `--raid-devices=` count that parses back to the member count |
| Mdadm.CreateCommandTail | curtin/block/mdadm.py:198-210 | the command ends with the members and spares, and the spare count parses back |
| Mdadm.CreateFlagsPresent | curtin/block/mdadm.py:185-197 | `--metadata` appears exactly without a container (`default` when none is given), `--level` exactly for levels other than `container`, `--name` exactly when a name is given, and a container adds one option |
| Mdadm.CheckRaidlevel | curtin/block/mdadm.py:689-708 | the level check passes exactly when the level is valid and the array's level equals its normalised form |
| Mdadm.NormalizeAgreesWithShort | curtin/block/mdadm.py:694-704 | numeric levels normalise to `raid<n>`, `stripe` to `raid0`, and other names to themselves |
| Mdadm.NormalizeMirror | curtin/block/mdadm.py:694-704 | among valid levels the short form fails exactly for `mirror`; normalising maps it to `raid1` |
| Mdadm.NormalizeForms | curtin/block/mdadm.py:694-704 | every spelling of a number below 100 normalises to `raid<n>` |
| Mdadm.CheckRaidlevelAccepts | curtin/block/mdadm.py:689-708 | an array reporting the normalised level passes, and any failure is a level mismatch |
| Mdadm.CompareDevlist | curtin/block/mdadm.py:677-686 | passes exactly when the expected and found members are the same set, and the error lists what is missing and what is extra |
| Mdadm.CompareDevlistSetwise | curtin/block/mdadm.py:677-686 | the comparison ignores order and repetition |
| Mdadm.CompareDevlistWitness | curtin/block/mdadm.py:677-686 | a failure names at least one device, each missing one expected and not found, each extra one found and not expected |
| Mdadm.ArrayStateModes | curtin/block/mdadm.py:530-540 | only the modes READWRITE, READONLY and ERROR are accepted, and no state is in two of their lists |
| Mdadm.CheckArrayState | curtin/block/mdadm.py:727-741 | passes exactly when the array is writable, not degraded, and idle or resyncing; each failure is reported in the source's order |
| Mdadm.CheckArrayStateRaid0 | curtin/block/mdadm.py:731-741 | without a degraded attribute (raid0) only writability matters |
| Mdadm.FieldOffset | curtin/block/mdadm.py:403-416 | an offset taken from the examine output is a whole number of 512-byte sectors, in bytes |
| Mdadm.FieldOffsetsBounds | curtin/block/mdadm.py:403-416 | there is at most one offset per field, and each is a multiple of 512 |
| Mdadm.FieldOffsetsErr | curtin/block/mdadm.py:403-416 | a field whose offset does not parse stops the loop with that error |
| Mdadm.CollectOffsets | curtin/block/mdadm.py:403-416 | the loop over the offset fields builds the offset list exactly |
| Mdadm.ZeroDeviceOffsets | curtin/block/mdadm.py:384-421 | the method computes the zeroing plan exactly |
| Mdadm.ZeroPlanShape | curtin/block/mdadm.py:384-421 | nothing is zeroed exactly for a valid devpath with no metadata and no force; any plan is the default offsets or one or two sector-aligned offsets; versions other than 1.1 and 1.2 get the default offsets |
| Mdadm.ZeroPlanUnits | curtin/block/mdadm.py:403-416 | for version 1.1 or 1.2 with offsets written `<n> <unit>`, the plan zeroes `n * 512` for each offset in sectors, and the default offsets when neither is in sectors |
| Mdadm.MdPresent | curtin/block/mdadm.py:448-451 | raises exactly when the name is missing or empty |
| Mdadm.MdPresentOneLine | curtin/block/mdadm.py:448-469 | with a one-line mdstat, the array is present exactly when that line names it |
| Mdadm.MdPresentPrefix | curtin/block/mdadm.py:462-469 | a name that runs on into another character on the line (`md1` in a line for `md10`) is not present |
| Mdadm.MdPresentPath | curtin/block/mdadm.py:448-469 | a `/dev/md0` path matches an `md0 :` line; a missing name is absent; an empty name raises |
| Mdadm.DeviceKeyRole | curtin/block/mdadm.py:619-622 | raises exactly for a missing or empty name; otherwise the key starts with `MD_DEVICE_` and ends with `_ROLE` |
| Mdadm.DeviceKeyDev | curtin/block/mdadm.py:625-628 | raises exactly for a missing or empty name; otherwise the key starts with `MD_DEVICE_` and ends with `_DEV` |
| Mdadm.DeviceKeys | curtin/block/mdadm.py:619-628 | the middle of each key is the device's short name; two names give the same key exactly when their short names agree; a role key is never a dev key |
| Swap.ScanIsReference | curtin/swap.py:32-53 | the scan over the formula table equals the piecewise definition of the suggestion |
| Swap.SwapsizeBounds | curtin/swap.py:12-53 | with a non-negative maximum, the suggestion lies between 0 and the maximum |
| Swap.SwapsizeAtMostMax | curtin/swap.py:45-53 | the suggestion is 0 or at most the maximum |
| Swap.SwapsizeLargeMemory | curtin/swap.py:53 | above 64 GiB of memory, the suggestion is the maximum |
| Swap.SwapsizeCapped | curtin/swap.py:45-51 | within the table, the suggestion is the formula capped by the maximum, or 0 exactly when that is below half the memory and below 4 GiB |
| Swap.SwapsizeNotSmall | curtin/swap.py:49-50 | a non-zero suggestion from the table is at least 4 GiB or at least half the memory |
| Swap.SwapsizeExamples | curtin/swap.py:12-53 | 0.5 GiB gives 1 GiB, 3 GiB gives 3 GiB, 8 GiB gives 4 GiB, 32 and 128 GiB give 8 GiB, 8 GiB with a 1 GiB maximum gives 0, and 32 GiB with a 20 GiB maximum gives 16 GiB |
| Swap.MaxOrDefault | curtin/swap.py:20-22 | without a maximum, the maximum is 8 GiB |
| Swap.SwapfilePath | curtin/swap.py:119-123 | no name gives `/swap.img`, and a relative name gets a leading `/` |
| Swap.SwapfilePathIdempotent | curtin/swap.py:119-123 | normalising a swap file path twice changes nothing more |
| Swap.CanUseSwapfile | curtin/swap.py:94-107 | passes exactly when the type is known, not zfs, and btrfs and xfs have a kernel version, with btrfs at major 5 or later |
| Swap.CanUseSwapfileRefuses | curtin/swap.py:94-107 | an unknown filesystem and zfs are refused for any kernel |
| Swap.CanUseSwapfileKernel | curtin/swap.py:98-105 | the kernel does not matter except for btrfs and xfs; for xfs only whether it is known matters; btrfs fails on kernel 4 and passes on 5 |
| Swap.SetupSwapfile | curtin/swap.py:110-135 | the zero-size skip happens exactly when the size is 0; a created file has the normalised path and the given size |
| Swap.SetupSwapfileForce | curtin/swap.py:126-134 | with `force` a refusal becomes a warning and the file is created; without it nothing is created |

## Left out

- Reading and writing the disk: running `sfdisk` and `partprobe`
  (`SFDiskPartTable.apply`), `wipe_volume`, `zero_file_at_offsets`, and
  `mdadm` itself. The model computes the script, the command line and the wipe
  plan these would be given.
- `disk_handler_v1`, `partition_handler_v1`, `partition_handler_v2`,
  `partition_verify_sfdisk` and `make_dname`: these act on the installed system
  or wrap the v1 handlers.
- PartTable.BytesToSectors: `util.human2bytes` is not modelled. Sizes and
  offsets are byte counts already.
- PartTable.WipeForAction: an action's `wipe` is optional, so an explicit
  `wipe: null` is not told apart from an absent key.
- The probert parsers, `extract_storage_config`, `validate_config` and the
  jsonschema schemas are left out, apart from `valid_id` and
  `partition_parent_devname`. They translate hardware probes and check a
  schema, not the dependency logic.
- StorageDeps.FindItemDependencies: it requires an acyclic config (a rank map),
  where the source would recurse until Python's stack limit.
- StorageDeps.Targets: a numeric dependency value is reported as an error, not
  passed on to the lookup.
- Mdadm.BuildCreateCommand: these are passed in as values:
  - the hostname;
  - the holders of each device;
  - the `mdadm --examine` data of each device, from which the zeroing plan
    and its errors are computed.
  The wipe itself (`zero_file_at_offsets`) and its I/O errors, an error of
  `mdadm --examine` itself, the udev settle and the command's own failure are
  not modelled.
- Mdadm.DevShort: `dev_short` is taken to be the path's last component.
  `curtin/block/__init__.py` is not part of this model.
- Mdadm.RaidlevelShortNotNumber: the lemma covers only names holding a
  printable ASCII character that `int()` can never accept. Names made only of
  digits, signs, `_`, blanks, non-ASCII characters and the letters of `raid`
  are left to `Text.ParseInt` (see the `int()` line below), and no lemma
  states which of them `int()` refuses (such as `ria` or `5-`).
- StorageConfig.ValidId: the hex body is read with ASCII hex digits only.
  Python's `int(id, 16)` also accepts non-ASCII decimal digits (such as `٠`
  or `０`). So a `0x` id whose zeros are such digits (`0x٠`) is rejected by
  the source but accepted by the model, which takes it for a body that does
  not parse; one whose body has such a non-zero digit is accepted by both.
- StorageConfig.PtableUuidToFlagEntry: upper-casing maps ASCII letters only.
  Python's `str.upper()` is Unicode-aware (`'ı'.upper()` is `'I'`), so a code
  with such characters can match in the source and not in the model.
- Text.ParseInt: the model accepts an optional sign and ASCII decimal digits
  only. Python's `int()` also accepts:
  - surrounding whitespace of any kind, Unicode whitespace such as `\xa0`
    included (`'raid 5'` and `'raid5\t'` give 5 in `md_raidlevel_short`);
  - `_` between digits (`'raid1_0'` gives 10);
  - non-ASCII decimal digits (`'raid٥'` gives 5).
  For such names `RaidlevelShort` reports an error where the source returns
  a number.
- Mdadm.MdPresent: an `IOError` other than a missing `/proc/mdstat` is not
  modelled. The mdstat lines are a parameter.
- `md_sysfs_attr`, `valid_mdname` and `is_valid_device` read the system. The
  sysfs values they return are parameters.
- The assemble, examine, stop, remove, sync-action and retry loops in
  `curtin/block/mdadm.py`: they poll the kernel and sleep.
- Swap.SuggestedSwapsize: these are left out:
  - the `fsys` branch, which uses `get_fs_use_info`;
  - reading memory from `/proc/meminfo`.
  Memory size is a parameter. Python floats are modelled as exact reals.
- Swap.SetupSwapfile: these are left out:
  - the size suggestion when no size is given;
  - `get_fstype` and `get_target_kernel_version`, whose results are parameters;
  - creating the file, `mkswap` and the fstab entry.

=== FILE: mdadm.dfy ===
/**
 * The decision logic of the md RAID helpers: device-path checks, raid-level
 * normalisation and minimum member counts, the validation and argument list
 * of `mdadm --create`, the checks run on an assembled array, the offsets at
 * which a former member is wiped, and the reading of /proc/mdstat.
 *
 * Whatever the helpers learn from the running system (the host name, the
 * members of a container, the holders of a device, the `mdadm --examine`
 * metadata, sysfs attributes, the text of /proc/mdstat) is a parameter here.
 */
module Mdadm {
  import opened Wrappers
  import opened Text

  /** A raid level as the configuration gives it: a Python int or a str. */
  datatype Level = Num(n: int) | Name(s: string)

  datatype MdError =
    | InvalidDevpath(devpath: Option<string>)
    | InvalidRaidLevel(level: Level)
    | NotAnInteger(text: string)
    | NotEnoughDevices(count: nat, minimum: int)
    | SparesNotSupported(level: Level)
    | HoldersPresent(device: string)
    | LevelMismatch(expected: string, actual: Option<string>)
    | DeviceListMismatch(missing: set<string>, extra: set<string>)
    | InvalidStateMode(mode: string)
    | NotWritable
    | Degraded(degraded: string)
    | NotIdle(syncAction: Option<string>)
    | EmptyName
    | MissingField(field: string)
    | BadOffsetField(field: string, value: string)

  /** Levels that take no spare devices. */
  const NospareLevels: seq<Level> :=
    [Name("linear"), Name("raid0"), Name("0"), Num(0), Name("container")]

  /** Levels that take spare devices. */
  const SpareLevels: seq<Level> :=
    [Name("raid1"), Name("stripe"), Name("mirror"), Name("1"), Num(1),
     Name("raid4"), Name("4"), Num(4),
     Name("raid5"), Name("5"), Num(5),
     Name("raid6"), Name("6"), Num(6),
     Name("raid10"), Name("10"), Num(10)]

  const ValidLevels: seq<Level> := NospareLevels + SpareLevels

  /** A Python string argument that may be None; both None and "" are false. */
  predicate Truthy(s: Option<string>) {
    s.Some? && s.value != []
  }

  // ---------------------------------------------------------------- paths

  /** A device path is valid when it is given, non-empty and under /dev. */
  predicate ValidDevpath(devpath: Option<string>) {
    Truthy(devpath) && StartsWith(devpath.value, "/dev")
  }

  function AssertValidDevpath(devpath: Option<string>): (r: Outcome<MdError>)
    ensures r.Pass? <==> devpath.Some? && |devpath.value| >= 4 && devpath.value[..4] == "/dev"
    ensures r.Fail? ==> r.error == InvalidDevpath(devpath)
  {
    if ValidDevpath(devpath) then Pass else Fail(InvalidDevpath(devpath))
  }

  /** The short kernel name of a device: the last component of its path. */
  function DevShort(devname: string): (r: string)
    ensures '/' !in r && EndsWith(devname, r)
  {
    Basename(devname)
  }

  // ---------------------------------------------------------- raid levels

  /** The text Python's str() and f-strings give a level. */
  function LevelText(l: Level): string {
    match l
    case Num(n) => IntToString(n)
    case Name(s) => s
  }

  /**
   * The short form of a level: ints and the named levels unchanged, every
   * other string read as an integer once "raid" is deleted from it.
   */
  function RaidlevelShort(l: Level): Result<Level, MdError> {
    match l
    case Num(_) => Ok(l)
    case Name(s) =>
      if s in ["linear", "stripe", "container"] then Ok(l)
      else
        var digits := RemoveAll(s, "raid");
        match ParseInt(digits)
        case None => Err(NotAnInteger(digits))
        case Some(n) => Ok(Num(n))
  }

  lemma {:induction false} RemoveAllAbsent(s: string, pat: string)
    requires pat != [] && pat[0] !in s
    ensures RemoveAll(s, pat) == s
    decreases |s|
  {
    if |s| >= |pat| {
      assert s[0] != pat[0];
      RemoveAllAbsent(s[1..], pat);
      assert s == [s[0]] + s[1..];
    }
  }

  /** "raidN" and N, as int or as str, all have the short form N. */
  lemma RaidlevelShortForms(n: nat)
    ensures RaidlevelShort(Num(n)) == Ok(Num(n))
    ensures RaidlevelShort(Name(NatToString(n))) == Ok(Num(n))
    ensures RaidlevelShort(Name("raid" + NatToString(n))) == Ok(Num(n))
  {
    var d := NatToString(n);
    assert 'r' !in d by {
      forall i | 0 <= i < |d| ensures d[i] != 'r' { assert IsDigit(d[i]); }
    }
    RemoveAllAbsent(d, "raid");
    var s := "raid" + d;
    assert s[..4] == "raid" && s[4..] == d;
    assert RemoveAll(s, "raid") == RemoveAll(d, "raid");
    IntToStringRoundTrip(n);
    assert d !in ["linear", "stripe", "container"] by {
      assert IsDigit(d[0]);
    }
    assert s !in ["linear", "stripe", "container"] by {
      assert s[0] == 'r' && s[1] == 'a';
    }
  }

  /** The fewest members an array of the level can be created with; -1 for no minimum. */
  function MinimumDevices(l: Level): Result<int, MdError> {
    var rl :- RaidlevelShort(l);
    if rl in [Num(0), Num(1), Name("linear"), Name("stripe"), Name("container")] then Ok(2)
    else if rl == Num(5) then Ok(3)
    else if rl in [Num(6), Num(10)] then Ok(4)
    else Ok(-1)
  }

  /** The table of minimum member counts by level number. */
  lemma MinimumDevicesTable(n: int)
    ensures MinimumDevices(Num(n)) == Ok(if n in {0, 1} then 2 else if n == 5 then 3
                                          else if n in {6, 10} then 4 else -1)
    ensures MinimumDevices(Name("linear")) == MinimumDevices(Name("stripe")) ==
            MinimumDevices(Name("container")) == Ok(2)
  {
  }

  /** The three spellings of level k: the int, its digits, and "raid" before its digits. */
  predicate SpellingOf(l: Level, k: nat) {
    l == Num(k) || l == Name(NatToString(k)) || l == Name("raid" + NatToString(k))
  }

  predicate NamedLevel(l: Level) {
    l == Name("linear") || l == Name("stripe") || l == Name("container")
  }

  /** The int, "N" and "raidN" spellings of a level have the same minimum. */
  lemma MinimumDevicesSpellings(l: Level, k: nat)
    requires SpellingOf(l, k)
    ensures MinimumDevices(l) == MinimumDevices(Num(k))
  {
    RaidlevelShortForms(k);
  }

  /**
   * A level name other than the named levels that holds a printable ASCII
   * character which is not a digit, a sign, an underscore or a letter of
   * "raid" has no short form: the character survives the removal of "raid",
   * and int() accepts it neither as a digit, nor as whitespace, nor as a
   * digit separator.
   */
  lemma RaidlevelShortNotNumber(s: string, i: nat)
    requires i < |s| && '!' <= s[i] <= '~'
    requires !IsDigit(s[i]) && s[i] !in "raid-+_"
    requires s !in ["linear", "stripe", "container"]
    ensures RaidlevelShort(Name(s)) == Err(NotAnInteger(RemoveAll(s, "raid")))
  {
    var r := RemoveAll(s, "raid");
    RemoveAllKeeps(s, "raid", s[i]);
    var j :| 0 <= j < |r| && r[j] == s[i];
    assert !AllDigits(r) by { assert !IsDigit(r[j]); }
    if |r| > 1 && j > 0 {
      assert !AllDigits(r[1..]) by { assert r[1..][j - 1] == r[j]; }
    }
  }

  /** A character that is not in the pattern is kept by the removal. */
  lemma {:induction false} RemoveAllKeeps(s: string, pat: string, c: char)
    requires pat != [] && c in s && c !in pat
    ensures c in RemoveAll(s, pat)
    decreases |s|
  {
    if |s| >= |pat| {
      if s[..|pat|] == pat {
        assert s == s[..|pat|] + s[|pat|..];
        assert c in s[|pat|..];
        RemoveAllKeeps(s[|pat|..], pat, c);
      } else if s[0] != c {
        var k :| 0 <= k < |s| && s[k] == c;
        assert s[1..][k - 1] == c;
        RemoveAllKeeps(s[1..], pat, c);
        assert RemoveAll(s, pat) == [s[0]] + RemoveAll(s[1..], pat);
      } else {
        assert RemoveAll(s, pat) == [s[0]] + RemoveAll(s[1..], pat);
      }
    }
  }

  lemma TenText()
    ensures NatToString(10) == "10"
  {
    assert NatToString(10) == NatToString(1) + [DigitChar(0)];
  }

  lemma DigitTexts()
    ensures NatToString(0) == "0" && NatToString(1) == "1" && NatToString(4) == "4"
    ensures NatToString(5) == "5" && NatToString(6) == "6" && NatToString(10) == "10"
  {
    TenText();
  }

  lemma NospareCases(l: Level)
    requires l in NospareLevels
    ensures NamedLevel(l) || SpellingOf(l, 0)
  {
    DigitTexts();
  }

  lemma SpareCases(l: Level)
    requires l in SpareLevels
    ensures l == Name("stripe") || l == Name("mirror") || SpellingOf(l, 1) ||
            SpellingOf(l, 4) || SpellingOf(l, 5) || SpellingOf(l, 6) || SpellingOf(l, 10)
  {
    DigitTexts();
  }

  /** Every valid level is a named level, "mirror", or a spelling of 0, 1, 4, 5, 6 or 10. */
  lemma ValidLevelCases(l: Level)
    requires l in ValidLevels
    ensures NamedLevel(l) || l == Name("mirror") || SpellingOf(l, 0) || SpellingOf(l, 1) ||
            SpellingOf(l, 4) || SpellingOf(l, 5) || SpellingOf(l, 6) || SpellingOf(l, 10)
  {
    if l in NospareLevels {
      NospareCases(l);
    } else {
      SpareCases(l);
    }
  }

  /** The minimum of a spelling of level k is that of the int k. */
  lemma MinimumOfSpelling(l: Level, k: nat)
    requires SpellingOf(l, k)
    ensures MinimumDevices(l) == Ok(if k in {0, 1} then 2 else if k == 5 then 3
                                    else if k in {6, 10} then 4 else -1)
  {
    MinimumDevicesSpellings(l, k);
    MinimumDevicesTable(k);
  }

  /** The three spellings of level k have the short form k. */
  lemma LevelNumber(l: Level, k: nat)
    requires SpellingOf(l, k)
    ensures RaidlevelShort(l) == Ok(Num(k))
  {
    RaidlevelShortForms(k);
  }

  /**
   * Every valid level has a minimum of at least two, except the spellings of
   * raid4 (no minimum) and "mirror" (no short form, so int() fails).
   */
  lemma MinimumDevicesOfValid(l: Level)
    requires l in ValidLevels
    ensures l != Name("mirror") && !SpellingOf(l, 4) ==> MinimumDevices(l).Ok? && MinimumDevices(l).value >= 2
    ensures SpellingOf(l, 4) ==> MinimumDevices(l) == Ok(-1)
    ensures l == Name("mirror") ==> MinimumDevices(l).Err?
  {
    ValidLevelCases(l);
    RaidlevelShortNotNumber("mirror", 0);
    if SpellingOf(l, 4) {
      MinimumOfSpelling(l, 4);
      LevelNumber(l, 4);
    } else if SpellingOf(l, 0) {
      MinimumAtLeastTwo(l, 0);
    } else if SpellingOf(l, 1) {
      MinimumAtLeastTwo(l, 1);
    } else if SpellingOf(l, 5) {
      MinimumAtLeastTwo(l, 5);
    } else if SpellingOf(l, 6) {
      MinimumAtLeastTwo(l, 6);
    } else if SpellingOf(l, 10) {
      MinimumAtLeastTwo(l, 10);
    }
  }

  /** A level has one spelled number at most. */
  lemma SpellingUnique(l: Level, j: nat, k: nat)
    ensures SpellingOf(l, j) && SpellingOf(l, k) ==> j == k
  {
    if SpellingOf(l, j) && SpellingOf(l, k) {
      LevelNumber(l, j);
      LevelNumber(l, k);
    }
  }

  /** A spelling of 0, 1, 5, 6 or 10 needs at least two members and is neither raid4 nor "mirror". */
  lemma MinimumAtLeastTwo(l: Level, k: nat)
    requires SpellingOf(l, k) && k in {0, 1, 5, 6, 10}
    ensures MinimumDevices(l).Ok? && MinimumDevices(l).value >= 2
    ensures !SpellingOf(l, 4) && l != Name("mirror")
  {
    MinimumOfSpelling(l, k);
    LevelNumber(l, k);
    SpellingUnique(l, k, 4);
    RaidlevelShortNotNumber("mirror", 0);
  }

  // ------------------------------------------------------- mdadm --create

  /** The arguments of an array creation. */
  datatype CreateArgs = CreateArgs(
    mdDevname: Option<string>,
    level: Level,
    devices: seq<string>,
    spares: seq<string>,
    container: Option<string>,
    mdName: string,
    metadata: Option<string>)

  /**
   * The checks made before any command is built. `containerMembers` stands
   * for the member list of the container, read from the system. On success
   * the result is the member count passed as --raid-devices.
   */
  function CreateCheck(a: CreateArgs, containerMembers: seq<string>): (r: Result<nat, MdError>)
    ensures r.Ok? ==> r.value == if Truthy(a.container) then |containerMembers| else |a.devices|
  {
    if !ValidDevpath(a.mdDevname) then Err(InvalidDevpath(a.mdDevname))
    else if a.level !in ValidLevels then Err(InvalidRaidLevel(a.level))
    else
      var minimum :- MinimumDevices(a.level);
      var count := if Truthy(a.container) then |containerMembers| else |a.devices|;
      if count < minimum then Err(NotEnoughDevices(count, minimum))
      else if a.spares != [] && a.level !in SpareLevels then Err(SparesNotSupported(a.level))
      else Ok(count)
  }

  /** The metadata version passed when there is no container. */
  function MetadataOr(metadata: Option<string>): string {
    if Truthy(metadata) then metadata.value else "default"
  }

  /** The six arguments every creation starts with. */
  function CreateHead(md: string, hostname: string, count: nat): seq<string> {
    ["mdadm", "--create", md, "--run", "--homehost=" + Strip(hostname), "--raid-devices=" + NatToString(count)]
  }

  /** The flags between the head and the member devices. */
  function CreateFlags(a: CreateArgs): seq<string> {
    (if !Truthy(a.container) then ["--metadata=" + MetadataOr(a.metadata)] else []) +
    (if a.level != Name("container") then ["--level=" + LevelText(a.level)] else []) +
    (if a.mdName != [] then ["--name=" + a.mdName] else [])
  }

  /** The flags, then the container when there is one. */
  function CreateOptions(a: CreateArgs): seq<string> {
    CreateFlags(a) + (if Truthy(a.container) then [a.container.value] else [])
  }

  function SpareArgs(spares: seq<string>): seq<string> {
    if spares == [] then [] else ["--spare-devices=" + NatToString(|spares|)] + spares
  }

  /** The `mdadm --examine` data of a device, {} when it reports none. */
  function Examined(examine: map<string, map<string, string>>, d: string): map<string, string> {
    if d in examine then examine[d] else map[]
  }

  /** The error `zero_device` (without force) raises for device d, if any. */
  function ZeroError(d: string, examine: map<string, map<string, string>>): Option<MdError> {
    match ZeroPlan(Some(d), Examined(examine, d), false)
    case Err(e) => Some(e)
    case Ok(_) => None
  }

  /** A device is refused when it still has holders, and otherwise when zeroing it fails. */
  function DeviceError(d: string, busy: set<string>, examine: map<string, map<string, string>>): Option<MdError> {
    if d in busy then Some(HoldersPresent(d)) else ZeroError(d, examine)
  }

  /** The first device, in order, that is refused. */
  function FirstFailure(devices: seq<string>, busy: set<string>, examine: map<string, map<string, string>>)
    : (r: Option<nat>)
    ensures r.Some? ==> r.value < |devices| && DeviceError(devices[r.value], busy, examine).Some? &&
                        forall j :: 0 <= j < r.value ==> DeviceError(devices[j], busy, examine).None?
    ensures r.None? ==> forall j :: 0 <= j < |devices| ==> DeviceError(devices[j], busy, examine).None?
  {
    if devices == [] then None
    else if DeviceError(devices[0], busy, examine).Some? then Some(0)
    else match FirstFailure(devices[1..], busy, examine)
      case None => None
      case Some(k) => Some(k + 1)
  }

  /**
   * The devices in order, once each has been checked for holders and
   * zeroed, or the error of the first one refused.
   */
  function PrepareDevices(devices: seq<string>, busy: set<string>, examine: map<string, map<string, string>>)
    : (r: Result<seq<string>, MdError>)
    ensures r.Ok? ==> r.value == devices
  {
    match FirstFailure(devices, busy, examine)
    case Some(k) => Err(DeviceError(devices[k], busy, examine).value)
    case None => Ok(devices)
  }

  /**
   * The command an array creation runs, or the error it raises first.
   * `hostname` is the output of `hostname -s`; `busy` is the set of devices
   * that have holders; `examine` holds each device's `mdadm --examine` data.
   * Members are checked for holders and zeroed one by one, then the spares
   * are zeroed (their holders are not checked).
   */
  function CreateCommand(a: CreateArgs, hostname: string, containerMembers: seq<string>,
                         busy: set<string>, examine: map<string, map<string, string>>): Result<seq<string>, MdError>
  {
    var count :- CreateCheck(a, containerMembers);
    var members :- PrepareDevices(a.devices, busy, examine);
    var spares :- PrepareDevices(a.spares, {}, examine);
    Ok(CreateHead(a.mdDevname.value, hostname, count) + CreateOptions(a) + members + SpareArgs(spares))
  }

  /** How a creation command is put together from the checks, the members and the spares. */
  lemma CreateCommandSteps(a: CreateArgs, hostname: string, containerMembers: seq<string>, busy: set<string>,
                           examine: map<string, map<string, string>>)
    ensures CreateCheck(a, containerMembers).Err? ==>
              CreateCommand(a, hostname, containerMembers, busy, examine) == Err(CreateCheck(a, containerMembers).error)
    ensures CreateCheck(a, containerMembers).Ok? && PrepareDevices(a.devices, busy, examine).Err? ==>
              CreateCommand(a, hostname, containerMembers, busy, examine) ==
              Err(PrepareDevices(a.devices, busy, examine).error)
    ensures CreateCheck(a, containerMembers).Ok? && PrepareDevices(a.devices, busy, examine).Ok? &&
            PrepareDevices(a.spares, {}, examine).Err? ==>
              CreateCommand(a, hostname, containerMembers, busy, examine) ==
              Err(PrepareDevices(a.spares, {}, examine).error)
    ensures CreateCheck(a, containerMembers).Ok? && PrepareDevices(a.devices, busy, examine).Ok? &&
            PrepareDevices(a.spares, {}, examine).Ok? ==>
              CreateCommand(a, hostname, containerMembers, busy, examine) ==
              Ok(CreateHead(a.mdDevname.value, hostname, MemberCount(a, containerMembers)) + CreateOptions(a) +
                 a.devices + SpareArgs(a.spares))
  {
  }

  /**
   * Appends the devices one by one: each is checked for holders, then
   * zeroed, then appended; the first refused device stops the loop.
   */
  method AppendDevices(cmd: seq<string>, devices: seq<string>, busy: set<string>,
                       examine: map<string, map<string, string>>)
    returns (r: Result<seq<string>, MdError>)
    ensures r.Ok? <==> PrepareDevices(devices, busy, examine).Ok?
    ensures r.Ok? ==> r.value == cmd + devices
    ensures r.Err? ==> r.error == PrepareDevices(devices, busy, examine).error
  {
    var out := cmd;
    var i := 0;
    while i < |devices|
      invariant 0 <= i <= |devices|
      invariant out == cmd + devices[..i]
      invariant forall j :: 0 <= j < i ==> DeviceError(devices[j], busy, examine).None?
    {
      var d := devices[i];
      if d in busy {
        FirstFailureAt(devices, busy, examine, i);
        return Err(HoldersPresent(d));
      }
      var zero := ZeroDeviceOffsets(Some(d), Examined(examine, d), false);
      if zero.Err? {
        FirstFailureAt(devices, busy, examine, i);
        return Err(zero.error);
      }
      out := out + [d];
      i := i + 1;
    }
    assert devices[..i] == devices;
    return Ok(out);
  }

  /** A refused device after accepted ones is the first failure. */
  lemma FirstFailureAt(devices: seq<string>, busy: set<string>, examine: map<string, map<string, string>>, i: nat)
    requires i < |devices| && DeviceError(devices[i], busy, examine).Some?
    requires forall j :: 0 <= j < i ==> DeviceError(devices[j], busy, examine).None?
    ensures FirstFailure(devices, busy, examine) == Some(i)
    ensures PrepareDevices(devices, busy, examine) == Err(DeviceError(devices[i], busy, examine).value)
  {
  }

  /**
   * Appends the spare count and the spares, zeroing each spare first (the
   * spares are not checked for holders).
   */
  method AppendSpares(cmd: seq<string>, spares: seq<string>, examine: map<string, map<string, string>>)
    returns (r: Result<seq<string>, MdError>)
    ensures r.Ok? <==> PrepareDevices(spares, {}, examine).Ok?
    ensures r.Ok? ==> r.value == cmd + SpareArgs(spares)
    ensures r.Err? ==> r.error == PrepareDevices(spares, {}, examine).error
  {
    if spares == [] {
      assert FirstFailure(spares, {}, examine).None?;
      return Ok(cmd);
    }
    var count := "--spare-devices=" + NatToString(|spares|);
    r := AppendDevices(cmd + [count], spares, {}, examine);
    assert SpareArgs(spares) == [count] + spares;
    assert cmd + [count] + spares == cmd + SpareArgs(spares);
  }

  /** Builds the creation command by appending, as the creation does. */
  method BuildCreateCommand(a: CreateArgs, hostname: string, containerMembers: seq<string>,
                            busy: set<string>, examine: map<string, map<string, string>>)
    returns (r: Result<seq<string>, MdError>)
    ensures r == CreateCommand(a, hostname, containerMembers, busy, examine)
  {
    CreateCommandSteps(a, hostname, containerMembers, busy, examine);
    var check := CreateCheck(a, containerMembers);
    if check.Err? {
      return Err(check.error);
    }
    var cmd := CreateHead(a.mdDevname.value, hostname, check.value);
    cmd := cmd + CreateFlags(a);
    if Truthy(a.container) {
      cmd := cmd + [a.container.value];
    }
    assert cmd == CreateHead(a.mdDevname.value, hostname, check.value) + CreateOptions(a);
    var members := AppendDevices(cmd, a.devices, busy, examine);
    if members.Err? {
      return Err(members.error);
    }
    r := AppendSpares(members.value, a.spares, examine);
  }

  /** No level both refuses and takes spares. */
  lemma NospareNotSpare(l: Level)
    requires l in NospareLevels
    ensures l !in SpareLevels
  {
  }

  /** The checks of a creation, in the order it makes them. */
  lemma CreateCheckRejects(a: CreateArgs, containerMembers: seq<string>)
    ensures !ValidDevpath(a.mdDevname) ==> CreateCheck(a, containerMembers) == Err(InvalidDevpath(a.mdDevname))
    ensures ValidDevpath(a.mdDevname) && a.level !in ValidLevels ==>
              CreateCheck(a, containerMembers) == Err(InvalidRaidLevel(a.level))
    ensures ValidDevpath(a.mdDevname) && a.level in ValidLevels && MinimumDevices(a.level).Ok? &&
            MemberCount(a, containerMembers) < MinimumDevices(a.level).value ==>
              CreateCheck(a, containerMembers).Err? && CreateCheck(a, containerMembers).error.NotEnoughDevices?
    ensures ValidDevpath(a.mdDevname) && a.level in NospareLevels && a.spares != [] &&
            MinimumDevices(a.level).Ok? && MemberCount(a, containerMembers) >= MinimumDevices(a.level).value ==>
              CreateCheck(a, containerMembers) == Err(SparesNotSupported(a.level))
    ensures CreateCheck(a, containerMembers).Ok? ==>
              ValidDevpath(a.mdDevname) && a.level in ValidLevels && (a.spares == [] || a.level in SpareLevels)
  {
    if a.level in NospareLevels {
      NospareNotSpare(a.level);
    }
  }

  /** The errors a creation raises, in the order it checks for them. */
  lemma CreateRejects(a: CreateArgs, hostname: string, containerMembers: seq<string>, busy: set<string>,
                      examine: map<string, map<string, string>>)
    ensures !ValidDevpath(a.mdDevname) ==>
              CreateCommand(a, hostname, containerMembers, busy, examine) == Err(InvalidDevpath(a.mdDevname))
    ensures ValidDevpath(a.mdDevname) && a.level !in ValidLevels ==>
              CreateCommand(a, hostname, containerMembers, busy, examine) == Err(InvalidRaidLevel(a.level))
    ensures ValidDevpath(a.mdDevname) && a.level in ValidLevels && MinimumDevices(a.level).Ok? &&
            MemberCount(a, containerMembers) < MinimumDevices(a.level).value ==>
              CreateCommand(a, hostname, containerMembers, busy, examine).Err? &&
              CreateCommand(a, hostname, containerMembers, busy, examine).error.NotEnoughDevices?
    ensures ValidDevpath(a.mdDevname) && a.level in NospareLevels && a.spares != [] &&
            MinimumDevices(a.level).Ok? && MemberCount(a, containerMembers) >= MinimumDevices(a.level).value ==>
              CreateCommand(a, hostname, containerMembers, busy, examine) == Err(SparesNotSupported(a.level))
    ensures CreateCommand(a, hostname, containerMembers, busy, examine).Ok? ==>
              ValidDevpath(a.mdDevname) && a.level in ValidLevels &&
              (a.spares == [] || a.level in SpareLevels) &&
              (forall d :: d in a.devices ==> d !in busy && ZeroError(d, examine).None?) &&
              (forall d :: d in a.spares ==> ZeroError(d, examine).None?)
  {
    CreateCommandSteps(a, hostname, containerMembers, busy, examine);
    CreateCheckRejects(a, containerMembers);
    if CreateCommand(a, hostname, containerMembers, busy, examine).Ok? {
      PreparedAccepted(a.devices, busy, examine);
      PreparedAccepted(a.spares, {}, examine);
    }
  }

  /** Every device of a successful preparation has no holders and was zeroed without error. */
  lemma PreparedAccepted(devices: seq<string>, busy: set<string>, examine: map<string, map<string, string>>)
    requires PrepareDevices(devices, busy, examine).Ok?
    ensures forall d :: d in devices ==> d !in busy && ZeroError(d, examine).None?
  {
    assert FirstFailure(devices, busy, examine).None?;
    forall d | d in devices ensures d !in busy && ZeroError(d, examine).None? {
      var j :| 0 <= j < |devices| && devices[j] == d;
      assert DeviceError(d, busy, examine).None?;
    }
  }

  /**
   * Once the checks pass, the first member that has holders or cannot be
   * zeroed stops the creation with its error, before any later member.
   */
  lemma CreateFailsAtMember(a: CreateArgs, hostname: string, containerMembers: seq<string>, busy: set<string>,
                            examine: map<string, map<string, string>>, i: nat)
    requires CreateCheck(a, containerMembers).Ok? && i < |a.devices|
    requires forall j :: 0 <= j < i ==> DeviceError(a.devices[j], busy, examine).None?
    requires DeviceError(a.devices[i], busy, examine).Some?
    ensures CreateCommand(a, hostname, containerMembers, busy, examine) ==
            Err(if a.devices[i] in busy then HoldersPresent(a.devices[i]) else ZeroError(a.devices[i], examine).value)
  {
    CreateCommandSteps(a, hostname, containerMembers, busy, examine);
    FirstFailureAt(a.devices, busy, examine, i);
  }

  /**
   * With every member accepted, the first spare that cannot be zeroed stops
   * the creation with its error.
   */
  lemma CreateFailsAtSpare(a: CreateArgs, hostname: string, containerMembers: seq<string>, busy: set<string>,
                           examine: map<string, map<string, string>>, i: nat)
    requires CreateCheck(a, containerMembers).Ok? && i < |a.spares|
    requires forall j :: 0 <= j < |a.devices| ==> DeviceError(a.devices[j], busy, examine).None?
    requires forall j :: 0 <= j < i ==> ZeroError(a.spares[j], examine).None?
    requires ZeroError(a.spares[i], examine).Some?
    ensures CreateCommand(a, hostname, containerMembers, busy, examine) == Err(ZeroError(a.spares[i], examine).value)
  {
    CreateCommandSteps(a, hostname, containerMembers, busy, examine);
    assert FirstFailure(a.devices, busy, examine).None?;
    FirstFailureAt(a.spares, {}, examine, i);
  }

  /**
   * A member with 1.1 or 1.2 metadata but no super_offset field cannot be
   * zeroed: reading the field fails, so no command is run.
   */
  lemma ZeroErrorMissingOffset(d: string, examine: map<string, map<string, string>>)
    requires ValidDevpath(Some(d)) && d in examine
    requires "version" in examine[d] && examine[d]["version"] in {"1.1", "1.2"}
    requires "super_offset" !in examine[d]
    ensures ZeroError(d, examine) == Some(MissingField("super_offset"))
  {
    var m := examine[d];
    assert |m| != 0 by { assert "version" in m; }
    assert ZeroFields[..1] == ["super_offset"];
    assert FieldOffsets(m, ZeroFields[..1]) == Err(MissingField("super_offset")) by {
      FieldOffsetsStep(m, ZeroFields, 0);
      assert ZeroFields[..0] == [];
    }
    FieldOffsetsErr(m, ZeroFields, 1);
  }

  /** The number of members the command announces, as --raid-devices. */
  function MemberCount(a: CreateArgs, containerMembers: seq<string>): nat {
    if Truthy(a.container) then |containerMembers| else |a.devices|
  }

  /**
   * A created command starts with the fixed head, whose --raid-devices value
   * reads back as the member count of the array.
   */
  lemma CreateCommandHead(a: CreateArgs, hostname: string, containerMembers: seq<string>, busy: set<string>,
                          examine: map<string, map<string, string>>, cmd: seq<string>)
    requires CreateCommand(a, hostname, containerMembers, busy, examine) == Ok(cmd)
    ensures HeadShape(cmd, a.mdDevname.value, hostname, MemberCount(a, containerMembers))
  {
    CreateCommandSteps(a, hostname, containerMembers, busy, examine);
    HeadPrefix(a.mdDevname.value, hostname, MemberCount(a, containerMembers), CreateOptions(a), a.devices, SpareArgs(a.spares));
  }

  /**
   * A command starts `mdadm --create <md> --run`, passes the stripped
   * hostname, and announces a member count that reads back as `count`.
   */
  predicate HeadShape(cmd: seq<string>, md: string, hostname: string, count: nat) {
    && |cmd| >= 6 && cmd[..4] == ["mdadm", "--create", md, "--run"]
    && cmd[4] == "--homehost=" + Strip(hostname)
    && StartsWith(cmd[5], "--raid-devices=") && ParseInt(cmd[5][15..]) == Some(count)
  }

  /** The head arguments have that shape, whatever follows them. */
  lemma HeadPrefix(md: string, hostname: string, count: nat, options: seq<string>, members: seq<string>,
                   spareArgs: seq<string>)
    ensures HeadShape(CreateHead(md, hostname, count) + options + members + spareArgs, md, hostname, count)
  {
    var head := CreateHead(md, hostname, count);
    var cmd := head + options + members + spareArgs;
    assert cmd[..6] == head;
    IntToStringRoundTrip(count);
    assert head[5][15..] == NatToString(count);
  }

  /**
   * A created command ends with the member devices and then, when there are
   * spares, their count (which reads back as a number) and the spares.
   */
  lemma CreateCommandTail(a: CreateArgs, hostname: string, containerMembers: seq<string>, busy: set<string>,
                          examine: map<string, map<string, string>>, cmd: seq<string>)
    requires CreateCommand(a, hostname, containerMembers, busy, examine) == Ok(cmd)
    ensures TailShape(cmd, a.devices, a.spares)
  {
    CreateCommandSteps(a, hostname, containerMembers, busy, examine);
    TailSuffix(CreateHead(a.mdDevname.value, hostname, MemberCount(a, containerMembers)) + CreateOptions(a),
               a.devices, a.spares);
  }

  /**
   * A command ends with the devices and the spare arguments; with spares,
   * the count before them reads back as their number.
   */
  predicate TailShape(cmd: seq<string>, devices: seq<string>, spares: seq<string>) {
    && |cmd| >= |devices| + |SpareArgs(spares)|
    && cmd[|cmd| - |SpareArgs(spares)| - |devices|..] == devices + SpareArgs(spares)
    && (spares == [] ==> cmd[|cmd| - |devices|..] == devices)
    && (spares != [] ==> cmd[|cmd| - |spares|..] == spares &&
                         StartsWith(cmd[|cmd| - |spares| - 1], "--spare-devices=") &&
                         ParseInt(cmd[|cmd| - |spares| - 1][16..]) == Some(|spares|))
  }

  /** The last arguments have that shape, whatever precedes them. */
  lemma TailSuffix(front: seq<string>, devices: seq<string>, spares: seq<string>)
    ensures TailShape(front + devices + SpareArgs(spares), devices, spares)
  {
    var sp := SpareArgs(spares);
    var cmd := front + devices + sp;
    assert cmd == front + (devices + sp);
    assert cmd[|front|..] == devices + sp;
    if spares != [] {
      IntToStringRoundTrip(|spares|);
      assert cmd[|cmd| - |sp|..] == sp;
      assert sp[1..] == spares;
      assert sp[0][16..] == NatToString(|spares|);
    }
  }

  /** Which flags a creation passes, and with what values. */
  lemma CreateFlagsPresent(a: CreateArgs)
    ensures (exists f :: f in CreateFlags(a) && StartsWith(f, "--metadata=")) <==> !Truthy(a.container)
    ensures !Truthy(a.container) ==> "--metadata=" + MetadataOr(a.metadata) in CreateFlags(a)
    ensures !Truthy(a.metadata) ==> MetadataOr(a.metadata) == "default"
    ensures ("--level=" + LevelText(a.level) in CreateFlags(a)) <==> a.level != Name("container")
    ensures ("--name=" + a.mdName in CreateFlags(a)) <==> a.mdName != []
    ensures Truthy(a.container) <==> |CreateOptions(a)| == |CreateFlags(a)| + 1
  {
    var meta := "--metadata=" + MetadataOr(a.metadata);
    var level := "--level=" + LevelText(a.level);
    var name := "--name=" + a.mdName;
    assert meta[2] == 'm' && level[2] == 'l' && name[2] == 'n';
    assert StartsWith(meta, "--metadata=");
    assert !StartsWith(level, "--metadata=") && !StartsWith(name, "--metadata=");
    if a.mdName == [] {
      assert name == "--name=";
      assert |level| > |name| by { assert |level| >= 8; }
    }
  }

  // ---------------------------------------------------- checks on an array

  /** The level text mdadm reports for a configured level. */
  function NormalizeLevel(l: Level): string {
    match l
    case Num(n) => "raid" + IntToString(n)
    case Name(s) =>
      if |s| <= 2 then "raid" + s
      else if s == "stripe" then "raid0"
      else if s == "mirror" then "raid1"
      else s
  }

  /** An assembled array has the configured level: `detail` is its `mdadm --detail` map. */
  function CheckRaidlevel(detail: map<string, string>, l: Level): (r: Outcome<MdError>)
    ensures r.Pass? <==> l in ValidLevels && "MD_LEVEL" in detail && detail["MD_LEVEL"] == NormalizeLevel(l)
  {
    if l !in ValidLevels then Fail(InvalidRaidLevel(l))
    else
      var actual := if "MD_LEVEL" in detail then Some(detail["MD_LEVEL"]) else None;
      if actual != Some(NormalizeLevel(l)) then Fail(LevelMismatch(NormalizeLevel(l), actual))
      else Pass
  }

  /**
   * The two normalisations agree on the valid levels: a level whose short
   * form is the int N is reported as "raidN", a named level as itself
   * (stripe as raid0).
   */
  lemma NormalizeAgreesWithShort(l: Level)
    requires l in ValidLevels
    ensures RaidlevelShort(l).Ok? && RaidlevelShort(l).value.Num? ==>
              NormalizeLevel(l) == "raid" + IntToString(RaidlevelShort(l).value.n)
    ensures RaidlevelShort(l).Ok? && RaidlevelShort(l).value.Name? ==>
              NormalizeLevel(l) == if l == Name("stripe") then "raid0" else l.s
  {
    ValidLevelCases(l);
    if SpellingOf(l, 0) {
      NormalizeAgreesSpelled(l, 0);
    } else if SpellingOf(l, 1) {
      NormalizeAgreesSpelled(l, 1);
    } else if SpellingOf(l, 4) {
      NormalizeAgreesSpelled(l, 4);
    } else if SpellingOf(l, 5) {
      NormalizeAgreesSpelled(l, 5);
    } else if SpellingOf(l, 6) {
      NormalizeAgreesSpelled(l, 6);
    } else if SpellingOf(l, 10) {
      NormalizeAgreesSpelled(l, 10);
    } else if l == Name("mirror") {
      RaidlevelShortNotNumber("mirror", 0);
    } else {
      NormalizeAgreesNamed(l);
    }
  }

  lemma NormalizeAgreesNamed(l: Level)
    requires NamedLevel(l)
    ensures RaidlevelShort(l) == Ok(l)
    ensures NormalizeLevel(l) == if l == Name("stripe") then "raid0" else l.s
  {
  }

  lemma NormalizeAgreesSpelled(l: Level, k: nat)
    requires SpellingOf(l, k) && k < 100
    ensures RaidlevelShort(l).Ok? && RaidlevelShort(l).value.Num? &&
            NormalizeLevel(l) == "raid" + IntToString(RaidlevelShort(l).value.n)
  {
    NormalizeOfSpelling(l, k);
  }

  /** Every valid level but mirror has a short form. */
  lemma ShortOfValid(l: Level)
    requires l in ValidLevels && l != Name("mirror")
    ensures RaidlevelShort(l).Ok?
  {
    ValidLevelCases(l);
    if SpellingOf(l, 0) {
      LevelNumber(l, 0);
    } else if SpellingOf(l, 1) {
      LevelNumber(l, 1);
    } else if SpellingOf(l, 4) {
      LevelNumber(l, 4);
    } else if SpellingOf(l, 5) {
      LevelNumber(l, 5);
    } else if SpellingOf(l, 6) {
      LevelNumber(l, 6);
    } else if SpellingOf(l, 10) {
      LevelNumber(l, 10);
    }
  }

  /** Mirror is the one valid level without a short form; it is reported as raid1. */
  lemma NormalizeMirror(l: Level)
    requires l in ValidLevels
    ensures RaidlevelShort(l).Err? <==> l == Name("mirror")
    ensures l == Name("mirror") ==> NormalizeLevel(l) == "raid1"
  {
    if l == Name("mirror") {
      RaidlevelShortNotNumber("mirror", 0);
    } else {
      ShortOfValid(l);
    }
  }

  /** A spelling of level k < 100 has the short form k and is reported as "raidk". */
  lemma NormalizeOfSpelling(l: Level, k: nat)
    requires SpellingOf(l, k) && k < 100
    ensures RaidlevelShort(l) == Ok(Num(k))
    ensures NormalizeLevel(l) == "raid" + IntToString(k)
  {
    LevelNumber(l, k);
    NormalizeForms(k);
  }

  /** The three spellings of level n normalise alike, to "raid" before the digits of n. */
  lemma NormalizeForms(n: nat)
    requires n < 100
    ensures forall l :: SpellingOf(l, n) ==> NormalizeLevel(l) == "raid" + NatToString(n)
  {
    var d := NatToString(n);
    if n >= 10 {
      assert |NatToString(n / 10)| == 1;
    }
    assert |d| <= 2;
    var r := "raid" + d;
    assert r[0] == 'r';
    assert r != "stripe" && r != "mirror";
  }

  /** Each valid level passes against the level name expected of it. */
  lemma CheckRaidlevelAccepts(l: Level, detail: map<string, string>)
    requires l in ValidLevels
    ensures CheckRaidlevel(detail[ "MD_LEVEL" := NormalizeLevel(l)], l) == Pass
    ensures CheckRaidlevel(detail, l).Fail? ==> CheckRaidlevel(detail, l).error.LevelMismatch?
  {
  }

  function Elems(xs: seq<string>): set<string> {
    set x | x in xs
  }

  /** Expected and found member lists agree when they hold the same devices. */
  function CompareDevlist(expected: seq<string>, found: seq<string>): (r: Outcome<MdError>)
    ensures r.Pass? <==> forall d :: d in expected <==> d in found
    ensures r.Fail? ==> r.error == DeviceListMismatch(Elems(expected) - Elems(found), Elems(found) - Elems(expected))
  {
    if Elems(expected) != Elems(found) then
      Fail(DeviceListMismatch(Elems(expected) - Elems(found), Elems(found) - Elems(expected)))
    else
      assert forall d :: d in expected <==> d in Elems(expected);
      Pass
  }

  /** Order and repetition do not matter: lists with the same members compare alike. */
  lemma CompareDevlistSetwise(e1: seq<string>, f1: seq<string>, e2: seq<string>, f2: seq<string>)
    requires forall d :: d in e1 <==> d in e2
    requires forall d :: d in f1 <==> d in f2
    ensures CompareDevlist(e1, f1) == CompareDevlist(e2, f2)
  {
    assert Elems(e1) == Elems(e2);
    assert Elems(f1) == Elems(f2);
  }

  /** A mismatch names at least one device that is missing or extra. */
  lemma CompareDevlistWitness(expected: seq<string>, found: seq<string>)
    requires CompareDevlist(expected, found).Fail?
    ensures var e := CompareDevlist(expected, found).error;
      e.missing + e.extra != {} &&
      (forall d :: d in e.missing ==> d in expected && d !in found) &&
      (forall d :: d in e.extra ==> d in found && d !in expected)
  {
    var d :| !(d in expected <==> d in found);
    assert d in Elems(expected) || d in Elems(found);
  }

  const ErrorStates: seq<string> := ["clear", "inactive", "suspended"]
  const ReadonlyStates: seq<string> := ["readonly"]
  const ReadwriteStates: seq<string> := ["read-auto", "clean", "active", "active-idle", "write-pending"]

  /** Whether the array state belongs to the named mode. */
  function ArrayStateIn(mode: string, arrayState: string): Result<bool, MdError> {
    if mode == "READWRITE" then Ok(arrayState in ReadwriteStates)
    else if mode == "READONLY" then Ok(arrayState in ReadonlyStates)
    else if mode == "ERROR" then Ok(arrayState in ErrorStates)
    else Err(InvalidStateMode(mode))
  }

  /** The three modes are exclusive, and only they are accepted. */
  lemma ArrayStateModes(arrayState: string, mode: string)
    ensures ArrayStateIn(mode, arrayState).Ok? <==> mode in {"READWRITE", "READONLY", "ERROR"}
    ensures !(ArrayStateIn("READWRITE", arrayState) == Ok(true) && ArrayStateIn("READONLY", arrayState) == Ok(true))
    ensures !(ArrayStateIn("READWRITE", arrayState) == Ok(true) && ArrayStateIn("ERROR", arrayState) == Ok(true))
    ensures !(ArrayStateIn("READONLY", arrayState) == Ok(true) && ArrayStateIn("ERROR", arrayState) == Ok(true))
  {
  }

  /**
   * The verdict on an assembled array, from its sysfs `array_state` (the
   * empty string when absent), `degraded` and `sync_action` (None when
   * absent, as on raid0).
   */
  function CheckArrayState(arrayState: string, degraded: Option<string>, syncAction: Option<string>): (r: Outcome<MdError>)
    ensures r.Pass? <==> arrayState in ReadwriteStates &&
                         (degraded.None? || (degraded.value == "0" && syncAction in {Some("idle"), Some("resync")}))
    ensures arrayState !in ReadwriteStates ==> r == Fail(NotWritable)
    ensures arrayState in ReadwriteStates && degraded.Some? && degraded.value != "0" ==> r == Fail(Degraded(degraded.value))
  {
    var writable := ArrayStateIn("READWRITE", arrayState).value;
    if !writable then Fail(NotWritable)
    else if degraded.Some? && degraded.value != "0" then Fail(Degraded(degraded.value))
    else if degraded.Some? && syncAction !in {Some("idle"), Some("resync")} then Fail(NotIdle(syncAction))
    else Pass
  }

  /** An array without degraded/sync_action attributes is judged on its state alone. */
  lemma CheckArrayStateRaid0(arrayState: string, syncAction: Option<string>)
    ensures CheckArrayState(arrayState, None, syncAction).Pass? <==> ArrayStateIn("READWRITE", arrayState) == Ok(true)
    ensures CheckArrayState("clean", Some(""), Some("idle")) == Fail(Degraded(""))
    ensures CheckArrayState("clean", Some("0"), Some("recovery")) == Fail(NotIdle(Some("recovery")))
    ensures CheckArrayState("suspended", Some("0"), Some("idle")) == Fail(NotWritable)
  {
  }

  // --------------------------------------------------------------- wiping

  const ZeroFields: seq<string> := ["super_offset", "data_offset"]

  /** The fallback: 1 MiB at the start and 1 MiB before the end of the device. */
  const DefaultZeroOffsets: seq<int> := [0, -0x10_0000]

  /** The byte offset one examine field gives, or None when its unit is not sectors. */
  function FieldOffset(metadata: map<string, string>, field: string): (r: Result<Option<int>, MdError>)
    ensures r.Ok? && r.value.Some? ==> r.value.value % 512 == 0
  {
    if field !in metadata then Err(MissingField(field))
    else
      var words := Split(metadata[field]);
      if |words| != 2 then Err(BadOffsetField(field, metadata[field]))
      else if words[1] != "sectors" then Ok(None)
      else
        match ParseInt(words[0])
        case None => Err(NotAnInteger(words[0]))
        case Some(n) => Ok(Some(n * 512))
  }

  /** The offsets the fields give, in field order; the first failing field decides the error. */
  function FieldOffsets(metadata: map<string, string>, fields: seq<string>): (r: Result<seq<int>, MdError>)
    decreases |fields|
  {
    if fields == [] then Ok([])
    else
      var before :- FieldOffsets(metadata, fields[..|fields| - 1]);
      var last :- FieldOffset(metadata, fields[|fields| - 1]);
      Ok(before + if last.Some? then [last.value] else [])
  }

  lemma {:induction false} FieldOffsetsBounds(metadata: map<string, string>, fields: seq<string>)
    requires FieldOffsets(metadata, fields).Ok?
    ensures |FieldOffsets(metadata, fields).value| <= |fields|
    ensures forall o :: o in FieldOffsets(metadata, fields).value ==> o % 512 == 0
    decreases |fields|
  {
    if fields != [] {
      FieldOffsetsBounds(metadata, fields[..|fields| - 1]);
    }
  }

  /** A failure on a prefix of the fields is the failure of them all. */
  lemma {:induction false} FieldOffsetsErr(metadata: map<string, string>, fields: seq<string>, k: nat)
    requires k <= |fields| && FieldOffsets(metadata, fields[..k]).Err?
    ensures FieldOffsets(metadata, fields) == FieldOffsets(metadata, fields[..k])
    decreases |fields| - k
  {
    if k < |fields| {
      var next := fields[..k + 1];
      assert next[..k] == fields[..k];
      FieldOffsetsErr(metadata, fields, k + 1);
    } else {
      assert fields[..k] == fields;
    }
  }

  function VersionOf(metadata: map<string, string>): Option<string> {
    if "version" in metadata then Some(metadata["version"]) else None
  }

  /**
   * Where a device is wiped before it joins an array: None when it carries
   * no md metadata and wiping is not forced, otherwise the offsets handed to
   * the wipe. `metadata` is the `mdadm --examine` map ({} for none).
   */
  function ZeroPlan(devpath: Option<string>, metadata: map<string, string>, force: bool): Result<Option<seq<int>>, MdError> {
    if !ValidDevpath(devpath) then Err(InvalidDevpath(devpath))
    else if |metadata| == 0 && !force then Ok(None)
    else
      var offsets :- if VersionOf(metadata) in {Some("1.1"), Some("1.2")} then FieldOffsets(metadata, ZeroFields) else Ok([]);
      Ok(Some(if offsets == [] then DefaultZeroOffsets else offsets))
  }

  function OptionList(o: Option<int>): seq<int> {
    if o.Some? then [o.value] else []
  }

  /** FieldOffsets over one more field. */
  lemma FieldOffsetsStep(metadata: map<string, string>, fields: seq<string>, i: nat)
    requires i < |fields|
    ensures FieldOffsets(metadata, fields[..i + 1]) ==
              match FieldOffsets(metadata, fields[..i])
              case Err(e) => Err(e)
              case Ok(before) =>
                match FieldOffset(metadata, fields[i])
                case Err(e) => Err(e)
                case Ok(o) => Ok(before + OptionList(o))
  {
    assert fields[..i + 1][..i] == fields[..i];
  }

  /** Reads the offset fields in order, appending each offset given in sectors. */
  method CollectOffsets(metadata: map<string, string>, fields: seq<string>) returns (r: Result<seq<int>, MdError>)
    ensures r == FieldOffsets(metadata, fields)
  {
    var offsets: seq<int> := [];
    for i := 0 to |fields|
      invariant FieldOffsets(metadata, fields[..i]) == Ok(offsets)
    {
      FieldOffsetsStep(metadata, fields, i);
      var o := FieldOffset(metadata, fields[i]);
      if o.Err? {
        FieldOffsetsErr(metadata, fields, i + 1);
        return Err(o.error);
      }
      ghost var before := offsets;
      if o.value.Some? {
        offsets := offsets + [o.value.value];
      }
      assert offsets == before + OptionList(o.value);
    }
    assert fields[..|fields|] == fields;
    return Ok(offsets);
  }

  /** The wipe offsets of a device, as the wipe before array creation computes them. */
  method ZeroDeviceOffsets(devpath: Option<string>, metadata: map<string, string>, force: bool)
    returns (r: Result<Option<seq<int>>, MdError>)
    ensures r == ZeroPlan(devpath, metadata, force)
  {
    if !ValidDevpath(devpath) {
      return Err(InvalidDevpath(devpath));
    }
    if |metadata| == 0 && !force {
      return Ok(None);
    }
    var offsets: seq<int> := [];
    var version := VersionOf(metadata);
    if version == Some("1.1") || version == Some("1.2") {
      var collected := CollectOffsets(metadata, ZeroFields);
      if collected.Err? {
        return Err(collected.error);
      }
      offsets := collected.value;
    }
    if offsets == [] {
      offsets := DefaultZeroOffsets;
    }
    return Ok(Some(offsets));
  }

  /** The plan is the fallback pair or up to two sector-aligned offsets; it is skipped only without metadata. */
  lemma ZeroPlanShape(devpath: Option<string>, metadata: map<string, string>, force: bool)
    ensures ZeroPlan(devpath, metadata, force) == Ok(None) <==>
              ValidDevpath(devpath) && |metadata| == 0 && !force
    ensures ZeroPlan(devpath, metadata, force).Ok? && ZeroPlan(devpath, metadata, force).value.Some? ==>
              var offs := ZeroPlan(devpath, metadata, force).value.value;
              offs == DefaultZeroOffsets || (1 <= |offs| <= 2 && forall o :: o in offs ==> o % 512 == 0)
    ensures ValidDevpath(devpath) && (metadata != map[] || force) && VersionOf(metadata) !in {Some("1.1"), Some("1.2")} ==>
              ZeroPlan(devpath, metadata, force) == Ok(Some(DefaultZeroOffsets))
  {
    if ValidDevpath(devpath) && (metadata != map[] || force) && VersionOf(metadata) in {Some("1.1"), Some("1.2")} {
      if FieldOffsets(metadata, ZeroFields).Ok? {
        FieldOffsetsBounds(metadata, ZeroFields);
      }
    }
  }

  lemma IntToStringWord(n: int)
    ensures IntToString(n) != [] && forall i :: 0 <= i < |IntToString(n)| ==> !IsSpace(IntToString(n)[i])
  {
    var s := IntToString(n);
    if n < 0 {
      var d := NatToString(-n);
      assert s == "-" + d;
      forall i | 0 <= i < |s| ensures !IsSpace(s[i]) {
        if i > 0 { assert s[i] == d[i - 1] && IsDigit(d[i - 1]); }
      }
    } else {
      forall i | 0 <= i < |s| ensures !IsSpace(s[i]) { assert IsDigit(s[i]); }
    }
  }

  /** A field "N unit" gives N*512 bytes when the unit is sectors and nothing otherwise. */
  lemma FieldOffsetOf(metadata: map<string, string>, field: string, n: int, unit: string)
    requires field in metadata && metadata[field] == IntToString(n) + " " + unit
    requires unit != [] && forall i :: 0 <= i < |unit| ==> !IsSpace(unit[i])
    ensures FieldOffset(metadata, field) == Ok(if unit == "sectors" then Some(n * 512) else None)
  {
    IntToStringWord(n);
    SplitTwoWords(IntToString(n), unit);
    IntToStringRoundTrip(n);
  }

  /** Offsets from two fields, the first field first. */
  lemma FieldOffsetsPair(metadata: map<string, string>, first: string, second: string)
    ensures FieldOffsets(metadata, [first, second]) ==
              match FieldOffset(metadata, first)
              case Err(e) => Err(e)
              case Ok(s) =>
                match FieldOffset(metadata, second)
                case Err(e) => Err(e)
                case Ok(d) => Ok(OptionList(s) + OptionList(d))
  {
    var fields := [first, second];
    FieldOffsetsStep(metadata, fields, 0);
    FieldOffsetsStep(metadata, fields, 1);
    assert fields[..0] == [] && fields[0] == first && fields[1] == second;
    assert FieldOffsets(metadata, fields[..0]) == Ok([]);
    if FieldOffset(metadata, first).Ok? {
      var o := OptionList(FieldOffset(metadata, first).value);
      assert [] + o == o;
    }
    assert FieldOffsets(metadata, fields[..1]) ==
             match FieldOffset(metadata, first)
             case Err(e) => Err(e)
             case Ok(s) => Ok(OptionList(s));
    assert fields[..2] == fields;
  }

  /**
   * On 1.1/1.2 metadata whose offset fields read "N unit": offsets in sectors
   * become byte offsets, super block first, and the fallback applies when
   * neither is in sectors.
   */
  lemma ZeroPlanUnits(devpath: Option<string>, m: map<string, string>, superOffset: int, superUnit: string,
                      dataOffset: int, dataUnit: string, force: bool)
    requires ValidDevpath(devpath) && "version" in m && m["version"] in {"1.1", "1.2"}
    requires superUnit != [] && forall i :: 0 <= i < |superUnit| ==> !IsSpace(superUnit[i])
    requires dataUnit != [] && forall i :: 0 <= i < |dataUnit| ==> !IsSpace(dataUnit[i])
    requires "super_offset" in m && m["super_offset"] == IntToString(superOffset) + " " + superUnit
    requires "data_offset" in m && m["data_offset"] == IntToString(dataOffset) + " " + dataUnit
    ensures var offsets := (if superUnit == "sectors" then [superOffset * 512] else []) +
                           (if dataUnit == "sectors" then [dataOffset * 512] else []);
      ZeroPlan(devpath, m, force) == Ok(Some(if offsets == [] then DefaultZeroOffsets else offsets))
  {
    var super := if superUnit == "sectors" then Some(superOffset * 512) else None;
    var data := if dataUnit == "sectors" then Some(dataOffset * 512) else None;
    FieldOffsetOf(m, "super_offset", superOffset, superUnit);
    FieldOffsetOf(m, "data_offset", dataOffset, dataUnit);
    FieldOffsetsBoth(m, "super_offset", "data_offset", super, data);
    ZeroPlanVersioned(devpath, m, force, OptionList(super) + OptionList(data));
  }

  /** Two fields that both parse give their offsets in field order. */
  lemma FieldOffsetsBoth(metadata: map<string, string>, first: string, second: string,
                         s: Option<int>, d: Option<int>)
    requires FieldOffset(metadata, first) == Ok(s) && FieldOffset(metadata, second) == Ok(d)
    ensures FieldOffsets(metadata, [first, second]) == Ok(OptionList(s) + OptionList(d))
  {
    FieldOffsetsPair(metadata, first, second);
  }

  lemma ZeroPlanVersioned(devpath: Option<string>, m: map<string, string>, force: bool, offsets: seq<int>)
    requires ValidDevpath(devpath) && "version" in m && m["version"] in {"1.1", "1.2"}
    requires FieldOffsets(m, ZeroFields) == Ok(offsets)
    ensures ZeroPlan(devpath, m, force) == Ok(Some(if offsets == [] then DefaultZeroOffsets else offsets))
  {
    assert VersionOf(m) == Some(m["version"]);
    assert |m| != 0 by { assert "version" in m; }
  }

  // -------------------------------------------------------- /proc/mdstat

  /** The array name a /proc/mdstat line starts with: its text before ':' without trailing blanks. */
  function LineName(line: string): string {
    RStrip(BeforeFirst(line, ':'))
  }

  /**
   * Whether the array is listed in /proc/mdstat; `mdstat` is the file's text,
   * None when the file does not exist.
   */
  function MdPresent(mdname: Option<string>, mdstat: Option<string>): (r: Result<bool, MdError>)
    ensures r.Err? <==> !Truthy(mdname)
    ensures r.Err? ==> r.error == EmptyName
  {
    if !Truthy(mdname) then Err(EmptyName)
    else if mdstat.None? then Ok(false)
    else
      var kname := DevShort(mdname.value);
      Ok(exists line :: line in SplitLines(mdstat.value) && LineName(line) == kname)
  }

  /** A line names an array only when the name is followed by blanks and ':' or by nothing. */
  lemma LineNameMatch(line: string, name: string)
    requires LineName(line) == name
    ensures StartsWith(line, name) && ':' !in name
    ensures |line| > |name| ==> IsSpace(line[|name|]) || line[|name|] == ':'
  {
    var b := BeforeFirst(line, ':');
    assert b[..|name|] == name;
    if |name| < |b| {
      assert IsSpace(b[|name|]);
    }
  }

  lemma {:induction false} RStripBlanks(name: string, pad: string)
    requires name == [] || !IsSpace(name[|name| - 1])
    requires forall i :: 0 <= i < |pad| ==> IsSpace(pad[i])
    ensures RStrip(name + pad) == name
    decreases |pad|
  {
    if pad == [] {
      assert name + pad == name;
    } else {
      assert (name + pad)[..|name + pad| - 1] == name + pad[..|pad| - 1];
      RStripBlanks(name, pad[..|pad| - 1]);
    }
  }

  /** A line of the form `name : ...` names exactly that array. */
  lemma LineNameOf(name: string, pad: string, rest: string)
    requires ':' !in name && (name == [] || !IsSpace(name[|name| - 1]))
    requires forall i :: 0 <= i < |pad| ==> IsSpace(pad[i]) && pad[i] != ':'
    ensures LineName(name + pad + ":" + rest) == name
  {
    assert ':' !in name + pad by {
      forall i | 0 <= i < |name + pad| ensures (name + pad)[i] != ':' {
        if i >= |name| { assert (name + pad)[i] == pad[i - |name|]; }
      }
    }
    assert name + pad + ":" + rest == (name + pad) + [':'] + rest;
    BeforeFirstJoined(name + pad, ':', rest);
    RStripBlanks(name, pad);
  }

  lemma OneLine(s: string)
    requires s != [] && forall i :: 0 <= i < |s| ==> !IsLineBreak(s[i])
    ensures SplitLines(s) == [s]
  {
    assert LineEnd(s) == |s|;
  }

  /**
   * A name is not found in a line where it runs on into another character,
   * as `md1` is not found in a line for `md10`: the name must end at the run
   * of blanks before the colon.
   */
  lemma MdPresentPrefix(name: string, c: char, rest: string)
    requires name != [] && '/' !in name && forall i :: 0 <= i < |name| ==> !IsLineBreak(name[i])
    requires !IsSpace(c) && c != ':' && !IsLineBreak(c)
    requires forall i :: 0 <= i < |rest| ==> !IsLineBreak(rest[i])
    ensures MdPresent(Some(name), Some(name + [c] + rest)) == Ok(false)
  {
    var line := name + [c] + rest;
    assert SplitLines(line) == [line] by {
      assert forall i :: 0 <= i < |line| ==> !IsLineBreak(line[i]) by {
        forall i | 0 <= i < |line| ensures !IsLineBreak(line[i]) {
          if i < |name| {
            assert line[i] == name[i];
          } else if i > |name| {
            assert line[i] == rest[i - |name| - 1];
          }
        }
      }
      OneLine(line);
    }
    assert DevShort(name) == name by {
      assert RFind(name, '/') == -1;
    }
    assert LineName(line) != name by {
      assert line[|name|] == c;
      NotLineName(line, name);
    }
    MdPresentOneLine(name, line);
  }

  /** With a single mdstat line, the array is present exactly when that line names it. */
  lemma MdPresentOneLine(name: string, line: string)
    requires name != [] && SplitLines(line) == [line]
    ensures MdPresent(Some(name), Some(line)) == Ok(LineName(line) == DevShort(name))
  {
  }

  /** A line whose name is followed by anything but blanks or ':' does not name that array. */
  lemma NotLineName(line: string, name: string)
    requires |line| > |name| && !IsSpace(line[|name|]) && line[|name|] != ':'
    ensures LineName(line) != name
  {
    if LineName(line) == name {
      LineNameMatch(line, name);
    }
  }

  /** A device path is looked up by its short name; an empty name is an error, a missing mdstat means absent. */
  lemma MdPresentPath(rest: string)
    requires forall i :: 0 <= i < |rest| ==> !IsLineBreak(rest[i])
    ensures MdPresent(Some("/dev/md0"), Some("md0" + " " + ":" + rest)) == Ok(true)
    ensures MdPresent(Some("/dev/md0"), None) == Ok(false)
    ensures MdPresent(Some(""), Some("md0" + " " + ":" + rest)) == Err(EmptyName)
  {
    var l0 := "md0" + " " + ":" + rest;
    assert forall i :: 5 <= i < |l0| ==> l0[i] == rest[i - 5];
    OneLine(l0);
    assert RFind("/dev/md0", '/') == 4 by {
      var p := "/dev/md0";
      assert p[4] == '/' && p[5] != '/' && p[6] != '/' && p[7] != '/';
    }
    assert DevShort("/dev/md0") == "md0";
    LineNameOf("md0", " ", rest);
  }

  // -------------------------------------------------- udev property keys

  const KeyPrefix: string := "MD_DEVICE_"

  /** The `mdadm --detail --export` key holding a member's role. */
  function DeviceKeyRole(devname: Option<string>): (r: Result<string, MdError>)
    ensures r.Err? <==> !Truthy(devname)
    ensures r.Ok? ==> StartsWith(r.value, KeyPrefix) && EndsWith(r.value, "_ROLE")
  {
    if !Truthy(devname) then Err(EmptyName)
    else Ok(KeyPrefix + DevShort(devname.value) + "_ROLE")
  }

  /** The `mdadm --detail --export` key holding a member's device path. */
  function DeviceKeyDev(devname: Option<string>): (r: Result<string, MdError>)
    ensures r.Err? <==> !Truthy(devname)
    ensures r.Ok? ==> StartsWith(r.value, KeyPrefix) && EndsWith(r.value, "_DEV")
  {
    if !Truthy(devname) then Err(EmptyName)
    else Ok(KeyPrefix + DevShort(devname.value) + "_DEV")
  }

  /**
   * The keys give back the short name of the member they were made for, so
   * two members have the same key exactly when they have the same short
   * name, and a role key is never a device key.
   */
  lemma DeviceKeys(a: string, b: string)
    requires a != [] && b != []
    ensures var ra := DeviceKeyRole(Some(a)).value; ra[|KeyPrefix|..|ra| - 5] == DevShort(a)
    ensures var da := DeviceKeyDev(Some(a)).value; da[|KeyPrefix|..|da| - 4] == DevShort(a)
    ensures DeviceKeyRole(Some(a)) == DeviceKeyRole(Some(b)) <==> DevShort(a) == DevShort(b)
    ensures DeviceKeyDev(Some(a)) == DeviceKeyDev(Some(b)) <==> DevShort(a) == DevShort(b)
    ensures DeviceKeyRole(Some(a)) != DeviceKeyDev(Some(b))
  {
    var ra := DeviceKeyRole(Some(a)).value;
    var rb := DeviceKeyRole(Some(b)).value;
    var da := DeviceKeyDev(Some(a)).value;
    var db := DeviceKeyDev(Some(b)).value;
    assert ra[|KeyPrefix|..|ra| - 5] == DevShort(a);
    assert rb[|KeyPrefix|..|rb| - 5] == DevShort(b);
    assert da[|KeyPrefix|..|da| - 4] == DevShort(a);
    assert db[|KeyPrefix|..|db| - 4] == DevShort(b);
    assert ra[|ra| - 1] == 'E' && db[|db| - 1] == 'V';
  }
}

=== FILE: part_table.dfy ===
/**
 * The sfdisk partition-table layout engine of block_meta_v2: the bit-mask
 * alignment helpers, sector/byte conversion, the GPT and DOS tables that
 * place one partition per action, the rendering of the sfdisk script, and
 * the wipe plan that disk_handler_v2 builds while it adds the partitions.
 */
module PartTable {
  import opened Wrappers
  import opened Text
  import opened StorageConfig

  /** ONE_MIB_BYTES = 1 << 20. */
  const OneMibBytes: nat := 0x10_0000

  // ---------------------------------------------------------------------
  // align_up / align_down
  // ---------------------------------------------------------------------

  /** `a & ~m` for non-negative a and m, bit by bit. */
  function AndNot(a: nat, m: nat): nat
    decreases a
  {
    if a == 0 then 0 else 2 * AndNot(a / 2, m / 2) + (if a % 2 == 1 && m % 2 == 0 then 1 else 0)
  }

  predicate IsPow2(b: nat)
    decreases b
  {
    b == 1 || (b >= 2 && b % 2 == 0 && IsPow2(b / 2))
  }

  lemma {:induction false} AndNotZero(a: nat)
    ensures AndNot(a, 0) == a
    decreases a
  {
    if a > 0 { AndNotZero(a / 2); }
  }

  /** A positive d scaled by m is at least d when m >= 1, at most -d when m <= -1. */
  lemma MulSign(d: int, m: int)
    requires d > 0
    ensures m >= 1 ==> d * m >= d
    ensures m <= -1 ==> d * m <= -d
  {
    if m >= 1 {
      assert d * m == d * (m - 1) + d;
      assert d * (m - 1) >= 0;
    }
    if m <= -1 {
      assert d * m == -(d * (-m));
      assert d * (-m - 1) >= 0;
      assert d * (-m) == d * (-m - 1) + d;
    }
  }

  /** Euclidean division is unique: a = d * k + r with 0 <= r < d fixes a / d and a % d. */
  lemma DivModUnique(a: int, d: int, k: int, r: int)
    requires d > 0 && a == d * k + r && 0 <= r < d
    ensures a / d == k && a % d == r
  {
    var m := a / d - k;
    assert d * (a / d) + a % d == a;
    assert d * m == d * (a / d) - d * k;
    MulSign(d, m);
  }

  lemma DivModHalf(a: nat, c: nat)
    requires c >= 1
    ensures a % (2 * c) == 2 * ((a / 2) % c) + a % 2
  {
    var q := a / 2;
    var k := q / c;
    var s := q % c;
    assert a == 2 * q + a % 2;
    assert q == c * k + s;
    assert a == (2 * c) * k + (2 * s + a % 2);
    DivModUnique(a, 2 * c, k, 2 * s + a % 2);
  }

  /** The linear step of AndNotLowBits, with every product named. */
  lemma HalfStep(a: int, h: int, half: int, low: int, amod2: int, amodb: int)
    requires a == 2 * h + amod2 && amodb == 2 * low + amod2 && half == h - low
    ensures 2 * half == a - amodb
  {
  }

  /** Clearing the bits of b - 1 rounds down to a multiple of a power of two b. */
  lemma {:induction false} AndNotLowBits(a: nat, b: nat)
    requires IsPow2(b)
    ensures AndNot(a, b - 1) == a - a % b
    decreases b
  {
    if b == 1 {
      AndNotZero(a);
      assert a % 1 == 0;
    } else if a == 0 {
      assert 0 % b == 0;
    } else {
      var c := b / 2;
      assert b == 2 * c && IsPow2(c);
      var h := a / 2;
      var m := b - 1;
      assert m / 2 == c - 1 && m % 2 == 1;
      assert AndNot(a, m) == 2 * AndNot(h, c - 1);
      AndNotLowBits(h, c);
      DivModHalf(a, c);
      HalfStep(a, h, AndNot(h, c - 1), h % c, a % 2, a % b);
    }
  }

  /** `align_up`: `(size + block_size - 1) & ~(block_size - 1)`. */
  function AlignUp(size: nat, blockSize: nat): nat {
    if blockSize == 0 then 0 else AndNot(size + blockSize - 1, blockSize - 1)
  }

  /** `align_down`: `size & ~(block_size - 1)`. */
  function AlignDown(size: nat, blockSize: nat): nat {
    if blockSize == 0 then 0 else AndNot(size, blockSize - 1)
  }

  lemma MultiplesApart(x: nat, y: nat, b: nat)
    requires b >= 1 && x % b == 0 && y % b == 0 && x < y + b
    ensures x <= y
  {
    var i := x / b;
    var j := y / b;
    assert x == b * i && y == b * j;
    assert b * (i - j) == b * i - b * j;
    MulSign(b, i - j);
  }

  /** a - a % b is the multiple of b just at or below a. */
  lemma RoundDownMultiple(a: nat, b: nat)
    requires b >= 1
    ensures (a - a % b) % b == 0
    ensures a - a % b <= a < a - a % b + b
  {
    var q := a / b;
    assert a == b * q + a % b;
    DivModUnique(a - a % b, b, q, 0);
  }

  /** For a power-of-two block, align_up gives the least multiple at or above size. */
  lemma AlignUpSpec(size: nat, blockSize: nat)
    requires IsPow2(blockSize)
    ensures AlignUp(size, blockSize) % blockSize == 0
    ensures size <= AlignUp(size, blockSize) < size + blockSize
    ensures forall k: nat :: k % blockSize == 0 && size <= k ==> AlignUp(size, blockSize) <= k
  {
    var a := size + blockSize - 1;
    AndNotLowBits(a, blockSize);
    RoundDownMultiple(a, blockSize);
    var r := AlignUp(size, blockSize);
    assert r == a - a % blockSize;
    forall k: nat | k % blockSize == 0 && size <= k ensures r <= k {
      MultiplesApart(r, k, blockSize);
    }
  }

  /** For a power-of-two block, align_down gives the greatest multiple at or below size. */
  lemma AlignDownSpec(size: nat, blockSize: nat)
    requires IsPow2(blockSize)
    ensures AlignDown(size, blockSize) % blockSize == 0
    ensures AlignDown(size, blockSize) <= size < AlignDown(size, blockSize) + blockSize
    ensures forall k: nat :: k % blockSize == 0 && k <= size ==> k <= AlignDown(size, blockSize)
  {
    AndNotLowBits(size, blockSize);
    RoundDownMultiple(size, blockSize);
    var r := AlignDown(size, blockSize);
    assert r == size - size % blockSize;
    forall k: nat | k % blockSize == 0 && k <= size ensures k <= r {
      MultiplesApart(k, r, blockSize);
    }
  }

  // ---------------------------------------------------------------------
  // Sector geometry
  // ---------------------------------------------------------------------

  /** The product of two odd numbers is odd. */
  lemma OddProduct(d: nat, q: nat)
    ensures d % 2 == 1 && q % 2 == 1 ==> (d * q) % 2 == 1
  {
    if d % 2 == 1 && q % 2 == 1 {
      var d2 := d / 2;
      var q2 := q / 2;
      assert d * q == 2 * (2 * d2 * q2 + d2 + q2) + 1;
    }
  }

  /** Every positive divisor of a power of two is a power of two. */
  lemma {:induction false} DivisorOfPow2(p: nat, d: nat, q: nat)
    requires IsPow2(p) && d >= 1 && q >= 1 && d * q == p
    ensures IsPow2(d) && IsPow2(q)
    decreases p
  {
    if p == 1 {
      MulSign(d, q - 1);
      MulSign(q, d - 1);
    } else if q % 2 == 0 {
      var q2 := q / 2;
      assert d * q2 == p / 2 by { assert q == 2 * q2; assert d * q == 2 * (d * q2); }
      DivisorOfPow2(p / 2, d, q2);
    } else {
      OddProduct(d, q);
      assert (d * q) % 2 == 0;
      var d2 := d / 2;
      assert d2 * q == p / 2 by { assert d == 2 * d2; assert d * q == 2 * (d2 * q); }
      DivisorOfPow2(p / 2, d2, q);
    }
  }

  /** ONE_MIB_BYTES is 2 to the 20th. */
  lemma OneMibPow2()
    ensures IsPow2(OneMibBytes)
  {
    assert IsPow2(1);
    assert IsPow2(2);
    assert IsPow2(4);
    assert IsPow2(8);
    assert IsPow2(16);
    assert IsPow2(32);
    assert IsPow2(64);
    assert IsPow2(128);
    assert IsPow2(256);
    assert IsPow2(512);
    assert IsPow2(1024);
    assert IsPow2(2048);
    assert IsPow2(4096);
    assert IsPow2(8192);
    assert IsPow2(16384);
    assert IsPow2(32768);
    assert IsPow2(65536);
    assert IsPow2(131072);
    assert IsPow2(262144);
    assert IsPow2(524288);
  }

  datatype TableError =
    | ZeroSectorSize
    | SectorSizeNotDivisor(sectorBytes: nat)
    | MissingSize
    | LogicalWithoutExtended
    | PrimaryNumberTooLarge(number: int)
    | PartitionNotFound(offset: nat)
    | UnknownOffset(offsetSectors: nat)

  /** The check in SFDiskPartTable.__init__ and the 1 MiB sector count it computes. */
  function OneMibSectors(sectorBytes: nat): (r: Result<nat, TableError>)
    ensures r.Ok? <==> sectorBytes >= 1 && OneMibBytes % sectorBytes == 0
    ensures r.Ok? ==> r.value * sectorBytes == OneMibBytes
  {
    if sectorBytes == 0 then Err(ZeroSectorSize)
    else if OneMibBytes % sectorBytes != 0 then Err(SectorSizeNotDivisor(sectorBytes))
    else
      assert OneMibBytes == sectorBytes * (OneMibBytes / sectorBytes) + 0;
      Ok(OneMibBytes / sectorBytes)
  }

  /** A table's sector size and its 1 MiB sector count are both powers of two. */
  lemma OneMibSectorsPow2(sectorBytes: nat)
    requires OneMibSectors(sectorBytes).Ok?
    ensures IsPow2(sectorBytes) && IsPow2(OneMibSectors(sectorBytes).value)
    ensures OneMibSectors(sectorBytes).value >= 1
  {
    var n := OneMibSectors(sectorBytes).value;
    OneMibPow2();
    DivisorOfPow2(OneMibBytes, sectorBytes, n);
  }

  datatype Label = Gpt | Dos

  /** The class attribute `label` of GPTPartTable and DOSPartTable. */
  function LabelName(l: Label): string {
    match l
    case Gpt => "gpt"
    case Dos => "dos"
  }

  /** The table class disk_handler_v2 picks for a disk's `ptable`; None leaves the disk to the v1 handler. */
  function TableLabel(ptable: Option<string>): (r: Option<Label>)
    ensures r == Some(Dos) <==> ptable == Some("msdos")
    ensures r == Some(Gpt) <==> ptable == Some("gpt")
  {
    if ptable == Some("msdos") then Some(Dos)
    else if ptable == Some("gpt") then Some(Gpt)
    else None
  }

  /** The fixed parameters of one table. */
  datatype Geometry = Geometry(kind: Label, sectorBytes: nat, oneMibSectors: nat) {
    predicate Valid() {
      OneMibSectors(sectorBytes) == Ok(oneMibSectors)
    }
  }

  /** `bytes2sectors` on a byte count: whole sectors, rounded down. */
  function BytesToSectors(sectorBytes: nat, amount: nat): nat
    requires sectorBytes >= 1
  {
    amount / sectorBytes
  }

  /** `sectors2bytes`. */
  function SectorsToBytes(sectorBytes: nat, amount: nat): nat {
    amount * sectorBytes
  }

  /** Converting sectors to bytes and back loses nothing. */
  lemma SectorsRoundTrip(sectorBytes: nat, n: nat)
    requires sectorBytes >= 1
    ensures BytesToSectors(sectorBytes, SectorsToBytes(sectorBytes, n)) == n
  {
    DivModUnique(n * sectorBytes, sectorBytes, n, 0);
  }

  /** Bytes to sectors and back rounds down to a sector boundary, exactly when the count is not one. */
  lemma BytesRoundTrip(sectorBytes: nat, amount: nat)
    requires sectorBytes >= 1
    ensures SectorsToBytes(sectorBytes, BytesToSectors(sectorBytes, amount)) <= amount
    ensures amount < SectorsToBytes(sectorBytes, BytesToSectors(sectorBytes, amount)) + sectorBytes
    ensures SectorsToBytes(sectorBytes, BytesToSectors(sectorBytes, amount)) == amount <==> amount % sectorBytes == 0
  {
    var q := amount / sectorBytes;
    assert amount == sectorBytes * q + amount % sectorBytes;
    assert SectorsToBytes(sectorBytes, q) == sectorBytes * q;
  }

  // ---------------------------------------------------------------------
  // Flags and type codes
  // ---------------------------------------------------------------------

  /** FLAG_TO_GUID: each GPT flag to its type GUID. */
  const FlagToGuid: map<string, string> := map[
    "boot" := "C12A7328-F81F-11D2-BA4B-00A0C93EC93B",
    "bios_grub" := "21686148-6449-6E6F-744E-656564454649",
    "home" := "933AC7E1-2EB4-4F13-B844-0E14E2AEF915",
    "linux" := "0FC63DAF-8483-4772-8E79-3D69D8477DE4",
    "lvm" := "E6D6D379-F507-44C2-A23C-238F2A3DF928",
    "mbr" := "024DEE41-33E7-11D3-9D69-0008C781F39F",
    "prep" := "9E1A2D38-C612-4316-AA26-8B49521E5A8B",
    "raid" := "A19D880F-05FC-4D3B-A006-743F0F84911E",
    "swap" := "0657FD6D-A4AB-43C4-84E5-0933C84B4F4F"
  ]

  /** FLAG_TO_MBR_TYPE: each flag to the first two characters of its type code, upper-cased, plus extended. */
  const FlagToMbrType: map<string, string> := map[
    "boot" := "EF",
    "bios_grub" := "EF",
    "home" := "83",
    "linux" := "83",
    "lvm" := "8E",
    "mbr" := "",
    "prep" := "42",
    "raid" := "FD",
    "swap" := "82",
    "extended" := "05"
  ]

  /** FLAG_TO_GUID inverts the GPT type table. */
  lemma FlagToGuidInvertsGptMap()
    ensures forall g :: g in GptGuidToCurtinMap ==> GptGuidToCurtinMap[g].0 in FlagToGuid && FlagToGuid[GptGuidToCurtinMap[g].0] == g
    ensures forall f :: f in FlagToGuid ==> FlagToGuid[f] in GptGuidToCurtinMap && GptGuidToCurtinMap[FlagToGuid[f]].0 == f
  {
  }

  /** The first two characters of s, or all of s when it is shorter. */
  function Head2(s: string): string {
    if |s| <= 2 then s else s[..2]
  }

  /** The MBR code that FLAG_TO_MBR_TYPE derives from an sgdisk type code. */
  function MbrCode(typecode: string): string {
    Upper(Head2(typecode))
  }

  lemma MbrCodes()
    ensures MbrCode("EF00") == "EF" && MbrCode("EF02") == "EF" && MbrCode("8302") == "83"
    ensures MbrCode("8300") == "83" && MbrCode("8e00") == "8E" && MbrCode("") == ""
    ensures MbrCode("4200") == "42" && MbrCode("fd00") == "FD" && MbrCode("8200") == "82"
  {
    assert Head2("8e00") == "8e" && Upper("8e") == "8E";
    assert Head2("fd00") == "fd" && Upper("fd") == "FD";
    assert Head2("EF00") == "EF" && Upper("EF") == "EF";
    assert Head2("EF02") == "EF";
    assert Head2("8302") == "83" && Upper("83") == "83";
    assert Head2("8300") == "83";
    assert Head2("4200") == "42" && Upper("42") == "42";
    assert Head2("8200") == "82" && Upper("82") == "82";
  }

  /** FLAG_TO_MBR_TYPE gives each GPT flag the MBR code derived from its type code. */
  lemma FlagToMbrTypeDerived()
    ensures forall f :: f in FlagToGuid ==> f in FlagToMbrType && FlagToMbrType[f] == MbrCode(GptGuidToCurtinMap[FlagToGuid[f]].1)
  {
    MbrCodes();
    FlagToGuidInvertsGptMap();
  }

  /** The only flag FLAG_TO_MBR_TYPE adds to the GPT ones is extended, as 05. */
  lemma FlagToMbrTypeKeys()
    ensures forall f :: f in FlagToMbrType ==> f == "extended" || f in FlagToGuid
    ensures FlagToMbrType["extended"] == "05"
  {
  }

  /** `d.get(key)` where the key itself may be None. */
  function MapGet(m: map<string, string>, key: Option<string>): (r: Option<string>)
    ensures r.Some? <==> key.Some? && key.value in m
    ensures r.Some? ==> r.value == m[key.value]
  {
    if key.Some? && key.value in m then Some(m[key.value]) else None
  }

  // ---------------------------------------------------------------------
  // Entries, actions and the table state
  // ---------------------------------------------------------------------

  /** PartTableEntry: one line of the sfdisk script, positions in sectors. */
  datatype Entry = Entry(number: int, start: nat, size: nat, ptype: Option<string>, uuid: Option<string>, bootable: bool)

  /** The keys of a partition action that the tables read; sizes and offsets are byte counts. */
  datatype PartAction = PartAction(
    number: Option<int>,
    offset: Option<nat>,
    size: Option<nat>,
    uuid: Option<string>,
    flag: Option<string>,
    wipe: Option<string>,
    preserve: bool)

  /** The mutable part of a table: its entries and, for DOS, the extended anchor. */
  datatype TableState = TableState(entries: seq<Entry>, extended: Option<Entry>)

  /** Logical partitions are the entries numbered above 4. */
  predicate IsLogical(e: Entry) {
    e.number > 4
  }

  /** The index of the last entry that is (or is not) logical, or -1. */
  function LastIndexWhere(entries: seq<Entry>, logical: bool): (i: int)
    ensures -1 <= i < |entries|
    ensures i >= 0 ==> IsLogical(entries[i]) == logical
    ensures forall j :: i < j < |entries| ==> IsLogical(entries[j]) != logical
  {
    if entries == [] then -1
    else if IsLogical(entries[|entries| - 1]) == logical then |entries| - 1
    else LastIndexWhere(entries[..|entries| - 1], logical)
  }

  function LastWhere(entries: seq<Entry>, logical: bool): Option<Entry> {
    var i := LastIndexWhere(entries, logical);
    if i < 0 then None else Some(entries[i])
  }

  /** The end of an entry, where the next default start is aligned from. */
  function End(e: Entry): nat {
    e.start + e.size
  }

  /** `GPTPartTable.add` on the table state. */
  function GptAdd(g: Geometry, st: TableState, a: PartAction): Result<(TableState, Entry), TableError>
    requires g.Valid()
  {
    var number := a.number.GetOr(|st.entries| + 1);
    var start :=
      if a.offset.Some? then BytesToSectors(g.sectorBytes, a.offset.value)
      else if st.entries != [] then AlignUp(End(st.entries[|st.entries| - 1]), g.oneMibSectors)
      else g.oneMibSectors;
    if a.size.None? then Err(MissingSize)
    else
      var e := Entry(number, start, BytesToSectors(g.sectorBytes, a.size.value), MapGet(FlagToGuid, a.flag), a.uuid, false);
      Ok((TableState(st.entries + [e], st.extended), e))
  }

  /** The common tail of `DOSPartTable.add` once the number and start are known. */
  function DosAppend(g: Geometry, st: TableState, a: PartAction, number: int, start: nat): Result<(TableState, Entry), TableError>
    requires g.Valid()
  {
    if a.size.None? then Err(MissingSize)
    else
      var e := Entry(number, start, BytesToSectors(g.sectorBytes, a.size.value), MapGet(FlagToMbrType, a.flag), None, a.flag == Some("boot"));
      Ok((TableState(st.entries + [e], if a.flag == Some("extended") then Some(e) else st.extended), e))
  }

  /** `DOSPartTable.add` on the table state. */
  function DosAdd(g: Geometry, st: TableState, a: PartAction): Result<(TableState, Entry), TableError>
    requires g.Valid()
  {
    var offset := if a.offset.Some? then Some(BytesToSectors(g.sectorBytes, a.offset.value)) else None;
    var mib := g.oneMibSectors;
    if a.flag == Some("logical") then
      if st.extended.None? then Err(LogicalWithoutExtended)
      else
        var prev := LastWhere(st.entries, true);
        var number := if prev.None? then 5 else prev.value.number + 1;
        var start :=
          if offset.Some? then offset.value
          else if prev.None? then AlignUp(st.extended.value.start + mib, mib)
          else AlignUp(End(prev.value) + mib, mib);
        DosAppend(g, st, a, number, start)
    else
      var number := a.number.GetOr(|st.entries| + 1);
      if number > 4 then Err(PrimaryNumberTooLarge(number))
      else
        var prev := LastWhere(st.entries, false);
        var start :=
          if offset.Some? then offset.value
          else if prev.None? then mib
          else AlignUp(End(prev.value), mib);
        DosAppend(g, st, a, number, start)
  }

  /** The cases in which `add` raises instead of appending. */
  predicate AddFails(g: Geometry, st: TableState, a: PartAction) {
    || a.size.None?
    || (g.kind == Dos && a.flag == Some("logical") && st.extended.None?)
    || (g.kind == Dos && a.flag != Some("logical") && a.number.GetOr(|st.entries| + 1) > 4)
  }

  /** `add` of the table's class: one entry appended, earlier ones untouched, or an error. */
  function AddSpec(g: Geometry, st: TableState, a: PartAction): (r: Result<(TableState, Entry), TableError>)
    requires g.Valid()
    ensures r.Err? <==> AddFails(g, st, a)
    ensures r.Ok? ==> r.value.0.entries == st.entries + [r.value.1]
    ensures r.Ok? && g.kind == Gpt ==> r.value.0.extended == st.extended
  {
    match g.kind
    case Gpt => GptAdd(g, st, a)
    case Dos => DosAdd(g, st, a)
  }

  /** The state after a run of `add` calls, stopping at the first error. */
  function AddAll(g: Geometry, st: TableState, actions: seq<PartAction>): (r: Result<TableState, TableError>)
    requires g.Valid()
    decreases |actions|
  {
    if actions == [] then Ok(st)
    else
      match AddSpec(g, st, actions[0])
      case Err(e) => Err(e)
      case Ok((next, _)) => AddAll(g, next, actions[1..])
  }

  // ---------------------------------------------------------------------
  // GPT layout
  // ---------------------------------------------------------------------

  /** Entries laid out by default GPT starts: the first at 1 MiB, all 1 MiB-aligned, none overlapping the next. */
  predicate GptLaidOut(mib: nat, entries: seq<Entry>) {
    && mib >= 1
    && (entries != [] ==> entries[0].start == mib)
    && (forall i :: 0 <= i < |entries| ==> entries[i].start % mib == 0)
    && (forall i :: 0 <= i < |entries| - 1 ==> End(entries[i]) <= entries[i + 1].start)
  }

  /** A GPT add without an offset starts at the first 1 MiB boundary at or after the previous entry. */
  lemma GptAddKeepsLayout(g: Geometry, st: TableState, a: PartAction)
    requires g.Valid() && g.kind == Gpt && GptLaidOut(g.oneMibSectors, st.entries)
    requires a.offset.None? && a.size.Some?
    ensures AddSpec(g, st, a).Ok?
    ensures GptLaidOut(g.oneMibSectors, AddSpec(g, st, a).value.0.entries)
    ensures st.entries != [] ==>
      var e := AddSpec(g, st, a).value.1;
      End(st.entries[|st.entries| - 1]) <= e.start < End(st.entries[|st.entries| - 1]) + g.oneMibSectors
  {
    var mib := g.oneMibSectors;
    OneMibSectorsPow2(g.sectorBytes);
    var e := AddSpec(g, st, a).value.1;
    var es := st.entries + [e];
    if st.entries != [] {
      AlignUpSpec(End(st.entries[|st.entries| - 1]), mib);
    } else {
      assert mib % mib == 0 by { DivModUnique(mib, mib, 1, 0); }
    }
    assert forall i :: 0 <= i < |st.entries| ==> es[i] == st.entries[i];
  }

  /** A run of GPT adds without offsets keeps the layout and adds one entry per action. */
  lemma {:induction false} GptLayout(g: Geometry, st: TableState, actions: seq<PartAction>)
    requires g.Valid() && g.kind == Gpt && GptLaidOut(g.oneMibSectors, st.entries)
    requires forall k :: 0 <= k < |actions| ==> actions[k].offset.None? && actions[k].size.Some?
    ensures AddAll(g, st, actions).Ok?
    ensures GptLaidOut(g.oneMibSectors, AddAll(g, st, actions).value.entries)
    ensures |AddAll(g, st, actions).value.entries| == |st.entries| + |actions|
    decreases |actions|
  {
    if actions != [] {
      GptAddKeepsLayout(g, st, actions[0]);
      var next := AddSpec(g, st, actions[0]).value.0;
      GptLayout(g, next, actions[1..]);
    }
  }

  /** With every size at least one sector, laid-out starts strictly increase. */
  lemma {:induction false} GptStartsIncrease(mib: nat, entries: seq<Entry>)
    requires GptLaidOut(mib, entries)
    requires forall i :: 0 <= i < |entries| ==> entries[i].size >= 1
    ensures forall i, j :: 0 <= i < j < |entries| ==> entries[i].start < entries[j].start
  {
    if |entries| >= 2 {
      var n := |entries|;
      var init := entries[..n - 1];
      assert forall i :: 0 <= i < n - 1 ==> init[i] == entries[i];
      GptStartsIncrease(mib, init);
      assert entries[n - 2].start < entries[n - 1].start by {
        assert End(entries[n - 2]) <= entries[n - 1].start;
      }
    }
  }

  // ---------------------------------------------------------------------
  // DOS numbering and placement
  // ---------------------------------------------------------------------

  /** The logical entries, in table order. */
  function Logicals(entries: seq<Entry>): (r: seq<Entry>)
    ensures |r| <= |entries|
  {
    if entries == [] then []
    else
      var init := Logicals(entries[..|entries| - 1]);
      if IsLogical(entries[|entries| - 1]) then init + [entries[|entries| - 1]] else init
  }

  /** The last logical entry is the last of Logicals. */
  lemma {:induction false} LastLogicalOfLogicals(entries: seq<Entry>)
    ensures LastWhere(entries, true).None? <==> Logicals(entries) == []
    ensures Logicals(entries) != [] ==> LastWhere(entries, true) == Some(Logicals(entries)[|Logicals(entries)| - 1])
  {
    if entries != [] && !IsLogical(entries[|entries| - 1]) {
      LastLogicalOfLogicals(entries[..|entries| - 1]);
    }
  }

  /** The DOS invariant: logical partitions are numbered 5, 6, 7, ... in table order, and exist only under an extended one. */
  predicate DosNumbered(st: TableState) {
    && (forall k :: 0 <= k < |Logicals(st.entries)| ==> Logicals(st.entries)[k].number == 5 + k)
    && (Logicals(st.entries) != [] ==> st.extended.Some?)
  }

  /** A logical partition gets the next logical number, whatever number the action asked for. */
  lemma DosLogicalNumber(g: Geometry, st: TableState, a: PartAction, n: Option<int>)
    requires g.Valid() && g.kind == Dos && DosNumbered(st)
    requires a.flag == Some("logical") && AddSpec(g, st, a).Ok?
    ensures AddSpec(g, st, a).value.1.number == 5 + |Logicals(st.entries)|
    ensures AddSpec(g, st, a.(number := n)) == AddSpec(g, st, a)
  {
    LastLogicalOfLogicals(st.entries);
  }

  /** Every DOS add keeps the numbering invariant. */
  lemma DosAddKeepsNumbering(g: Geometry, st: TableState, a: PartAction)
    requires g.Valid() && g.kind == Dos && DosNumbered(st) && AddSpec(g, st, a).Ok?
    ensures DosNumbered(AddSpec(g, st, a).value.0)
  {
    var (next, e) := AddSpec(g, st, a).value;
    assert next.entries[..|next.entries| - 1] == st.entries;
    if IsLogical(e) {
      assert a.flag == Some("logical");
      DosLogicalNumber(g, st, a, a.number);
      assert Logicals(next.entries) == Logicals(st.entries) + [e];
    } else {
      assert Logicals(next.entries) == Logicals(st.entries);
    }
  }

  /** A run of DOS adds from an empty table keeps the numbering invariant. */
  lemma {:induction false} DosNumbering(g: Geometry, st: TableState, actions: seq<PartAction>)
    requires g.Valid() && g.kind == Dos && DosNumbered(st) && AddAll(g, st, actions).Ok?
    ensures DosNumbered(AddAll(g, st, actions).value)
    decreases |actions|
  {
    if actions != [] {
      DosAddKeepsNumbering(g, st, actions[0]);
      DosNumbering(g, AddSpec(g, st, actions[0]).value.0, actions[1..]);
    }
  }

  /** A logical partition without an offset starts on the first 1 MiB boundary at least 1 MiB past its anchor. */
  lemma DosLogicalStart(g: Geometry, st: TableState, a: PartAction)
    requires g.Valid() && g.kind == Dos
    requires a.flag == Some("logical") && a.offset.None? && AddSpec(g, st, a).Ok?
    ensures
      var anchor := if LastWhere(st.entries, true).None? then st.extended.value.start else End(LastWhere(st.entries, true).value);
      var s := AddSpec(g, st, a).value.1.start;
      && s % g.oneMibSectors == 0
      && anchor + g.oneMibSectors <= s < anchor + 2 * g.oneMibSectors
  {
    OneMibSectorsPow2(g.sectorBytes);
    var prev := LastWhere(st.entries, true);
    var anchor := if prev.None? then st.extended.value.start else End(prev.value);
    AlignUpSpec(anchor + g.oneMibSectors, g.oneMibSectors);
  }

  /** A primary partition without an offset starts on the first 1 MiB boundary after the last primary one, or at 1 MiB. */
  lemma DosPrimaryStart(g: Geometry, st: TableState, a: PartAction)
    requires g.Valid() && g.kind == Dos
    requires a.flag != Some("logical") && a.offset.None? && AddSpec(g, st, a).Ok?
    ensures AddSpec(g, st, a).value.1.number <= 4
    ensures AddSpec(g, st, a).value.1.start % g.oneMibSectors == 0
    ensures LastWhere(st.entries, false).None? ==> AddSpec(g, st, a).value.1.start == g.oneMibSectors
    ensures LastWhere(st.entries, false).Some? ==>
      var prevEnd := End(LastWhere(st.entries, false).value);
      prevEnd <= AddSpec(g, st, a).value.1.start < prevEnd + g.oneMibSectors
  {
    OneMibSectorsPow2(g.sectorBytes);
    var prev := LastWhere(st.entries, false);
    if prev.None? {
      DivModUnique(g.oneMibSectors, g.oneMibSectors, 1, 0);
    } else {
      AlignUpSpec(End(prev.value), g.oneMibSectors);
    }
  }

  /** DOS flags: bootable only for boot, no uuid, and an extended partition becomes the anchor with type 05. */
  lemma DosFlags(g: Geometry, st: TableState, a: PartAction)
    requires g.Valid() && g.kind == Dos && AddSpec(g, st, a).Ok?
    ensures var (next, e) := AddSpec(g, st, a).value;
      && (e.bootable <==> a.flag == Some("boot"))
      && e.uuid.None?
      && e.ptype == MapGet(FlagToMbrType, a.flag)
      && (a.flag == Some("extended") ==> next.extended == Some(e) && e.ptype == Some("05"))
      && (a.flag != Some("extended") ==> next.extended == st.extended)
  {
  }

  /** GPT entries take the requested or next number, the flag's GUID, the action's uuid, and are never bootable. */
  lemma GptFields(g: Geometry, st: TableState, a: PartAction)
    requires g.Valid() && g.kind == Gpt && AddSpec(g, st, a).Ok?
    ensures var e := AddSpec(g, st, a).value.1;
      && e.number == a.number.GetOr(|st.entries| + 1)
      && e.ptype == MapGet(FlagToGuid, a.flag)
      && e.uuid == a.uuid
      && !e.bootable
      && (a.offset.Some? ==> e.start == BytesToSectors(g.sectorBytes, a.offset.value))
      && e.size == BytesToSectors(g.sectorBytes, a.size.value)
  {
  }

  // ---------------------------------------------------------------------
  // The table object
  // ---------------------------------------------------------------------

  /** Backwards scan of DOSPartTable.add for the previous logical partition. */
  method FindLastLogical(entries: seq<Entry>) returns (prev: Option<Entry>)
    ensures prev == LastWhere(entries, true)
  {
    prev := None;
    var i := |entries|;
    while i > 0
      invariant 0 <= i <= |entries|
      invariant forall j :: i <= j < |entries| ==> !IsLogical(entries[j])
      invariant prev == None
    {
      i := i - 1;
      if entries[i].number > 4 {
        prev := Some(entries[i]);
        break;
      }
    }
  }

  /** Forward scan of DOSPartTable.add for the last primary partition. */
  method FindLastPrimary(entries: seq<Entry>) returns (prev: Option<Entry>)
    ensures prev == LastWhere(entries, false)
  {
    prev := None;
    for i := 0 to |entries|
      invariant prev == LastWhere(entries[..i], false)
    {
      if entries[i].number <= 4 {
        prev := Some(entries[i]);
      }
      assert entries[..i + 1][..i] == entries[..i];
    }
    assert entries[..|entries|] == entries;
  }

  /** SFDiskPartTable with its GPT and DOS subclasses: the entries list and the extended anchor. */
  class SfdiskTable {
    const kind: Label
    const sectorBytes: nat
    const oneMibSectors: nat
    var entries: seq<Entry>
    var extended: Option<Entry>

    function Geom(): Geometry {
      Geometry(kind, sectorBytes, oneMibSectors)
    }

    predicate Valid() {
      Geom().Valid()
    }

    function State(): TableState
      reads this
    {
      TableState(entries, extended)
    }

    constructor (kind: Label, sectorBytes: nat)
      requires OneMibSectors(sectorBytes).Ok?
      ensures Valid() && State() == TableState([], None)
      ensures this.kind == kind && this.sectorBytes == sectorBytes
    {
      this.kind := kind;
      this.sectorBytes := sectorBytes;
      this.oneMibSectors := OneMibSectors(sectorBytes).value;
      entries := [];
      extended := None;
    }

    /** `add`: appends the entry AddSpec describes, or raises and leaves the table as it was. */
    method Add(a: PartAction) returns (r: Result<Entry, TableError>)
      requires Valid()
      modifies this
      ensures AddSpec(Geom(), old(State()), a).Ok? ==> r == Ok(AddSpec(Geom(), old(State()), a).value.1) && State() == AddSpec(Geom(), old(State()), a).value.0
      ensures AddSpec(Geom(), old(State()), a).Err? ==> r == Err(AddSpec(Geom(), old(State()), a).error) && State() == old(State())
    {
      if kind == Gpt {
        r := AddGpt(a);
      } else {
        r := AddDos(a);
      }
    }

    method AddGpt(a: PartAction) returns (r: Result<Entry, TableError>)
      requires Valid() && kind == Gpt
      modifies this
      ensures GptAdd(Geom(), old(State()), a).Ok? ==> r == Ok(GptAdd(Geom(), old(State()), a).value.1) && State() == GptAdd(Geom(), old(State()), a).value.0
      ensures GptAdd(Geom(), old(State()), a).Err? ==> r == Err(GptAdd(Geom(), old(State()), a).error) && State() == old(State())
    {
      var number := a.number.GetOr(|entries| + 1);
      var start: nat;
      if a.offset.Some? {
        start := BytesToSectors(sectorBytes, a.offset.value);
      } else if entries != [] {
        var prev := entries[|entries| - 1];
        start := AlignUp(prev.start + prev.size, oneMibSectors);
      } else {
        start := oneMibSectors;
      }
      if a.size.None? {
        return Err(MissingSize);
      }
      var size := BytesToSectors(sectorBytes, a.size.value);
      var entry := Entry(number, start, size, MapGet(FlagToGuid, a.flag), a.uuid, false);
      entries := entries + [entry];
      r := Ok(entry);
    }

    method AddDos(a: PartAction) returns (r: Result<Entry, TableError>)
      requires Valid() && kind == Dos
      modifies this
      ensures DosAdd(Geom(), old(State()), a).Ok? ==> r == Ok(DosAdd(Geom(), old(State()), a).value.1) && State() == DosAdd(Geom(), old(State()), a).value.0
      ensures DosAdd(Geom(), old(State()), a).Err? ==> r == Err(DosAdd(Geom(), old(State()), a).error) && State() == old(State())
    {
      var mib := oneMibSectors;
      var start: Option<nat> := None;
      if a.offset.Some? {
        start := Some(BytesToSectors(sectorBytes, a.offset.value));
      }
      var number: int;
      if a.flag == Some("logical") {
        if extended.None? {
          return Err(LogicalWithoutExtended);
        }
        var prev := FindLastLogical(entries);
        if prev.None? {
          number := 5;
          if start.None? {
            start := Some(AlignUp(extended.value.start + mib, mib));
          }
        } else {
          number := prev.value.number + 1;
          if start.None? {
            start := Some(AlignUp(prev.value.start + prev.value.size + mib, mib));
          }
        }
      } else {
        number := a.number.GetOr(|entries| + 1);
        if number > 4 {
          return Err(PrimaryNumberTooLarge(number));
        }
        if start.None? {
          var prev := FindLastPrimary(entries);
          if prev.None? {
            start := Some(mib);
          } else {
            start := Some(AlignUp(prev.value.start + prev.value.size, mib));
          }
        }
      }
      if a.size.None? {
        return Err(MissingSize);
      }
      var size := BytesToSectors(sectorBytes, a.size.value);
      var entry := Entry(number, start.value, size, MapGet(FlagToMbrType, a.flag), None, a.flag == Some("boot"));
      if a.flag == Some("extended") {
        extended := Some(entry);
      }
      entries := entries + [entry];
      r := Ok(entry);
    }
  }

  /** Constructing a table: raises unless the sector size divides 1 MiB. */
  method NewTable(kind: Label, sectorBytes: nat) returns (r: Result<SfdiskTable, TableError>)
    ensures r.Ok? <==> OneMibSectors(sectorBytes).Ok?
    ensures r.Err? ==> r.error == OneMibSectors(sectorBytes).error
    ensures r.Ok? ==> fresh(r.value) && r.value.Valid() && r.value.State() == TableState([], None)
    ensures r.Ok? ==> r.value.kind == kind && r.value.sectorBytes == sectorBytes
  {
    var mib := OneMibSectors(sectorBytes);
    if mib.Err? {
      return Err(mib.error);
    }
    var t := new SfdiskTable(kind, sectorBytes);
    r := Ok(t);
  }

  // ---------------------------------------------------------------------
  // The sfdisk script
  // ---------------------------------------------------------------------

  /** ` key=value` when the value is present. */
  function Field(key: string, v: Option<string>): string {
    if v.Some? then " " + key + "=" + v.value else ""
  }

  /** The ` key=value` attributes of PartTableEntry.render that follow the number. */
  function Attributes(e: Entry): string {
    Field("start", Some(NatToString(e.start)))
      + Field("size", Some(NatToString(e.size)))
      + Field("type", e.ptype)
      + Field("uuid", e.uuid)
      + (if e.bootable then " bootable" else "")
  }

  /** PartTableEntry.render: the number, a colon and a space, then the attributes. */
  function RenderEntry(e: Entry): string {
    IntToString(e.number) + ": " + Attributes(e)
  }

  function RenderEntries(entries: seq<Entry>): (lines: seq<string>)
    ensures |lines| == |entries|
  {
    if entries == [] then [] else [RenderEntry(entries[0])] + RenderEntries(entries[1..])
  }

  /** SFDiskPartTable.render: the label line, a blank line, then one line per entry. */
  function TableRender(kind: Label, entries: seq<Entry>): string {
    Join(Header(kind) + RenderEntries(entries), '\n')
  }

  /** str(i) is made of digits and a minus sign. */
  lemma IntToStringChars(i: int)
    ensures forall k :: 0 <= k < |IntToString(i)| ==> IsDigit(IntToString(i)[k]) || IntToString(i)[k] == '-'
  {
    if i < 0 {
      var d := NatToString(-i);
      assert forall k :: 1 <= k < |IntToString(i)| ==> IntToString(i)[k] == d[k - 1];
    }
  }

  /** The text before the first ':' of a rendered entry reads back as its number. */
  lemma RenderEntryNumber(e: Entry)
    ensures BeforeFirst(RenderEntry(e), ':') == IntToString(e.number)
    ensures ParseInt(BeforeFirst(RenderEntry(e), ':')) == Some(e.number)
  {
    var n := IntToString(e.number);
    IntToStringChars(e.number);
    assert ':' !in n;
    var rest := " " + Attributes(e);
    assert RenderEntry(e) == n + [':'] + rest;
    BeforeFirstJoined(n, ':', rest);
    IntToStringRoundTrip(e.number);
  }

  predicate OneLine(v: Option<string>) {
    v.Some? ==> '\n' !in v.value
  }

  lemma FieldOneLine(key: string, v: Option<string>)
    requires '\n' !in key && OneLine(v)
    ensures '\n' !in Field(key, v)
  {
  }

  /** An entry renders on one line when its type and uuid hold no newline. */
  lemma RenderEntryOneLine(e: Entry)
    requires OneLine(e.ptype) && OneLine(e.uuid)
    ensures '\n' !in RenderEntry(e)
  {
    IntToStringChars(e.number);
    var start := NatToString(e.start);
    var size := NatToString(e.size);
    assert '\n' !in start && '\n' !in size;
    FieldOneLine("start", Some(start));
    FieldOneLine("size", Some(size));
    FieldOneLine("type", e.ptype);
    FieldOneLine("uuid", e.uuid);
  }

  /** Line i of the rendered entries is entry i rendered. */
  lemma {:induction false} RenderEntriesAt(entries: seq<Entry>, i: nat)
    requires i < |entries|
    ensures RenderEntries(entries)[i] == RenderEntry(entries[i])
  {
    if i > 0 {
      RenderEntriesAt(entries[1..], i - 1);
    }
  }

  lemma RenderEntriesOneLine(entries: seq<Entry>)
    requires forall i :: 0 <= i < |entries| ==> OneLine(entries[i].ptype) && OneLine(entries[i].uuid)
    ensures forall k :: 0 <= k < |entries| ==> '\n' !in RenderEntries(entries)[k]
  {
    forall k | 0 <= k < |entries| ensures '\n' !in RenderEntries(entries)[k] {
      RenderEntriesAt(entries, k);
      RenderEntryOneLine(entries[k]);
    }
  }

  lemma ConcatOneLine(h: seq<string>, body: seq<string>)
    requires forall k :: 0 <= k < |h| ==> '\n' !in h[k]
    requires forall k :: 0 <= k < |body| ==> '\n' !in body[k]
    ensures forall k :: 0 <= k < |h + body| ==> '\n' !in (h + body)[k]
  {
  }

  /** The header lines of the script, for either label. */
  function Header(kind: Label): (lines: seq<string>)
    ensures |lines| == 2 && forall k :: 0 <= k < 2 ==> '\n' !in lines[k]
  {
    var line := "label: " + LabelName(kind);
    assert line == "label: gpt" || line == "label: dos";
    [line, ""]
  }

  /** Splitting the script at newlines gives back the header and one line per entry. */
  lemma TableRenderLines(kind: Label, entries: seq<Entry>)
    requires forall i :: 0 <= i < |entries| ==> OneLine(entries[i].ptype) && OneLine(entries[i].uuid)
    ensures SplitOn(TableRender(kind, entries), '\n') == Header(kind) + RenderEntries(entries)
  {
    RenderEntriesOneLine(entries);
    ConcatOneLine(Header(kind), RenderEntries(entries));
    SplitJoin(Header(kind) + RenderEntries(entries), '\n');
  }

  // ---------------------------------------------------------------------
  // Wipe policy and the wipe plan of disk_handler_v2
  // ---------------------------------------------------------------------

  /** `_wipe_for_action`: the wipe mode for a partition's volume, None for no wipe. */
  function WipeForAction(a: PartAction): (r: Option<string>)
    ensures a.wipe.Some? ==> r == a.wipe
    ensures r.None? <==> a.wipe.None? && (a.preserve || a.flag == Some("extended"))
    ensures r.Some? && a.wipe.None? ==> r == Some("superblock")
  {
    if a.wipe.Some? then a.wipe
    else if a.preserve then None
    else if a.flag == Some("extended") then None
    else Some("superblock")
  }

  /** One partition of `sfdisk_info(disk)['partitions']`, with its start in sectors. */
  datatype SfdiskPart = SfdiskPart(node: string, start: nat, size: nat)

  /** `_find_part_info`: the first existing partition that starts at the offset. */
  function FindPartInfo(parts: seq<SfdiskPart>, offset: nat): (r: Result<SfdiskPart, TableError>)
    ensures r.Ok? <==> exists i :: 0 <= i < |parts| && parts[i].start == offset
    ensures r.Ok? ==> exists i :: 0 <= i < |parts| && parts[i] == r.value && r.value.start == offset && forall j :: 0 <= j < i ==> parts[j].start != offset
    ensures r.Err? ==> r.error == PartitionNotFound(offset)
  {
    if parts == [] then Err(PartitionNotFound(offset))
    else if parts[0].start == offset then Ok(parts[0])
    else
      var r := FindPartInfo(parts[1..], offset);
      if r.Ok? then
        assert forall j :: 0 <= j < |parts| - 1 ==> parts[1..][j] == parts[j + 1];
        r
      else
        assert forall j :: 0 <= j < |parts| - 1 ==> parts[1..][j] == parts[j + 1];
        r
  }

  /** What disk_handler_v2 accumulates while adding partitions: preserved starts, the wipe mode per start, the byte offsets zeroed at once. */
  datatype WipePlan = WipePlan(preserved: set<nat>, wipes: map<nat, Option<string>>, quickZero: seq<nat>)

  /** One iteration of the loop over the disk's partition actions. */
  function PlanStep(g: Geometry, parts: seq<SfdiskPart>, st: TableState, plan: WipePlan, a: PartAction): (r: Result<(TableState, WipePlan), TableError>)
    requires g.Valid()
  {
    match AddSpec(g, st, a)
    case Err(e) => Err(e)
    case Ok((next, entry)) =>
      if a.preserve && FindPartInfo(parts, entry.start).Err? then Err(FindPartInfo(parts, entry.start).error)
      else
        var preserved := if a.preserve then plan.preserved + {entry.start} else plan.preserved;
        var wipe := WipeForAction(a);
        var quick := if wipe.Some? then plan.quickZero + [SectorsToBytes(g.sectorBytes, entry.start)] else plan.quickZero;
        Ok((next, WipePlan(preserved, plan.wipes[entry.start := wipe], quick)))
  }

  /** The table state and wipe plan after the loop has handled a list of actions. */
  function Plan(g: Geometry, parts: seq<SfdiskPart>, st: TableState, actions: seq<PartAction>): (r: Result<(TableState, WipePlan), TableError>)
    requires g.Valid()
    ensures r.Ok? ==> |r.value.0.entries| == |st.entries| + |actions| && r.value.0.entries[..|st.entries|] == st.entries
    decreases |actions|
  {
    if actions == [] then Ok((st, WipePlan({}, map[], [])))
    else
      match Plan(g, parts, st, actions[..|actions| - 1])
      case Err(e) => Err(e)
      case Ok((mid, plan)) => PlanStep(g, parts, mid, plan, actions[|actions| - 1])
  }

  /** The partition loop of disk_handler_v2: adds every action to the table and builds the wipe plan. */
  method PlanPartitions(table: SfdiskTable, actions: seq<PartAction>, parts: seq<SfdiskPart>) returns (r: Result<WipePlan, TableError>)
    requires table.Valid()
    modifies table
    ensures Plan(table.Geom(), parts, old(table.State()), actions).Ok? <==> r.Ok?
    ensures r.Ok? ==> Plan(table.Geom(), parts, old(table.State()), actions).value == (table.State(), r.value)
    ensures r.Err? ==> Plan(table.Geom(), parts, old(table.State()), actions).error == r.error
  {
    var g := table.Geom();
    ghost var st0 := table.State();
    var preserved: set<nat> := {};
    var wipes: map<nat, Option<string>> := map[];
    var quick: seq<nat> := [];
    for i := 0 to |actions|
      invariant table.Geom() == g
      invariant Plan(g, parts, st0, actions[..i]) == Ok((table.State(), WipePlan(preserved, wipes, quick)))
    {
      var a := actions[i];
      assert actions[..i + 1][..i] == actions[..i];
      var added := table.Add(a);
      if added.Err? {
        PlanErrPersists(g, parts, st0, actions, i + 1);
        return Err(added.error);
      }
      var entry := added.value;
      if a.preserve {
        var info := FindPartInfo(parts, entry.start);
        if info.Err? {
          PlanErrPersists(g, parts, st0, actions, i + 1);
          return Err(info.error);
        }
        preserved := preserved + {entry.start};
      }
      var wipe := WipeForAction(a);
      wipes := wipes[entry.start := wipe];
      if wipe.Some? {
        quick := quick + [SectorsToBytes(table.sectorBytes, entry.start)];
      }
    }
    assert actions[..|actions|] == actions;
    r := Ok(WipePlan(preserved, wipes, quick));
  }

  /** Once a prefix of the actions fails, so does the whole list. */
  lemma {:induction false} PlanErrPersists(g: Geometry, parts: seq<SfdiskPart>, st: TableState, actions: seq<PartAction>, n: nat)
    requires g.Valid() && n <= |actions| && Plan(g, parts, st, actions[..n]).Err?
    ensures Plan(g, parts, st, actions).Err? && Plan(g, parts, st, actions).error == Plan(g, parts, st, actions[..n]).error
    decreases |actions| - n
  {
    if n < |actions| {
      assert actions[..n + 1][..n] == actions[..n];
      PlanErrPersists(g, parts, st, actions, n + 1);
    } else {
      assert actions[..n] == actions;
    }
  }

  /** The entries the loop appended, one per action. */
  function Added(st: TableState, after: TableState): seq<Entry>
    requires |st.entries| <= |after.entries|
  {
    after.entries[|st.entries|..]
  }

  /** One step of Plan, spelled out for the lemmas below. */
  lemma PlanLast(g: Geometry, parts: seq<SfdiskPart>, st: TableState, actions: seq<PartAction>)
    returns (pre: seq<PartAction>, a: PartAction, mid: TableState, plan0: WipePlan, after: TableState, plan: WipePlan, e: Entry)
    requires g.Valid() && actions != [] && Plan(g, parts, st, actions).Ok?
    ensures actions == pre + [a]
    ensures Plan(g, parts, st, pre) == Ok((mid, plan0))
    ensures Plan(g, parts, st, actions) == Ok((after, plan))
    ensures |st.entries| <= |mid.entries| && |mid.entries| + 1 == |after.entries|
    ensures Added(st, after) == Added(st, mid) + [e]
    ensures a.preserve ==> FindPartInfo(parts, e.start).Ok?
    ensures plan.preserved == (if a.preserve then plan0.preserved + {e.start} else plan0.preserved)
    ensures plan.wipes == plan0.wipes[e.start := WipeForAction(a)]
    ensures plan.quickZero == (if WipeForAction(a).Some? then plan0.quickZero + [SectorsToBytes(g.sectorBytes, e.start)] else plan0.quickZero)
  {
    pre := actions[..|actions| - 1];
    a := actions[|actions| - 1];
    assert actions == pre + [a];
    mid := Plan(g, parts, st, pre).value.0;
    plan0 := Plan(g, parts, st, pre).value.1;
    after := Plan(g, parts, st, actions).value.0;
    plan := Plan(g, parts, st, actions).value.1;
    e := AddSpec(g, mid, a).value.1;
    assert after == AddSpec(g, mid, a).value.0;
    assert after.entries == mid.entries + [e];
    assert Added(st, after) == Added(st, mid) + [e];
  }

  lemma WipeKeysStep(added0: seq<Entry>, e: Entry, added: seq<Entry>, wipes0: map<nat, Option<string>>, wipes: map<nat, Option<string>>, w: Option<string>)
    requires added == added0 + [e] && wipes == wipes0[e.start := w]
    requires forall o :: o in wipes0 <==> exists i :: 0 <= i < |added0| && added0[i].start == o
    ensures forall o :: o in wipes <==> exists i :: 0 <= i < |added| && added[i].start == o
  {
    assert added[|added0|] == e;
    assert forall i :: 0 <= i < |added0| ==> added[i] == added0[i];
  }

  /** The wipe modes are keyed by the starts of the added entries. */
  lemma {:induction false} PlanWipeKeys(g: Geometry, parts: seq<SfdiskPart>, st: TableState, actions: seq<PartAction>)
    requires g.Valid() && Plan(g, parts, st, actions).Ok?
    ensures var added := Added(st, Plan(g, parts, st, actions).value.0);
      forall o :: o in Plan(g, parts, st, actions).value.1.wipes <==> exists i :: 0 <= i < |added| && added[i].start == o
    decreases |actions|
  {
    if actions != [] {
      var pre, a, mid, plan0, after, plan, e := PlanLast(g, parts, st, actions);
      PlanWipeKeys(g, parts, st, pre);
      WipeKeysStep(Added(st, mid), e, Added(st, after), plan0.wipes, plan.wipes, WipeForAction(a));
    }
  }

  /** Offset i is not reused by a later entry. */
  predicate LastAtStart(added: seq<Entry>, i: nat)
    requires i < |added|
  {
    forall j :: i < j < |added| ==> added[j].start != added[i].start
  }

  /** Every entry not overwritten later has its own action's wipe mode. */
  predicate WipesOfLast(added: seq<Entry>, actions: seq<PartAction>, wipes: map<nat, Option<string>>)
    requires |added| == |actions|
  {
    forall i :: 0 <= i < |added| && LastAtStart(added, i) ==> added[i].start in wipes && wipes[added[i].start] == WipeForAction(actions[i])
  }

  lemma WipeLastStep(added0: seq<Entry>, actions0: seq<PartAction>, e: Entry, a: PartAction, added: seq<Entry>, actions: seq<PartAction>, wipes0: map<nat, Option<string>>, wipes: map<nat, Option<string>>)
    requires |added0| == |actions0| && added == added0 + [e] && actions == actions0 + [a]
    requires wipes == wipes0[e.start := WipeForAction(a)]
    requires WipesOfLast(added0, actions0, wipes0)
    ensures WipesOfLast(added, actions, wipes)
  {
    forall i | 0 <= i < |added| && LastAtStart(added, i)
      ensures added[i].start in wipes && wipes[added[i].start] == WipeForAction(actions[i])
    {
      if i < |added0| {
        assert added[|added0|] == e;
        assert added[i] == added0[i] && actions[i] == actions0[i];
        assert LastAtStart(added0, i) by {
          assert forall j :: i < j < |added0| ==> added0[j] == added[j];
        }
      }
    }
  }

  /** The last action whose entry starts at an offset decides that offset's wipe mode. */
  lemma {:induction false} PlanWipeLast(g: Geometry, parts: seq<SfdiskPart>, st: TableState, actions: seq<PartAction>)
    requires g.Valid() && Plan(g, parts, st, actions).Ok?
    ensures WipesOfLast(Added(st, Plan(g, parts, st, actions).value.0), actions, Plan(g, parts, st, actions).value.1.wipes)
    decreases |actions|
  {
    if actions != [] {
      var pre, a, mid, plan0, after, plan, e := PlanLast(g, parts, st, actions);
      PlanWipeLast(g, parts, st, pre);
      WipeLastStep(Added(st, mid), pre, e, a, Added(st, after), actions, plan0.wipes, plan.wipes);
    }
  }

  /** The starts of the preserved actions' entries. */
  ghost predicate PreservedStarts(added: seq<Entry>, actions: seq<PartAction>, preserved: set<nat>)
    requires |added| == |actions|
  {
    forall o :: o in preserved <==> exists i :: 0 <= i < |added| && actions[i].preserve && added[i].start == o
  }

  lemma PreservedStep(added0: seq<Entry>, actions0: seq<PartAction>, e: Entry, a: PartAction, added: seq<Entry>, actions: seq<PartAction>, p0: set<nat>, p: set<nat>)
    requires |added0| == |actions0| && added == added0 + [e] && actions == actions0 + [a]
    requires p == if a.preserve then p0 + {e.start} else p0
    requires PreservedStarts(added0, actions0, p0)
    ensures PreservedStarts(added, actions, p)
  {
    assert added[|added0|] == e && actions[|added0|] == a;
    assert forall i :: 0 <= i < |added0| ==> added[i] == added0[i] && actions[i] == actions0[i];
  }

  /** The preserved set holds exactly the starts of the preserved actions' entries. */
  lemma {:induction false} PlanPreserved(g: Geometry, parts: seq<SfdiskPart>, st: TableState, actions: seq<PartAction>)
    requires g.Valid() && Plan(g, parts, st, actions).Ok?
    ensures PreservedStarts(Added(st, Plan(g, parts, st, actions).value.0), actions, Plan(g, parts, st, actions).value.1.preserved)
    decreases |actions|
  {
    if actions != [] {
      var pre, a, mid, plan0, after, plan, e := PlanLast(g, parts, st, actions);
      PlanPreserved(g, parts, st, pre);
      PreservedStep(Added(st, mid), pre, e, a, Added(st, after), actions, plan0.preserved, plan.preserved);
    }
  }

  /** Every preserved start is the start of an existing partition. */
  lemma {:induction false} PlanPreservedExist(g: Geometry, parts: seq<SfdiskPart>, st: TableState, actions: seq<PartAction>)
    requires g.Valid() && Plan(g, parts, st, actions).Ok?
    ensures forall o :: o in Plan(g, parts, st, actions).value.1.preserved ==> exists k :: 0 <= k < |parts| && parts[k].start == o
    decreases |actions|
  {
    if actions != [] {
      var pre, a, mid, plan0, after, plan, e := PlanLast(g, parts, st, actions);
      PlanPreservedExist(g, parts, st, pre);
    }
  }

  /** The byte offsets of the added entries whose action gets a wipe mode. */
  ghost predicate QuickZeroOffsets(sectorBytes: nat, added: seq<Entry>, actions: seq<PartAction>, quick: seq<nat>)
    requires |added| == |actions|
  {
    forall o :: o in quick <==> exists i :: 0 <= i < |added| && WipeForAction(actions[i]).Some? && SectorsToBytes(sectorBytes, added[i].start) == o
  }

  lemma QuickZeroStep(sb: nat, added0: seq<Entry>, actions0: seq<PartAction>, e: Entry, a: PartAction, added: seq<Entry>, actions: seq<PartAction>, q0: seq<nat>, q: seq<nat>)
    requires |added0| == |actions0| && added == added0 + [e] && actions == actions0 + [a]
    requires q == if WipeForAction(a).Some? then q0 + [SectorsToBytes(sb, e.start)] else q0
    requires QuickZeroOffsets(sb, added0, actions0, q0)
    ensures QuickZeroOffsets(sb, added, actions, q)
  {
    assert added[|added0|] == e && actions[|added0|] == a;
    assert forall i :: 0 <= i < |added0| ==> added[i] == added0[i] && actions[i] == actions0[i];
  }

  /** The quick 1 MiB wipes go to the byte offsets of exactly the added entries whose action gets a wipe mode. */
  lemma {:induction false} PlanQuickZero(g: Geometry, parts: seq<SfdiskPart>, st: TableState, actions: seq<PartAction>)
    requires g.Valid() && Plan(g, parts, st, actions).Ok?
    ensures |Plan(g, parts, st, actions).value.1.quickZero| <= |actions|
    ensures QuickZeroOffsets(g.sectorBytes, Added(st, Plan(g, parts, st, actions).value.0), actions, Plan(g, parts, st, actions).value.1.quickZero)
    decreases |actions|
  {
    if actions != [] {
      var pre, a, mid, plan0, after, plan, e := PlanLast(g, parts, st, actions);
      PlanQuickZero(g, parts, st, pre);
      QuickZeroStep(g.sectorBytes, Added(st, mid), pre, e, a, Added(st, after), actions, plan0.quickZero, plan.quickZero);
    }
  }

  // ---------------------------------------------------------------------
  // Wipes around sfdisk
  // ---------------------------------------------------------------------

  /** One row of `sysfs_partition_data(disk)`: kernel name, number, offset and size in bytes. */
  datatype SysfsPart = SysfsPart(kname: string, number: int, offset: nat, size: nat)

  /** The partitions wiped as deleted before sfdisk runs: those whose start is not preserved. */
  function DeleteWipes(sectorBytes: nat, existing: seq<SysfsPart>, preserved: set<nat>): (r: seq<SysfsPart>)
    requires sectorBytes >= 1
    ensures |r| <= |existing|
    ensures forall p :: p in r <==> p in existing && BytesToSectors(sectorBytes, p.offset) !in preserved
  {
    if existing == [] then []
    else
      var rest := DeleteWipes(sectorBytes, existing[1..], preserved);
      assert forall p :: p in existing <==> p == existing[0] || p in existing[1..];
      if BytesToSectors(sectorBytes, existing[0].offset) in preserved then rest else [existing[0]] + rest
  }

  /** A partition that sits at a preserved start is never wiped as deleted. */
  lemma PreservedNotDeleted(sectorBytes: nat, existing: seq<SysfsPart>, preserved: set<nat>, o: nat, p: SysfsPart)
    requires sectorBytes >= 1 && o in preserved && p.offset == SectorsToBytes(sectorBytes, o)
    ensures p !in DeleteWipes(sectorBytes, existing, preserved)
  {
    SectorsRoundTrip(sectorBytes, o);
  }

  /** The wipes of the new partitions after sfdisk: a start missing from the plan raises, otherwise the planned modes. */
  function NewPartitionWipes(sectorBytes: nat, after: seq<SysfsPart>, wipes: map<nat, Option<string>>): (r: Result<seq<(string, string)>, TableError>)
    requires sectorBytes >= 1
    ensures r.Ok? <==> forall k :: 0 <= k < |after| ==> BytesToSectors(sectorBytes, after[k].offset) in wipes
    ensures r.Err? ==> r.error.UnknownOffset? && r.error.offsetSectors !in wipes
    ensures r.Ok? ==> forall name, mode :: (name, mode) in r.value <==>
      exists k :: 0 <= k < |after| && after[k].kname == name && wipes[BytesToSectors(sectorBytes, after[k].offset)] == Some(mode)
  {
    if after == [] then Ok([])
    else
      var o := BytesToSectors(sectorBytes, after[0].offset);
      assert forall k :: 1 <= k < |after| ==> after[k] == after[1..][k - 1];
      if o !in wipes then Err(UnknownOffset(o))
      else
        var rest := NewPartitionWipes(sectorBytes, after[1..], wipes);
        if rest.Err? then rest
        else if wipes[o].Some? then Ok([(after[0].kname, wipes[o].value)] + rest.value)
        else Ok(rest.value)
  }
}

=== FILE: sorting.dfy ===
/**
 * Stable sorting by a total preorder, the behaviour of Python's sorted() with
 * a key whose values are mutually comparable.
 */
module Sorting {

  ghost predicate TotalPreorder<T(!new)>(le: (T, T) -> bool) {
    && (forall x, y :: le(x, y) || le(y, x))
    && (forall x, y, z :: le(x, y) && le(y, z) ==> le(x, z))
  }

  ghost predicate SortedBy<T>(xs: seq<T>, le: (T, T) -> bool) {
    forall i, j :: 0 <= i < j < |xs| ==> le(xs[i], xs[j])
  }

  /** Put x in front of the first element it is at most. */
  function Insert<T>(x: T, ys: seq<T>, le: (T, T) -> bool): seq<T> {
    if ys == [] then [x]
    else if le(x, ys[0]) then [x] + ys
    else [ys[0]] + Insert(x, ys[1..], le)
  }

  lemma {:induction false} InsertPermutation<T>(x: T, ys: seq<T>, le: (T, T) -> bool)
    ensures multiset(Insert(x, ys, le)) == multiset(ys) + multiset{x}
  {
    if ys != [] && !le(x, ys[0]) {
      InsertPermutation(x, ys[1..], le);
      assert ys == [ys[0]] + ys[1..];
    }
  }

  /** Insertion sort; an element goes before every later element it ties with. */
  function InsertionSort<T>(xs: seq<T>, le: (T, T) -> bool): seq<T> {
    if xs == [] then [] else Insert(xs[0], InsertionSort(xs[1..], le), le)
  }

  /** The sort only reorders. */
  lemma {:induction false} InsertionSortPermutation<T>(xs: seq<T>, le: (T, T) -> bool)
    ensures multiset(InsertionSort(xs, le)) == multiset(xs)
  {
    if xs != [] {
      InsertionSortPermutation(xs[1..], le);
      InsertPermutation(xs[0], InsertionSort(xs[1..], le), le);
      assert xs == [xs[0]] + xs[1..];
    }
  }

  lemma {:induction false} InsertSorted<T(!new)>(x: T, ys: seq<T>, le: (T, T) -> bool)
    requires TotalPreorder(le)
    requires SortedBy(ys, le)
    ensures SortedBy(Insert(x, ys, le), le)
  {
    if ys != [] && !le(x, ys[0]) {
      assert le(ys[0], x);
      InsertSorted(x, ys[1..], le);
      var tail := Insert(x, ys[1..], le);
      InsertPermutation(x, ys[1..], le);
      assert multiset(tail) == multiset(ys[1..]) + multiset{x};
      forall k | 0 <= k < |tail| ensures le(ys[0], tail[k]) {
        assert tail[k] in multiset(tail);
        if tail[k] != x {
          assert tail[k] in multiset(ys[1..]);
          var m :| 0 <= m < |ys[1..]| && ys[1..][m] == tail[k];
          assert ys[m + 1] == tail[k];
        }
      }
    }
  }

  lemma {:induction false} InsertionSortSorted<T(!new)>(xs: seq<T>, le: (T, T) -> bool)
    requires TotalPreorder(le)
    ensures SortedBy(InsertionSort(xs, le), le)
  {
    if xs != [] {
      InsertionSortSorted(xs[1..], le);
      InsertSorted(xs[0], InsertionSort(xs[1..], le), le);
    }
  }

  /** The elements of xs that tie with x, in their order in xs. */
  function Ties<T>(xs: seq<T>, le: (T, T) -> bool, x: T): (r: seq<T>)
    ensures |r| <= |xs|
  {
    if xs == [] then []
    else (if le(x, xs[0]) && le(xs[0], x) then [xs[0]] else []) + Ties(xs[1..], le, x)
  }

  /**
   * Inserting y adds it to the ties of x exactly when it ties with x, in
   * front: y passes only elements it is not at most, and none of those ties
   * with x when y does.
   */
  lemma {:induction false} InsertTies<T(!new)>(y: T, ys: seq<T>, le: (T, T) -> bool, x: T)
    requires TotalPreorder(le)
    ensures Ties(Insert(y, ys, le), le, x) == (if le(x, y) && le(y, x) then [y] else []) + Ties(ys, le, x)
  {
    if ys == [] {
      assert Ties([y], le, x) == (if le(x, y) && le(y, x) then [y] else []) + Ties([], le, x);
    } else if le(y, ys[0]) {
      var ins := [y] + ys;
      assert ins[0] == y && ins[1..] == ys;
    } else {
      InsertTies(y, ys[1..], le, x);
      var head := if le(x, ys[0]) && le(ys[0], x) then [ys[0]] else [];
      var mine := if le(x, y) && le(y, x) then [y] else [];
      var rest := Ties(ys[1..], le, x);
      assert Ties(Insert(y, ys, le), le, x) == head + (mine + rest) by {
        var ins := [ys[0]] + Insert(y, ys[1..], le);
        assert Insert(y, ys, le) == ins;
        assert ins[0] == ys[0] && ins[1..] == Insert(y, ys[1..], le);
      }
      assert Ties(ys, le, x) == head + rest;
      assert head == [] || mine == [] by {
        if le(y, x) {
          PassedNotTied(le, y, x, ys[0]);
        }
      }
      SwapAroundEmpty(head, mine, rest);
    }
  }

  lemma SwapAroundEmpty<T>(a: seq<T>, b: seq<T>, rest: seq<T>)
    requires a == [] || b == []
    ensures a + (b + rest) == b + (a + rest)
  {
  }

  /** An element y is not at most does not tie with anything at least y. */
  lemma PassedNotTied<T(!new)>(le: (T, T) -> bool, y: T, x: T, z: T)
    requires TotalPreorder(le) && le(y, x) && !le(y, z)
    ensures !le(x, z)
  {
  }

  /**
   * The sort is stable: for every x, the elements tying with x come out in
   * the order they had in the input.
   */
  lemma {:induction false} InsertionSortStable<T(!new)>(xs: seq<T>, le: (T, T) -> bool, x: T)
    requires TotalPreorder(le)
    ensures Ties(InsertionSort(xs, le), le, x) == Ties(xs, le, x)
  {
    if xs != [] {
      InsertionSortStable(xs[1..], le, x);
      InsertTies(xs[0], InsertionSort(xs[1..], le), le, x);
    }
  }

  predicate NoDup<T(==)>(xs: seq<T>) {
    forall i, j :: 0 <= i < j < |xs| ==> xs[i] != xs[j]
  }

  lemma {:induction false} ElemsSize<T>(xs: seq<T>)
    ensures |set x | x in xs| <= |xs|
    ensures |set x | x in xs| == |xs| <==> NoDup(xs)
  {
    if xs != [] {
      var rest := xs[1..];
      ElemsSize(rest);
      assert (set x | x in xs) == {xs[0]} + (set x | x in rest) by {
        assert forall x :: x in xs <==> x == xs[0] || x in rest;
      }
      assert NoDup(xs) <==> NoDup(rest) && xs[0] !in rest by {
        if NoDup(xs) {
          forall i, j | 0 <= i < j < |rest| ensures rest[i] != rest[j] {
            assert rest[i] == xs[i + 1] && rest[j] == xs[j + 1];
          }
          forall i | 0 <= i < |rest| ensures rest[i] != xs[0] {
            assert rest[i] == xs[i + 1];
          }
        }
        if NoDup(rest) && xs[0] !in rest {
          forall i, j | 0 <= i < j < |xs| ensures xs[i] != xs[j] {
            assert xs[j] == rest[j - 1];
            if i > 0 { assert xs[i] == rest[i - 1]; }
          }
        }
      }
    }
  }

  /** A permutation of a sequence without duplicates has none. */
  lemma PermutationNoDup<T>(xs: seq<T>, ys: seq<T>)
    requires multiset(xs) == multiset(ys) && NoDup(xs)
    ensures NoDup(ys)
  {
    assert (set x | x in xs) == (set y | y in ys) by {
      forall x ensures x in xs <==> x in ys {
        assert x in xs <==> x in multiset(xs);
        assert x in ys <==> x in multiset(ys);
      }
    }
    assert |xs| == |multiset(xs)| == |ys|;
    ElemsSize(xs);
    ElemsSize(ys);
  }
}

=== FILE: storage_config.dfy ===
/**
 * Storage-config items and the pure helpers of curtin's storage_config
 * module: the id-keyed ordered view of a config, dependency-type validation,
 * sorting by a type's order key, partition-type code lookup, probe id
 * validation and a partition's parent device name.
 */
module StorageConfig {
  import opened Wrappers
  import opened Text
  import opened Sorting
  import opened StorageTypes

  /** A field value: a string, an integer, or a list of strings (ids). */
  datatype Value = Str(s: string) | Num(n: int) | Strs(items: seq<string>)

  /**
   * One storage item: its `id`, its `type` string and its other fields.
   * `id` and `type` are read through Get like any other field.
   */
  datatype Item = Item(id: string, stype: string, fields: map<string, Value>) {
    function Get(key: string): Option<Value> {
      if key == "id" then Some(Str(id))
      else if key == "type" then Some(Str(stype))
      else if key in fields then Some(fields[key])
      else None
    }
  }

  datatype StorageError =
    | InvalidConfig                      // not a non-empty ordered dict
    | NoStorage                          // no 'storage' entry
    | InvalidStorageData                 // no 'config' list in it
    | UnknownStorageType(name: string)   // type not in the registry
    | NotInConfig(id: string)            // an id that names no item
    | InvalidDependency(sourceType: string, sourceId: string, depKey: string,
                        depType: string, depId: string)
    | MissingKey(key: string)            // KeyError of a key lookup
    | Unorderable(key: string)           // TypeError: order-key values of different kinds
    | NotAnId(key: string)               // a dependency field holding a number
    | EmptyTree                          // IndexError on a tree with no entries
    | NotAPartition(devtype: string)     // a block device whose DEVTYPE is not partition

  /** Concatenation of two results, failing with the first failure. */
  function Chain<T>(a: Result<seq<T>, StorageError>, b: Result<seq<T>, StorageError>): (r: Result<seq<T>, StorageError>)
    ensures a.Err? ==> r == a
    ensures a.Ok? && b.Err? ==> r == b
    ensures a.Ok? && b.Ok? ==> r == Ok(a.value + b.value)
  {
    if a.Err? then a else if b.Err? then b else Ok(a.value + b.value)
  }

  lemma ChainUnit<T>(a: Result<seq<T>, StorageError>)
    ensures Chain(Ok([]), a) == a && Chain(a, Ok([])) == a
  {
    if a.Ok? {
      assert [] + a.value == a.value;
      assert a.value + [] == a.value;
    }
  }

  lemma ChainAssoc<T>(a: Result<seq<T>, StorageError>, b: Result<seq<T>, StorageError>, d: Result<seq<T>, StorageError>)
    ensures Chain(Chain(a, b), d) == Chain(a, Chain(b, d))
  {
    if a.Ok? && b.Ok? && d.Ok? {
      assert (a.value + b.value) + d.value == a.value + (b.value + d.value);
    }
  }

  function Ids(xs: seq<Item>): (r: seq<string>)
    ensures |r| == |xs| && forall i :: 0 <= i < |xs| ==> r[i] == xs[i].id
  {
    if xs == [] then [] else [xs[0].id] + Ids(xs[1..])
  }

  predicate DistinctIds(xs: seq<Item>) {
    forall i, j :: 0 <= i < j < |xs| ==> xs[i].id != xs[j].id
  }

  predicate HasId(xs: seq<Item>, id: string) {
    exists i :: 0 <= i < |xs| && xs[i].id == id
  }

  /** The ids of a sequence of items, as a set. */
  function IdSet(xs: seq<Item>): (r: set<string>)
    ensures forall e :: e in r <==> HasId(xs, e)
  {
    if xs == [] then {}
    else
      var rest := IdSet(xs[1..]);
      assert forall e :: HasId(xs, e) <==> e == xs[0].id || HasId(xs[1..], e) by {
        forall e | HasId(xs, e) ensures e == xs[0].id || HasId(xs[1..], e) {
          var i :| 0 <= i < |xs| && xs[i].id == e;
          if i > 0 { assert xs[1..][i - 1].id == e; }
        }
        forall e | HasId(xs[1..], e) ensures HasId(xs, e) {
          var i :| 0 <= i < |xs[1..]| && xs[1..][i].id == e;
          assert xs[i + 1].id == e;
        }
      }
      {xs[0].id} + rest
  }

  lemma IdSetOfIds(xs: seq<Item>)
    ensures IdSet(xs) == set e | e in Ids(xs)
  {
    var ids := Ids(xs);
    forall e ensures e in IdSet(xs) <==> e in ids {
      if e in ids { var i :| 0 <= i < |ids| && ids[i] == e; assert xs[i].id == e; }
      if HasId(xs, e) { var i :| 0 <= i < |xs| && xs[i].id == e; assert ids[i] == e; }
    }
  }

  lemma DistinctIdsNoDup(xs: seq<Item>)
    ensures DistinctIds(xs) <==> NoDup(Ids(xs))
  {
  }

  /** A sequence of items has as many distinct ids as items exactly when its ids are distinct. */
  lemma IdSetSize(xs: seq<Item>)
    ensures |IdSet(xs)| <= |xs|
    ensures |IdSet(xs)| == |xs| <==> DistinctIds(xs)
  {
    IdSetOfIds(xs);
    DistinctIdsNoDup(xs);
    ElemsSize(Ids(xs));
  }

  lemma PermutationHasId(xs: seq<Item>, ys: seq<Item>, e: string)
    requires multiset(xs) == multiset(ys) && HasId(ys, e)
    ensures HasId(xs, e)
  {
    var i :| 0 <= i < |ys| && ys[i].id == e;
    assert ys[i] in multiset(ys);
    assert ys[i] in xs;
    var k :| 0 <= k < |xs| && xs[k] == ys[i];
  }

  /** A permutation of items with distinct ids has distinct ids, and the same ones. */
  lemma PermutationIds(xs: seq<Item>, ys: seq<Item>)
    requires multiset(xs) == multiset(ys) && DistinctIds(xs)
    ensures DistinctIds(ys) && IdSet(ys) == IdSet(xs)
  {
    forall e | HasId(ys, e) ensures HasId(xs, e) { PermutationHasId(xs, ys, e); }
    forall e | HasId(xs, e) ensures HasId(ys, e) { PermutationHasId(ys, xs, e); }
    assert IdSet(ys) == IdSet(xs);
    assert |xs| == |multiset(xs)| == |ys|;
    IdSetSize(xs);
    IdSetSize(ys);
  }

  /** `config.get(id)`: the item with that id. */
  function Lookup(xs: seq<Item>, id: string): (r: Option<Item>)
    ensures r.Some? <==> HasId(xs, id)
    ensures r.Some? ==> r.value in xs && r.value.id == id
    ensures DistinctIds(xs) ==> forall i :: 0 <= i < |xs| && xs[i].id == id ==> r == Some(xs[i])
  {
    if xs == [] then None
    else if xs[0].id == id then Some(xs[0])
    else
      var r := Lookup(xs[1..], id);
      assert forall i :: 1 <= i < |xs| ==> xs[i] == xs[1..][i - 1];
      r
  }

  // ---------------------------------------------------------------------
  // The id-keyed ordered dict built from the config list
  // ---------------------------------------------------------------------

  /** Position of the first item with the given id. */
  function IndexOf(xs: seq<Item>, id: string): (i: nat)
    requires HasId(xs, id)
    ensures i < |xs| && xs[i].id == id
    ensures forall j :: 0 <= j < i ==> xs[j].id != id
  {
    if xs[0].id == id then 0
    else
      assert HasId(xs[1..], id) by {
        var k :| 0 <= k < |xs| && xs[k].id == id;
        assert xs[1..][k - 1].id == id;
      }
      1 + IndexOf(xs[1..], id)
  }

  /** `od[x.id] = x` on an ordered dict: replace in place, or append a new key. */
  function Upsert(od: seq<Item>, x: Item): seq<Item> {
    if HasId(od, x.id) then od[IndexOf(od, x.id) := x] else od + [x]
  }

  lemma UpsertDistinct(od: seq<Item>, x: Item)
    requires DistinctIds(od)
    ensures DistinctIds(Upsert(od, x))
    ensures forall id :: HasId(Upsert(od, x), id) <==> HasId(od, id) || id == x.id
    ensures forall i :: 0 <= i < |od| ==> Upsert(od, x)[i] == if od[i].id == x.id then x else od[i]
    ensures !HasId(od, x.id) ==> Upsert(od, x) == od + [x]
  {
    var r := Upsert(od, x);
    if HasId(od, x.id) {
      var k := IndexOf(od, x.id);
      assert forall i :: 0 <= i < |od| && i != k ==> r[i] == od[i] && od[i].id != x.id;
      forall id | HasId(r, id) ensures HasId(od, id) || id == x.id {
        var i :| 0 <= i < |r| && r[i].id == id;
        if i != k { assert od[i].id == id; }
      }
      forall id | HasId(od, id) ensures HasId(r, id) {
        var i :| 0 <= i < |od| && od[i].id == id;
        assert r[i].id == id;
      }
    } else {
      forall id | HasId(r, id) ensures HasId(od, id) || id == x.id {
        var i :| 0 <= i < |r| && r[i].id == id;
        if i < |od| { assert od[i].id == id; }
      }
      forall id | HasId(od, id) ensures HasId(r, id) {
        var i :| 0 <= i < |od| && od[i].id == id;
        assert r[i].id == id;
      }
      assert r[|od|].id == x.id;
    }
  }

  /** `OrderedDict((d["id"], d) for d in items)`. */
  function OrderedById(items: seq<Item>): (r: seq<Item>)
    decreases |items|
  {
    if items == [] then [] else Upsert(OrderedById(items[..|items| - 1]), items[|items| - 1])
  }

  /** x is the last item of items with x's id. */
  predicate LastWithId(items: seq<Item>, x: Item) {
    exists j :: 0 <= j < |items| && items[j] == x && forall j' :: j < j' < |items| ==> items[j'].id != x.id
  }

  /**
   * The ordered dict has one entry per distinct id, in order of first
   * appearance, holding the last item with that id.
   */
  lemma {:induction false} OrderedByIdSpec(items: seq<Item>)
    ensures DistinctIds(OrderedById(items))
    ensures forall id :: HasId(OrderedById(items), id) <==> HasId(items, id)
    ensures forall k :: 0 <= k < |OrderedById(items)| ==> LastWithId(items, OrderedById(items)[k])
  {
    if items != [] {
      var init := items[..|items| - 1];
      var x := items[|items| - 1];
      OrderedByIdSpec(init);
      var od := OrderedById(init);
      UpsertDistinct(od, x);
      var r := OrderedById(items);
      assert r == Upsert(od, x);
      forall id ensures HasId(r, id) <==> HasId(items, id) {
        if HasId(init, id) {
          var i :| 0 <= i < |init| && init[i].id == id;
          assert items[i].id == id;
        }
        if HasId(items, id) {
          var i :| 0 <= i < |items| && items[i].id == id;
          if i < |init| { assert init[i].id == id; }
        }
      }
      forall k | 0 <= k < |r| ensures LastWithId(items, r[k]) {
        if k < |od| && od[k].id != x.id {
          assert r[k] == od[k];
          var j :| 0 <= j < |init| && init[j] == od[k] && forall j' :: j < j' < |init| ==> init[j'].id != od[k].id;
          assert items[j] == r[k];
          forall j' | j < j' < |items| ensures items[j'].id != r[k].id {
            if j' < |init| { assert items[j'] == init[j']; }
          }
        } else {
          assert r[k] == x;
          assert items[|items| - 1] == r[k];
        }
      }
    }
  }

  /** The `storage` entry of an installer config; `None` fields are absent keys. */
  datatype StorageSection = StorageSection(version: Option<int>, config: Option<seq<Item>>)

  /** `extract_storage_ordered_dict`. */
  function ExtractStorageOrderedDict(storage: Option<StorageSection>): (r: Result<seq<Item>, StorageError>)
    ensures r.Err? <==> storage.None? || storage.value.config.None? || storage.value.config.value == []
    ensures r.Ok? ==> r.value != [] && DistinctIds(r.value)
    ensures r.Ok? ==> forall id :: HasId(r.value, id) <==> HasId(storage.value.config.value, id)
  {
    match storage
    case None => Err(NoStorage)
    case Some(section) =>
      if section.version.None? && section.config.None? then Err(NoStorage)
      else if section.config.None? || section.config.value == [] then Err(InvalidStorageData)
      else
        var items := section.config.value;
        OrderedByIdSpec(items);
        assert HasId(items, items[0].id);
        Ok(OrderedById(items))
  }

  /** `config_tree_to_list`: the tree's items from the last inserted to the root. */
  function ConfigTreeToList(tree: seq<Item>): (r: seq<Item>)
    ensures |r| == |tree|
    ensures forall i :: 0 <= i < |tree| ==> r[i] == tree[|tree| - 1 - i]
    ensures tree != [] ==> r[|r| - 1] == tree[0]
  {
    if tree == [] then [] else ConfigTreeToList(tree[1..]) + [tree[0]]
  }

  // ---------------------------------------------------------------------
  // Dependency-type validation
  // ---------------------------------------------------------------------

  /** `_validate_dep_type`: may item sourceId have dependency depId through depKey? */
  function ValidateDepType(sourceId: string, depKey: string, depId: string, c: seq<Item>): (r: Outcome<StorageError>)
    ensures !HasId(c, sourceId) ==> r == Fail(NotInConfig(sourceId))
    ensures HasId(c, sourceId) && !HasId(c, depId) ==> r == Fail(NotInConfig(depId))
    ensures r.Pass? <==>
      && HasId(c, sourceId) && HasId(c, depId)
      && ParseType(Lookup(c, sourceId).value.stype).Some?
      && ParseType(Lookup(c, depId).value.stype).Some?
      && ParseType(Lookup(c, depId).value.stype).value in AllowedDeps(ParseType(Lookup(c, sourceId).value.stype).value)
  {
    match (Lookup(c, sourceId), Lookup(c, depId))
    case (None, _) => Fail(NotInConfig(sourceId))
    case (_, None) => Fail(NotInConfig(depId))
    case (Some(src), Some(dep)) =>
      match (ParseType(src.stype), ParseType(dep.stype))
      case (None, _) => Fail(UnknownStorageType(src.stype))
      case (_, None) => Fail(UnknownStorageType(dep.stype))
      case (Some(st), Some(dt)) =>
        if dt in AllowedDeps(st) then Pass
        else Fail(InvalidDependency(src.stype, sourceId, depKey, dep.stype, depId))
  }

  // ---------------------------------------------------------------------
  // Ordering items by a field, as sorted(key=operator.itemgetter(field))
  // ---------------------------------------------------------------------

  function Kind(v: Value): nat {
    match v
    case Num(_) => 0
    case Str(_) => 1
    case Strs(_) => 2
  }

  /** Python's list comparison for lists of strings. */
  predicate StrsLe(a: seq<string>, b: seq<string>) {
    a == [] || (b != [] && (if a[0] == b[0] then StrsLe(a[1..], b[1..]) else StrLe(a[0], b[0])))
  }

  /**
   * Python's `<=` on two values of one kind. Values of different kinds are
   * never compared: SortByKey fails first. Ranking by kind only makes the
   * relation total.
   */
  predicate ValueLe(a: Value, b: Value) {
    if Kind(a) != Kind(b) then Kind(a) < Kind(b)
    else match (a, b)
      case (Num(x), Num(y)) => x <= y
      case (Str(x), Str(y)) => StrLe(x, y)
      case (Strs(x), Strs(y)) => StrsLe(x, y)
      case _ => false
  }

  lemma {:induction false} StrsLeTotal(a: seq<string>, b: seq<string>)
    ensures StrsLe(a, b) || StrsLe(b, a)
  {
    if a != [] && b != [] {
      if a[0] == b[0] { StrsLeTotal(a[1..], b[1..]); } else { StrLeTotal(a[0], b[0]); }
    }
  }

  lemma {:induction false} StrsLeTrans(a: seq<string>, b: seq<string>, c: seq<string>)
    requires StrsLe(a, b) && StrsLe(b, c)
    ensures StrsLe(a, c)
  {
    if a != [] && b != [] && c != [] {
      if a[0] == b[0] && b[0] == c[0] {
        StrsLeTrans(a[1..], b[1..], c[1..]);
      } else if a[0] == b[0] {
        assert StrLe(b[0], c[0]);
      } else if b[0] == c[0] {
        assert StrLe(a[0], b[0]);
      } else {
        StrLeTrans(a[0], b[0], c[0]);
        if a[0] == c[0] { StrLeAntisym(a[0], b[0]); }
      }
    }
  }

  lemma ValueLeTotalPreorder()
    ensures forall x, y :: ValueLe(x, y) || ValueLe(y, x)
    ensures forall x, y, z :: ValueLe(x, y) && ValueLe(y, z) ==> ValueLe(x, z)
  {
    forall x, y ensures ValueLe(x, y) || ValueLe(y, x) {
      if x.Str? && y.Str? { StrLeTotal(x.s, y.s); }
      if x.Strs? && y.Strs? { StrsLeTotal(x.items, y.items); }
    }
    forall x, y, z | ValueLe(x, y) && ValueLe(y, z) ensures ValueLe(x, z) {
      if x.Str? && y.Str? && z.Str? { StrLeTrans(x.s, y.s, z.s); }
      if x.Strs? && y.Strs? && z.Strs? { StrsLeTrans(x.items, y.items, z.items); }
    }
  }

  /** The order-key value of an item (only read after its presence is checked). */
  function KeyValue(x: Item, key: string): Value {
    x.Get(key).GetOr(Strs([]))
  }

  function ItemLe(key: string): (Item, Item) -> bool {
    (x: Item, y: Item) => ValueLe(KeyValue(x, key), KeyValue(y, key))
  }

  lemma ItemLeTotalPreorder(key: string)
    ensures TotalPreorder(ItemLe(key))
  {
    ValueLeTotalPreorder();
  }

  predicate AllHaveKey(xs: seq<Item>, key: string) {
    forall i :: 0 <= i < |xs| ==> xs[i].Get(key).Some?
  }

  predicate OneKind(xs: seq<Item>, key: string) {
    forall i, j :: 0 <= i < |xs| && 0 <= j < |xs| ==> Kind(KeyValue(xs[i], key)) == Kind(KeyValue(xs[j], key))
  }

  /**
   * `sorted(xs, key=operator.itemgetter(key))`: a KeyError when an item lacks
   * the field, a TypeError when two or more values are of different kinds,
   * else the stable sort by the field's value.
   */
  function SortByKey(xs: seq<Item>, key: string): (r: Result<seq<Item>, StorageError>)
    ensures r.Err? <==> !AllHaveKey(xs, key) || (|xs| >= 2 && !OneKind(xs, key))
    ensures !AllHaveKey(xs, key) ==> r == Err(MissingKey(key))
    ensures r.Ok? ==> multiset(r.value) == multiset(xs) && SortedBy(r.value, ItemLe(key))
  {
    if !AllHaveKey(xs, key) then Err(MissingKey(key))
    else if |xs| >= 2 && !OneKind(xs, key) then Err(Unorderable(key))
    else
      ItemLeTotalPreorder(key);
      InsertionSortSorted(xs, ItemLe(key));
      InsertionSortPermutation(xs, ItemLe(key));
      Ok(InsertionSort(xs, ItemLe(key)))
  }

  /**
   * The sort is stable: items whose key values tie keep their input order,
   * as Python's sorted() keeps them.
   */
  lemma SortByKeyStable(xs: seq<Item>, key: string, y: Item)
    requires SortByKey(xs, key).Ok?
    ensures Ties(SortByKey(xs, key).value, ItemLe(key), y) == Ties(xs, ItemLe(key), y)
  {
    ItemLeTotalPreorder(key);
    InsertionSortStable(xs, ItemLe(key), y);
  }

  // ---------------------------------------------------------------------
  // Partition-table type codes
  // ---------------------------------------------------------------------

  /** GPT_GUID_TO_CURTIN_MAP: GPT partition type GUID to (flag, sgdisk type code). */
  const GptGuidToCurtinMap: map<string, (string, string)> := map[
    "C12A7328-F81F-11D2-BA4B-00A0C93EC93B" := ("boot", "EF00"),
    "21686148-6449-6E6F-744E-656564454649" := ("bios_grub", "EF02"),
    "933AC7E1-2EB4-4F13-B844-0E14E2AEF915" := ("home", "8302"),
    "0FC63DAF-8483-4772-8E79-3D69D8477DE4" := ("linux", "8300"),
    "E6D6D379-F507-44C2-A23C-238F2A3DF928" := ("lvm", "8e00"),
    "024DEE41-33E7-11D3-9D69-0008C781F39F" := ("mbr", ""),
    "9E1A2D38-C612-4316-AA26-8B49521E5A8B" := ("prep", "4200"),
    "A19D880F-05FC-4D3B-A006-743F0F84911E" := ("raid", "fd00"),
    "0657FD6D-A4AB-43C4-84E5-0933C84B4F4F" := ("swap", "8200")
  ]

  /** MBR_TYPE_TO_CURTIN_MAP: 0x-prefixed, upper-case MBR type codes. */
  const MbrTypeToCurtinMap: map<string, (string, string)> := map[
    "0XF" := ("extended", "f"),
    "0X5" := ("extended", "f"),
    "0X83" := ("linux", "83"),
    "0X85" := ("extended", "f"),
    "0XC5" := ("extended", "f")
  ]

  /** PTABLE_TYPE_MAP: both tables, the MBR one winning on a shared key. */
  const PtableTypeMap: map<string, (string, string)> := GptGuidToCurtinMap + MbrTypeToCurtinMap

  /** A code with no '-' that does not already start with 0x gets the prefix. */
  function PrefixCode(guid: string): string {
    if guid != [] && '-' !in guid && !StartsWith(Upper(guid), "0X") then "0x" + guid else guid
  }

  /** `ptable_uuid_to_flag_entry`: (flag name, type code), or (None, None). */
  function PtableUuidToFlagEntry(guid: Option<string>): (r: (Option<string>, Option<string>))
    ensures r.0.Some? <==> r.1.Some?
    ensures r.0.Some? <==> guid.Some? && Upper(PrefixCode(guid.value)) in PtableTypeMap
    ensures r.0.Some? ==> (r.0.value, r.1.value) == PtableTypeMap[Upper(PrefixCode(guid.value))]
  {
    match guid
    case None => (None, None)
    case Some(g) =>
      var key := Upper(PrefixCode(g));
      if PrefixCode(g) != [] && key in PtableTypeMap then
        (Some(PtableTypeMap[key].0), Some(PtableTypeMap[key].1))
      else (None, None)
  }

  lemma UpperIdempotent(s: string)
    ensures Upper(Upper(s)) == Upper(s)
  {
  }

  /** Prefixing commutes with upper-casing, up to the case of the key. */
  lemma PrefixCodeUpper(g: string)
    ensures Upper(PrefixCode(g)) == Upper(PrefixCode(Upper(g)))
    ensures PrefixCode(g) == [] <==> PrefixCode(Upper(g)) == []
  {
    var u := Upper(g);
    UpperIdempotent(g);
    assert ('-' in g) <==> ('-' in u) by {
      if '-' in g { var i :| 0 <= i < |g| && g[i] == '-'; assert u[i] == '-'; }
      if '-' in u { var i :| 0 <= i < |u| && u[i] == '-'; assert UpperChar(g[i]) == '-'; assert g[i] == '-'; }
    }
    assert StartsWith(Upper(g), "0X") <==> StartsWith(Upper(u), "0X");
    if PrefixCode(g) != g {
      assert Upper(PrefixCode(g)) == "0X" + Upper(g);
      assert Upper(PrefixCode(u)) == "0X" + Upper(u);
    }
  }

  /** The lookup does not depend on the letter case of the code. */
  lemma PtableLookupCaseInsensitive(g: string)
    ensures PtableUuidToFlagEntry(Some(g)) == PtableUuidToFlagEntry(Some(Upper(g)))
  {
    PrefixCodeUpper(g);
  }

  /** A bare MBR code and its 0x-prefixed form name the same entry. */
  lemma PtableBareCodeGetsPrefix(code: string)
    requires code != [] && '-' !in code && !StartsWith(Upper(code), "0X")
    ensures PtableUuidToFlagEntry(Some(code)) == PtableUuidToFlagEntry(Some("0x" + code))
  {
    var p := "0x" + code;
    assert PrefixCode(code) == PrefixCode(p) by {
      assert Upper(p)[..2] == "0X";
    }
    PtableSamePrefix(code, p);
  }

  /** The lookup sees a code only through its prefixed form. */
  lemma PtableSamePrefix(g1: string, g2: string)
    requires PrefixCode(g1) == PrefixCode(g2)
    ensures PtableUuidToFlagEntry(Some(g1)) == PtableUuidToFlagEntry(Some(g2))
  {
  }

  /** An MBR code is looked up in the MBR table, whatever the GPT table holds. */
  lemma MbrCodeLookup(key: string)
    requires key in MbrTypeToCurtinMap
    ensures key in PtableTypeMap && PtableTypeMap[key] == MbrTypeToCurtinMap[key]
  {
  }

  /** The bare MBR code "83" gets the 0x prefix and is the linux type. */
  lemma PtableBareLinuxCode()
    ensures PtableUuidToFlagEntry(Some("83")) == (Some("linux"), Some("83"))
  {
    assert Upper("83") == "83";
    assert PrefixCode("83") == "0x83";
    assert Upper("0x83") == "0X83";
    MbrCodeLookup("0X83");
  }

  /** A prefixed lower-case MBR code such as "0xc5" is found upper-cased. */
  lemma PtablePrefixedExtendedCode()
    ensures PtableUuidToFlagEntry(Some("0xc5")) == (Some("extended"), Some("f"))
  {
    assert PrefixCode("0xc5") == "0xc5";
    assert Upper("0xc5") == "0XC5";
    MbrCodeLookup("0XC5");
  }

  // ---------------------------------------------------------------------
  // Probe id validation and partition parent names
  // ---------------------------------------------------------------------

  predicate IsHexDigit(c: char) {
    ('0' <= c <= '9') || ('a' <= c <= 'f') || ('A' <= c <= 'F')
  }

  function HexDigitValue(c: char): nat
    requires IsHexDigit(c)
  {
    if '0' <= c <= '9' then c as int - '0' as int
    else if 'a' <= c <= 'f' then c as int - 'a' as int + 10
    else c as int - 'A' as int + 10
  }

  /** The digits after a `0x` prefix as int(s, 16) accepts them: hex digits, each optionally after one '_'. */
  predicate HexBody(s: string) {
    s != [] &&
    if s[0] == '_' then |s| >= 2 && IsHexDigit(s[1]) && (|s| == 2 || HexBody(s[2..]))
    else IsHexDigit(s[0]) && (|s| == 1 || HexBody(s[1..]))
  }

  /** The value of the hex digits of s, underscores skipped. */
  function HexValue(s: string): nat {
    if s == [] then 0
    else if IsHexDigit(s[|s| - 1]) then 16 * HexValue(s[..|s| - 1]) + HexDigitValue(s[|s| - 1])
    else HexValue(s[..|s| - 1])
  }

  predicate AllZeroDigits(s: string) {
    forall i :: 0 <= i < |s| ==> s[i] == '0' || s[i] == '_'
  }

  lemma {:induction false} HexValueZero(s: string)
    requires forall i :: 0 <= i < |s| ==> IsHexDigit(s[i]) || s[i] == '_'
    ensures HexValue(s) == 0 <==> AllZeroDigits(s)
  {
    if s != [] {
      var init := s[..|s| - 1];
      HexValueZero(init);
      assert forall i :: 0 <= i < |init| ==> init[i] == s[i];
    }
  }

  lemma {:induction false} HexBodyChars(s: string)
    requires HexBody(s)
    ensures forall i :: 0 <= i < |s| ==> IsHexDigit(s[i]) || s[i] == '_'
  {
    if s[0] == '_' {
      if |s| > 2 { HexBodyChars(s[2..]); assert forall i :: 2 <= i < |s| ==> s[i] == s[2..][i - 2]; }
    } else {
      if |s| > 1 { HexBodyChars(s[1..]); assert forall i :: 1 <= i < |s| ==> s[i] == s[1..][i - 1]; }
    }
  }

  /**
   * `BlockdevParser.valid_id`: a `0x` id is valid when int(id, 16) is positive
   * or when it does not parse; any other id when it is not blank.
   */
  function ValidId(idValue: string): bool {
    if StartsWith(Lower(idValue), "0x") then
      var body := RStrip(idValue[2..]);
      if HexBody(body) then HexValue(body) > 0 else true
    else Squeeze(idValue) != []
  }

  /** valid_id rejects exactly the all-zero wwn `0x0+` and the blank id. */
  lemma ValidIdRejects(idValue: string)
    ensures !ValidId(idValue) <==>
      (StartsWith(Lower(idValue), "0x") && HexBody(RStrip(idValue[2..])) && AllZeroDigits(RStrip(idValue[2..])))
      || (!StartsWith(Lower(idValue), "0x") && forall i :: 0 <= i < |idValue| ==> IsSpace(idValue[i]))
  {
    if StartsWith(Lower(idValue), "0x") {
      var body := RStrip(idValue[2..]);
      if HexBody(body) { HexBodyChars(body); HexValueZero(body); }
    } else {
      SqueezeEmpty(idValue);
    }
  }

  /**
   * `BlockdevParser.partition_parent_devname`: /dev/ plus the name of
   * DEVPATH's parent directory. `devtype` is the DEVTYPE entry, None when the
   * device has none.
   */
  function PartitionParentDevname(devtype: Option<string>, devpath: Option<string>): (r: Result<Option<string>, StorageError>)
    ensures r.Err? <==> devtype != Some("partition")
    ensures devtype.None? ==> r == Err(MissingKey("DEVTYPE"))
    ensures devtype.Some? && devtype.value != "partition" ==> r == Err(NotAPartition(devtype.value))
    ensures r.Ok? && r.value.Some? ==> StartsWith(r.value.value, "/dev/") && '/' !in r.value.value[5..]
  {
    match devtype
    case None => Err(MissingKey("DEVTYPE"))
    case Some(t) =>
      if t != "partition" then Err(NotAPartition(t))
      else match devpath
        case Some(p) =>
          if p == [] then Ok(None)
          else
            var name := Basename(Dirname(p));
            assert ("/dev/" + name)[5..] == name;
            Ok(Some("/dev/" + name))
        case None => Ok(None)
  }

  lemma {:induction false} RFindAppendNoChar(a: string, b: string, c: char)
    requires c !in b
    ensures RFind(a + b, c) == RFind(a, c)
  {
    if b != [] {
      assert (a + b)[..|a + b| - 1] == a + b[..|b| - 1];
      RFindAppendNoChar(a, b[..|b| - 1], c);
    } else {
      assert a + b == a;
    }
  }

  /** A partition at DEVPATH prefix/parent/name has the parent device /dev/parent. */
  lemma PartitionParentOfPath(prefix: string, parent: string, name: string)
    requires parent != [] && '/' !in parent && '/' !in name
    ensures PartitionParentDevname(Some("partition"), Some(prefix + "/" + parent + "/" + name)) == Ok(Some("/dev/" + parent))
  {
    var p := prefix + "/" + parent + "/" + name;
    var head := prefix + "/" + parent + "/";
    assert p == head + name;
    RFindAppendNoChar(head, name, '/');
    assert RFind(head, '/') == |head| - 1;
    assert p[..RFind(p, '/') + 1] == head;
    var dir := prefix + "/" + parent;
    assert head[|head| - 2] == parent[|parent| - 1];
    assert head[|head| - 2] != '/';
    assert RStripChar(head, '/') == dir by {
      assert head[..|head| - 1] == dir;
      assert dir[|dir| - 1] != '/';
    }
    assert Dirname(p) == dir;
    RFindAppendNoChar(prefix + "/", parent, '/');
    assert dir == (prefix + "/") + parent;
    assert RFind(prefix + "/", '/') == |prefix|;
    assert Basename(dir) == parent;
  }
}

=== FILE: storage_deps.dfy ===
/**
 * The dependency walk of a storage config (find_item_dependencies) and the
 * per-item dependency tree built from it (get_config_tree).
 *
 * A config is an ordered dict from id to item, modelled as a sequence of
 * items with distinct ids. The source recurses on whatever the config
 * references; the model takes a ghost `rank` that orders every item above
 * the items it references, which is what makes the recursion terminate.
 */
module StorageDeps {
  import opened Wrappers
  import opened StorageTypes
  import opened StorageConfig
  import opened Sorting

  /** v names item t: v is the id t, or a list holding t. */
  predicate RefValue(v: Value, t: string) {
    match v
    case Str(s) => s == t
    case Strs(l) => t in l
    case Num(_) => false
  }

  /** x names t in one of the dependency fields of its type. */
  predicate Refers(x: Item, t: string) {
    ParseType(x.stype).Some? &&
    exists k :: k in DepKeys(ParseType(x.stype).value) && k in x.fields && RefValue(x.fields[k], t)
  }

  /** Every item has a rank above the rank of each item it references. */
  ghost predicate Ranked(c: seq<Item>, rank: map<string, nat>) {
    forall i :: 0 <= i < |c| ==>
      c[i].id in rank &&
      forall j :: 0 <= j < |c| && Refers(c[i], c[j].id) ==> c[j].id in rank && rank[c[j].id] < rank[c[i].id]
  }

  ghost function Measure(c: seq<Item>, rank: map<string, nat>, id: string): nat {
    if HasId(c, id) && id in rank then rank[id] + 1 else 0
  }

  lemma MeasureDecreases(c: seq<Item>, rank: map<string, nat>, x: Item, t: string)
    requires Ranked(c, rank) && x in c && Refers(x, t)
    ensures Measure(c, rank, t) < Measure(c, rank, x.id)
  {
    var i :| 0 <= i < |c| && c[i] == x;
    assert HasId(c, x.id);
    if HasId(c, t) {
      var j :| 0 <= j < |c| && c[j].id == t;
      assert Refers(c[i], c[j].id);
    }
  }

  /** The ids a dependency field holds: one id or a list of them. */
  function Targets(key: string, v: Value): (r: Result<seq<string>, StorageError>)
    ensures r.Err? <==> v.Num?
    ensures r.Ok? ==> forall t :: t in r.value <==> RefValue(v, t)
  {
    match v
    case Str(s) => Ok([s])
    case Strs(l) => Ok(l)
    case Num(_) => Err(NotAnId(key))
  }

  /** `_find_same_dep` with its configs: the items whose field key holds exactly the id dep. */
  function SameDep(c: seq<Item>, key: string, dep: string): (r: seq<Item>)
    ensures forall y :: y in r <==> y in c && y.Get(key) == Some(Str(dep))
  {
    if c == [] then []
    else (if c[0].Get(key) == Some(Str(dep)) then [c[0]] else []) + SameDep(c[1..], key, dep)
  }

  /**
   * The dependency walk from item id: None when id names no item, else the
   * ids collected from each dependency field in turn.
   */
  ghost function Deps(c: seq<Item>, rank: map<string, nat>, id: string, validate: bool): Result<Option<seq<string>>, StorageError>
    requires DistinctIds(c) && Ranked(c, rank)
    decreases Measure(c, rank, id), 3, 0
  {
    if c == [] then Err(InvalidConfig)
    else match Lookup(c, id)
      case None => Ok(None)
      case Some(x) =>
        match StypeToOrderKey(x.stype)
        case Err(_) => Err(UnknownStorageType(x.stype))
        case Ok(order) =>
          var keys := StypeToDeps(x.stype).value;
          match DepsOfKeys(c, rank, x, order, keys, validate)
          case Err(e) => Err(e)
          case Ok(s) => Ok(Some(s))
  }

  ghost predicate KeysOf(x: Item, keys: seq<string>) {
    ParseType(x.stype).Some? && forall k :: k in keys ==> k in DepKeys(ParseType(x.stype).value)
  }

  /** The ids collected from the fields keys of item x, in that order. */
  ghost function DepsOfKeys(c: seq<Item>, rank: map<string, nat>, x: Item, order: string, keys: seq<string>, validate: bool): Result<seq<string>, StorageError>
    requires DistinctIds(c) && Ranked(c, rank) && x in c && KeysOf(x, keys)
    decreases Measure(c, rank, x.id), 2, |keys|
  {
    if keys == [] then Ok([])
    else Chain(KeyDeps(c, rank, x, order, keys[0], validate), DepsOfKeys(c, rank, x, order, keys[1..], validate))
  }

  /** A present field contributes its ids, then what each id pulls in. */
  ghost function KeyDeps(c: seq<Item>, rank: map<string, nat>, x: Item, order: string, key: string, validate: bool): Result<seq<string>, StorageError>
    requires DistinctIds(c) && Ranked(c, rank) && x in c && KeysOf(x, [key])
    decreases Measure(c, rank, x.id), 1, 0
  {
    if key !in x.fields then Ok([])
    else match Targets(key, x.fields[key])
      case Err(e) => Err(e)
      case Ok(vals) => Chain(Ok(vals), ValuesDeps(c, rank, x, order, key, vals, validate))
  }

  ghost predicate ValuesOf(x: Item, key: string, vals: seq<string>) {
    KeysOf(x, [key]) && key in x.fields && forall t :: t in vals ==> RefValue(x.fields[key], t)
  }

  ghost function ValuesDeps(c: seq<Item>, rank: map<string, nat>, x: Item, order: string, key: string, vals: seq<string>, validate: bool): Result<seq<string>, StorageError>
    requires DistinctIds(c) && Ranked(c, rank) && x in c && ValuesOf(x, key, vals)
    decreases Measure(c, rank, x.id), 0, |vals|
  {
    if vals == [] then Ok([])
    else Chain(DepStep(c, rank, x, order, key, vals[0], validate), ValuesDeps(c, rank, x, order, key, vals[1..], validate))
  }

  /**
   * One referenced id: validate the reference, add the items sharing that
   * field value sorted by x's order key, then the referenced item's own walk.
   */
  ghost function DepStep(c: seq<Item>, rank: map<string, nat>, x: Item, order: string, key: string, dep: string, validate: bool): Result<seq<string>, StorageError>
    requires DistinctIds(c) && Ranked(c, rank) && x in c && ValuesOf(x, key, [dep])
    decreases Measure(c, rank, x.id), 0, 0
  {
    var check := if validate then ValidateDepType(x.id, key, dep, c) else Pass;
    if check.Fail? then Err(check.error)
    else match SortByKey(SameDep(c, key, dep), order)
      case Err(e) => Err(e)
      case Ok(siblings) =>
        MeasureDecreases(c, rank, x, dep);
        match Deps(c, rank, dep, true)
        case Err(e) => Err(e)
        case Ok(lower) => Ok(Ids(siblings) + lower.GetOr([]))
  }

  /** `find_item_dependencies`. */
  method FindItemDependencies(itemId: string, c: seq<Item>, validate: bool, ghost rank: map<string, nat>)
    returns (r: Result<Option<seq<string>>, StorageError>)
    requires DistinctIds(c) && Ranked(c, rank)
    ensures r == Deps(c, rank, itemId, validate)
    ensures c == [] ==> r == Err(InvalidConfig)
    ensures c != [] && !HasId(c, itemId) ==> r == Ok(None)
    decreases Measure(c, rank, itemId), 3
  {
    if c == [] {
      return Err(InvalidConfig);
    }
    var found := Lookup(c, itemId);
    if found.None? {
      return Ok(None);
    }
    var x := found.value;
    var orderKey := StypeToOrderKey(x.stype);
    if orderKey.Err? {
      return Err(UnknownStorageType(x.stype));
    }
    var order := orderKey.value;
    var keys := StypeToDeps(x.stype).value;
    ghost var total := DepsOfKeys(c, rank, x, order, keys, validate);
    var deps: seq<string> := [];
    var i := 0;
    assert keys[0..] == keys;
    ChainUnit(total);
    while i < |keys|
      invariant 0 <= i <= |keys|
      invariant Chain(Ok(deps), DepsOfKeys(c, rank, x, order, keys[i..], validate)) == total
    {
      assert keys[i..][1..] == keys[i + 1..];
      ChainAssoc(Ok(deps), KeyDeps(c, rank, x, order, keys[i], validate),
                 DepsOfKeys(c, rank, x, order, keys[i + 1..], validate));
      var field := CollectField(c, x, order, keys[i], validate, deps, rank);
      if field.Err? {
        return Err(field.error);
      }
      deps := field.value;
      i := i + 1;
    }
    assert keys[i..] == [];
    ChainUnit(Ok(deps));
    return Ok(Some(deps));
  }

  /** The part of the walk for one dependency field of x, appended to deps. */
  method CollectField(c: seq<Item>, x: Item, order: string, key: string, validate: bool, deps: seq<string>,
                      ghost rank: map<string, nat>)
    returns (r: Result<seq<string>, StorageError>)
    requires DistinctIds(c) && Ranked(c, rank) && x in c && KeysOf(x, [key])
    ensures r == Chain(Ok(deps), KeyDeps(c, rank, x, order, key, validate))
    decreases Measure(c, rank, x.id), 2
  {
    if key !in x.fields {
      ChainUnit(Ok(deps));
      return Ok(deps);
    }
    var targets := Targets(key, x.fields[key]);
    if targets.Err? {
      return Err(targets.error);
    }
    var vals := targets.value;
    var acc := deps + vals;
    var j := 0;
    assert vals[0..] == vals;
    assert KeyDeps(c, rank, x, order, key, validate) == Chain(Ok(vals), ValuesDeps(c, rank, x, order, key, vals, validate));
    ChainAssoc(Ok(deps), Ok(vals), ValuesDeps(c, rank, x, order, key, vals, validate));
    while j < |vals|
      invariant 0 <= j <= |vals|
      invariant Chain(Ok(acc), ValuesDeps(c, rank, x, order, key, vals[j..], validate))
             == Chain(Ok(deps), KeyDeps(c, rank, x, order, key, validate))
    {
      var step := CollectValue(c, x, order, key, vals, j, acc, validate, rank);
      if step.Err? {
        return Err(step.error);
      }
      acc := step.value;
      j := j + 1;
    }
    ChainUnit(Ok(acc));
    return Ok(acc);
  }

  /** The step of the value loop for vals[j], appended to acc. */
  method CollectValue(c: seq<Item>, x: Item, order: string, key: string, vals: seq<string>, j: nat,
                      acc: seq<string>, validate: bool, ghost rank: map<string, nat>)
    returns (r: Result<seq<string>, StorageError>)
    requires DistinctIds(c) && Ranked(c, rank) && x in c && ValuesOf(x, key, vals) && j < |vals|
    ensures Chain(r, ValuesDeps(c, rank, x, order, key, vals[j + 1..], validate))
         == Chain(Ok(acc), ValuesDeps(c, rank, x, order, key, vals[j..], validate))
    decreases Measure(c, rank, x.id), 1
  {
    var dep := vals[j];
    assert vals[j..][1..] == vals[j + 1..];
    assert ValuesOf(x, key, [dep]);
    var step := CollectDep(c, x, order, key, dep, validate, rank);
    ChainAssoc(Ok(acc), step, ValuesDeps(c, rank, x, order, key, vals[j + 1..], validate));
    if step.Err? {
      return Err(step.error);
    }
    return Ok(acc + step.value);
  }

  /** One referenced id of field key of x: its check, its siblings and its own walk. */
  method CollectDep(c: seq<Item>, x: Item, order: string, key: string, dep: string, validate: bool,
                    ghost rank: map<string, nat>)
    returns (r: Result<seq<string>, StorageError>)
    requires DistinctIds(c) && Ranked(c, rank) && x in c && ValuesOf(x, key, [dep])
    ensures r == DepStep(c, rank, x, order, key, dep, validate)
    ensures r.Ok? ==> SortByKey(SameDep(c, key, dep), order).Ok? &&
                      Ids(SortByKey(SameDep(c, key, dep), order).value) <= r.value
    ensures r.Ok? ==> forall y :: y in SortByKey(SameDep(c, key, dep), order).value <==>
                                  y in c && y.Get(key) == Some(Str(dep))
    decreases Measure(c, rank, x.id), 0
  {
    if validate {
      var check := ValidateDepType(x.id, key, dep, c);
      if check.Fail? {
        return Err(check.error);
      }
    }
    var siblings := SortByKey(SameDep(c, key, dep), order);
    if siblings.Err? {
      return Err(siblings.error);
    }
    var sorted := siblings.value;
    var ids := AppendIds([], sorted);
    assert ids == Ids(sorted);
    MeasureDecreases(c, rank, x, dep);
    var lower := FindItemDependencies(dep, c, true, rank);
    if lower.Err? {
      return Err(lower.error);
    }
    SortedSameDep(c, key, dep, order);
    if lower.value.Some? {
      return Ok(ids + lower.value.value);
    }
    assert ids + [] == ids;
    return Ok(ids);
  }

  /** Sorting the items that share a field value keeps exactly those items. */
  lemma SortedSameDep(c: seq<Item>, key: string, dep: string, order: string)
    requires SortByKey(SameDep(c, key, dep), order).Ok?
    ensures forall y :: y in SortByKey(SameDep(c, key, dep), order).value <==> y in c && y.Get(key) == Some(Str(dep))
  {
    var sorted := SortByKey(SameDep(c, key, dep), order).value;
    forall y ensures y in sorted <==> y in SameDep(c, key, dep) {
      assert y in sorted <==> y in multiset(sorted);
      assert y in SameDep(c, key, dep) <==> y in multiset(SameDep(c, key, dep));
    }
  }

  /** `for sdep in sorted_deps: deps.append(sdep['id'])`. */
  method AppendIds(deps: seq<string>, items: seq<Item>) returns (r: seq<string>)
    ensures r == deps + Ids(items)
  {
    r := deps;
    for k := 0 to |items|
      invariant r == deps + Ids(items[..k])
    {
      assert items[..k + 1] == items[..k] + [items[k]];
      IdsAppend(items[..k], items[k]);
      r := r + [items[k].id];
    }
    assert items[..|items|] == items;
  }

  lemma {:induction false} IdsAppend(xs: seq<Item>, y: Item)
    ensures Ids(xs + [y]) == Ids(xs) + [y.id]
  {
    if xs != [] {
      assert (xs + [y])[1..] == xs[1..] + [y];
      IdsAppend(xs[1..], y);
    }
  }

  // ---------------------------------------------------------------------
  // What a successful walk contains
  // ---------------------------------------------------------------------

  lemma {:induction false} DepsOfKeysHas(c: seq<Item>, rank: map<string, nat>, x: Item, order: string, keys: seq<string>, validate: bool, k: string)
    requires DistinctIds(c) && Ranked(c, rank) && x in c && KeysOf(x, keys)
    requires DepsOfKeys(c, rank, x, order, keys, validate).Ok? && k in keys
    ensures KeyDeps(c, rank, x, order, k, validate).Ok?
    ensures forall e :: e in KeyDeps(c, rank, x, order, k, validate).value ==> e in DepsOfKeys(c, rank, x, order, keys, validate).value
  {
    if keys[0] != k {
      DepsOfKeysHas(c, rank, x, order, keys[1..], validate, k);
    }
  }

  lemma {:induction false} ValuesDepsHas(c: seq<Item>, rank: map<string, nat>, x: Item, order: string, key: string, vals: seq<string>, validate: bool, t: string)
    requires DistinctIds(c) && Ranked(c, rank) && x in c && ValuesOf(x, key, vals)
    requires ValuesDeps(c, rank, x, order, key, vals, validate).Ok? && t in vals
    ensures DepStep(c, rank, x, order, key, t, validate).Ok?
    ensures forall e :: e in DepStep(c, rank, x, order, key, t, validate).value ==> e in ValuesDeps(c, rank, x, order, key, vals, validate).value
  {
    if vals[0] != t {
      ValuesDepsHas(c, rank, x, order, key, vals[1..], validate, t);
    }
  }

  /**
   * A successful walk from x lists every id x references, and contains the
   * walk from each referenced item. A validated walk also certifies that
   * every reference names an item of a type x may be built from.
   */
  lemma DepsCover(c: seq<Item>, rank: map<string, nat>, id: string, validate: bool, t: string)
    requires DistinctIds(c) && Ranked(c, rank)
    requires Deps(c, rank, id, validate).Ok? && Lookup(c, id).Some? && Refers(Lookup(c, id).value, t)
    ensures Deps(c, rank, id, validate).value.Some?
    ensures t in Deps(c, rank, id, validate).value.value
    ensures HasId(c, t) ==>
      && Deps(c, rank, t, true).Ok? && Deps(c, rank, t, true).value.Some?
      && forall e :: e in Deps(c, rank, t, true).value.value ==> e in Deps(c, rank, id, validate).value.value
    ensures validate ==>
      HasId(c, t) && ParseType(Lookup(c, t).value.stype).Some? &&
      ParseType(Lookup(c, t).value.stype).value in AllowedDeps(ParseType(Lookup(c, id).value.stype).value)
  {
    var x := Lookup(c, id).value;
    var ty := ParseType(x.stype).value;
    var k :| k in DepKeys(ty) && k in x.fields && RefValue(x.fields[k], t);
    var order := StypeToOrderKey(x.stype).value;
    var keys := StypeToDeps(x.stype).value;
    var all := DepsOfKeys(c, rank, x, order, keys, validate);
    assert all.Ok? && Deps(c, rank, id, validate) == Ok(Some(all.value));
    DepsOfKeysHas(c, rank, x, order, keys, validate, k);
    var vals := Targets(k, x.fields[k]).value;
    var field := KeyDeps(c, rank, x, order, k, validate);
    assert field == Chain(Ok(vals), ValuesDeps(c, rank, x, order, k, vals, validate));
    assert t in vals;
    ValuesDepsHas(c, rank, x, order, k, vals, validate, t);
    DepStepCovers(c, rank, x, order, k, t, validate);
    assert forall e :: e in ValuesDeps(c, rank, x, order, k, vals, validate).value ==> e in field.value;
  }

  /** A successful step for dep holds dep's own walk and, when validating, passed the type check. */
  lemma DepStepCovers(c: seq<Item>, rank: map<string, nat>, x: Item, order: string, key: string, dep: string, validate: bool)
    requires DistinctIds(c) && Ranked(c, rank) && x in c && ValuesOf(x, key, [dep])
    requires DepStep(c, rank, x, order, key, dep, validate).Ok?
    ensures Deps(c, rank, dep, true).Ok?
    ensures Deps(c, rank, dep, true).value.Some? ==>
      forall e :: e in Deps(c, rank, dep, true).value.value ==> e in DepStep(c, rank, x, order, key, dep, validate).value
    ensures validate ==> ValidateDepType(x.id, key, dep, c).Pass?
  {
  }

  /** a occurs in b as one contiguous block. */
  ghost predicate Infix<T(!new)>(a: seq<T>, b: seq<T>) {
    exists pre: seq<T>, post: seq<T> :: b == pre + a + post
  }

  lemma InfixTrans<T(!new)>(a: seq<T>, b: seq<T>, c: seq<T>)
    requires Infix(a, b) && Infix(b, c)
    ensures Infix(a, c)
  {
    var p1, q1 :| b == p1 + a + q1;
    var p2, q2 :| c == p2 + b + q2;
    assert c == (p2 + p1) + a + (q1 + q2);
  }

  /** Both parts of a successful chain occur in it as blocks. */
  lemma ChainInfix<T(!new)>(a: Result<seq<T>, StorageError>, b: Result<seq<T>, StorageError>)
    requires Chain(a, b).Ok?
    ensures a.Ok? && b.Ok?
    ensures Infix(a.value, Chain(a, b).value) && Infix(b.value, Chain(a, b).value)
  {
    assert Chain(a, b).value == [] + a.value + b.value;
    assert Chain(a, b).value == a.value + b.value + [];
  }

  lemma DepKeyIsField(t: StorageType, k: string)
    requires k in DepKeys(t)
    ensures k != "id" && k != "type"
  {
  }

  /** The siblings of the value dep of field key: the items sharing it, sorted by x's order key. */
  function Siblings(c: seq<Item>, x: Item, key: string, dep: string): Result<seq<Item>, StorageError> {
    match StypeToOrderKey(x.stype)
    case Err(_) => Err(UnknownStorageType(x.stype))
    case Ok(order) => SortByKey(SameDep(c, key, dep), order)
  }

  lemma {:induction false} DepsOfKeysInfix(c: seq<Item>, rank: map<string, nat>, x: Item, order: string, keys: seq<string>, validate: bool, k: string)
    requires DistinctIds(c) && Ranked(c, rank) && x in c && KeysOf(x, keys)
    requires DepsOfKeys(c, rank, x, order, keys, validate).Ok? && k in keys
    ensures KeyDeps(c, rank, x, order, k, validate).Ok?
    ensures Infix(KeyDeps(c, rank, x, order, k, validate).value, DepsOfKeys(c, rank, x, order, keys, validate).value)
  {
    var rest := DepsOfKeys(c, rank, x, order, keys[1..], validate);
    ChainInfix(KeyDeps(c, rank, x, order, keys[0], validate), rest);
    if keys[0] != k {
      DepsOfKeysInfix(c, rank, x, order, keys[1..], validate, k);
      InfixTrans(KeyDeps(c, rank, x, order, k, validate).value, rest.value,
                 DepsOfKeys(c, rank, x, order, keys, validate).value);
    }
  }

  /** One referenced id's step starts with the ids of its siblings, sorted by the order key. */
  lemma DepStepSiblings(c: seq<Item>, rank: map<string, nat>, x: Item, order: string, key: string, dep: string, validate: bool)
    requires DistinctIds(c) && Ranked(c, rank) && x in c && ValuesOf(x, key, [dep])
    requires DepStep(c, rank, x, order, key, dep, validate).Ok?
    ensures SortByKey(SameDep(c, key, dep), order).Ok?
    ensures Ids(SortByKey(SameDep(c, key, dep), order).value) <= DepStep(c, rank, x, order, key, dep, validate).value
  {
  }

  lemma ValuesDepsSingle(c: seq<Item>, rank: map<string, nat>, x: Item, order: string, key: string, dep: string, validate: bool)
    requires DistinctIds(c) && Ranked(c, rank) && x in c && ValuesOf(x, key, [dep])
    ensures ValuesDeps(c, rank, x, order, key, [dep], validate) == DepStep(c, rank, x, order, key, dep, validate)
  {
    assert [dep][1..] == [];
    ChainUnit(DepStep(c, rank, x, order, key, dep, validate));
  }

  /** A field holding the single id dep: its walk holds the siblings of dep as one block. */
  lemma KeyDepsSiblings(c: seq<Item>, rank: map<string, nat>, x: Item, order: string, key: string, dep: string, validate: bool)
    requires DistinctIds(c) && Ranked(c, rank) && x in c && KeysOf(x, [key])
    requires key in x.fields && x.fields[key] == Str(dep)
    requires KeyDeps(c, rank, x, order, key, validate).Ok?
    ensures SortByKey(SameDep(c, key, dep), order).Ok?
    ensures Infix(Ids(SortByKey(SameDep(c, key, dep), order).value), KeyDeps(c, rank, x, order, key, validate).value)
  {
    assert ValuesOf(x, key, [dep]);
    var values := ValuesDeps(c, rank, x, order, key, [dep], validate);
    assert KeyDeps(c, rank, x, order, key, validate) == Chain(Ok([dep]), values) by {
      assert Targets(key, x.fields[key]) == Ok([dep]);
    }
    ChainInfix(Ok([dep]), values);
    ValuesDepsSingle(c, rank, x, order, key, dep, validate);
    DepStepSiblings(c, rank, x, order, key, dep, validate);
    var ids := Ids(SortByKey(SameDep(c, key, dep), order).value);
    assert Infix(ids, values.value) by {
      assert values.value == [] + ids + values.value[|ids|..];
    }
    InfixTrans(ids, values.value, KeyDeps(c, rank, x, order, key, validate).value);
  }

  /**
   * For a field of x holding the id dep, a successful walk from x lists, as
   * one block, the ids of every item of the config whose same field holds
   * dep, x itself included, sorted by x's order key with ties in config
   * order.
   */
  lemma DepsSiblings(c: seq<Item>, rank: map<string, nat>, id: string, validate: bool, key: string, dep: string)
    requires DistinctIds(c) && Ranked(c, rank)
    requires Lookup(c, id).Some? && ParseType(Lookup(c, id).value.stype).Some?
    requires key in DepKeys(ParseType(Lookup(c, id).value.stype).value)
    requires Lookup(c, id).value.Get(key) == Some(Str(dep))
    requires Deps(c, rank, id, validate).Ok?
    ensures Siblings(c, Lookup(c, id).value, key, dep).Ok? && Deps(c, rank, id, validate).value.Some?
    ensures Infix(Ids(Siblings(c, Lookup(c, id).value, key, dep).value), Deps(c, rank, id, validate).value.value)
    ensures forall y :: y in Siblings(c, Lookup(c, id).value, key, dep).value <==> y in c && y.Get(key) == Some(Str(dep))
    ensures Lookup(c, id).value in Siblings(c, Lookup(c, id).value, key, dep).value
    ensures SortedBy(Siblings(c, Lookup(c, id).value, key, dep).value, ItemLe(StypeToOrderKey(Lookup(c, id).value.stype).value))
    ensures forall y :: Ties(Siblings(c, Lookup(c, id).value, key, dep).value, ItemLe(StypeToOrderKey(Lookup(c, id).value.stype).value), y)
                     == Ties(SameDep(c, key, dep), ItemLe(StypeToOrderKey(Lookup(c, id).value.stype).value), y)
  {
    var x := Lookup(c, id).value;
    var ty := ParseType(x.stype).value;
    DepKeyIsField(ty, key);
    var order := StypeToOrderKey(x.stype).value;
    var keys := StypeToDeps(x.stype).value;
    DepsOfKeysInfix(c, rank, x, order, keys, validate, key);
    KeyDepsSiblings(c, rank, x, order, key, dep, validate);
    var sd := SameDep(c, key, dep);
    var sib := Siblings(c, x, key, dep).value;
    InfixTrans(Ids(sib), KeyDeps(c, rank, x, order, key, validate).value, DepsOfKeys(c, rank, x, order, keys, validate).value);
    forall y ensures y in sib <==> y in sd {
      assert y in sib <==> y in multiset(sib);
      assert y in sd <==> y in multiset(sd);
    }
    forall y ensures Ties(sib, ItemLe(order), y) == Ties(sd, ItemLe(order), y) {
      SortByKeyStable(sd, order, y);
    }
  }

  // ---------------------------------------------------------------------
  // The dependency tree of one item
  // ---------------------------------------------------------------------

  /** Insert the item of each id in turn, keeping the position of ids already present. */
  ghost function InsertAll(c: seq<Item>, tree: seq<Item>, deps: seq<string>): Result<seq<Item>, StorageError>
    decreases |deps|
  {
    if deps == [] then Ok(tree)
    else match Lookup(c, deps[0])
      case None => Err(NotInConfig(deps[0]))
      case Some(d) => InsertAll(c, Upsert(tree, d), deps[1..])
  }

  /** The tree of item id: the item first, then every id of its walk. */
  ghost function TreeOf(c: seq<Item>, rank: map<string, nat>, id: string): Result<seq<Item>, StorageError>
    requires DistinctIds(c) && Ranked(c, rank)
  {
    match Lookup(c, id)
    case None => Err(NotInConfig(id))
    case Some(root) =>
      match Deps(c, rank, id, true)
      case Err(e) => Err(e)
      case Ok(ds) => InsertAll(c, [root], ds.GetOr([]))
  }

  ghost predicate RankedStorage(storage: Option<StorageSection>, rank: map<string, nat>) {
    ExtractStorageOrderedDict(storage).Ok? ==> Ranked(ExtractStorageOrderedDict(storage).value, rank)
  }

  ghost function ConfigTree(storage: Option<StorageSection>, rank: map<string, nat>, id: string): Result<seq<Item>, StorageError>
    requires RankedStorage(storage, rank)
  {
    match ExtractStorageOrderedDict(storage)
    case Err(e) => Err(e)
    case Ok(c) => TreeOf(c, rank, id)
  }

  /** `get_config_tree`. */
  method GetConfigTree(itemId: string, storage: Option<StorageSection>, ghost rank: map<string, nat>)
    returns (r: Result<seq<Item>, StorageError>)
    requires RankedStorage(storage, rank)
    ensures r == ConfigTree(storage, rank, itemId)
  {
    var sconfig := ExtractStorageOrderedDict(storage);
    if sconfig.Err? {
      return Err(sconfig.error);
    }
    var c := sconfig.value;
    var root := Lookup(c, itemId);
    if root.None? {
      return Err(NotInConfig(itemId));
    }
    var walk := FindItemDependencies(itemId, c, true, rank);
    if walk.Err? {
      return Err(walk.error);
    }
    var deps := walk.value.GetOr([]);
    var tree := [root.value];
    var i := 0;
    while i < |deps|
      invariant 0 <= i <= |deps|
      invariant InsertAll(c, tree, deps[i..]) == InsertAll(c, [root.value], deps)
    {
      assert deps[i..][1..] == deps[i + 1..];
      var item := Lookup(c, deps[i]);
      if item.None? {
        return Err(NotInConfig(deps[i]));
      }
      tree := Upsert(tree, item.value);
      i := i + 1;
    }
    assert deps[i..] == [];
    return Ok(tree);
  }

  ghost predicate ItemsOf(c: seq<Item>, tree: seq<Item>) {
    forall k :: 0 <= k < |tree| ==> tree[k] in c
  }

  lemma {:induction false} InsertAllSpec(c: seq<Item>, tree: seq<Item>, deps: seq<string>)
    requires DistinctIds(c) && DistinctIds(tree) && ItemsOf(c, tree) && tree != []
    decreases |deps|
    ensures InsertAll(c, tree, deps).Ok? <==> forall e :: e in deps ==> HasId(c, e)
    ensures InsertAll(c, tree, deps).Ok? ==>
      var t := InsertAll(c, tree, deps).value;
      && t != [] && DistinctIds(t) && ItemsOf(c, t) && t[0] == tree[0]
      && forall e :: HasId(t, e) <==> HasId(tree, e) || e in deps
  {
    if deps != [] {
      match Lookup(c, deps[0])
      case None =>
      case Some(d) =>
        UpsertDistinct(tree, d);
        var u := Upsert(tree, d);
        forall k | 0 <= k < |u| ensures u[k] in c {
          if k >= |tree| { assert u[k] == d; }
        }
        if tree[0].id == d.id {
          var i :| 0 <= i < |c| && c[i] == tree[0];
          assert Lookup(c, d.id) == Some(c[i]);
        }
        assert u[0] == tree[0];
        InsertAllSpec(c, u, deps[1..]);
        assert forall e :: e in deps <==> e == deps[0] || e in deps[1..];
    }
  }

  /**
   * The tree of an item starts with the item, has distinct ids, holds the
   * config's items, and its ids are the item and every id of its walk.
   */
  lemma TreeOfSpec(c: seq<Item>, rank: map<string, nat>, id: string)
    requires DistinctIds(c) && Ranked(c, rank)
    requires TreeOf(c, rank, id).Ok?
    ensures var t := TreeOf(c, rank, id).value;
      && t != [] && t[0] == Lookup(c, id).value && t[0].id == id
      && DistinctIds(t) && ItemsOf(c, t)
      && Deps(c, rank, id, true).Ok? && Deps(c, rank, id, true).value.Some?
      && forall e :: HasId(t, e) <==> e == id || e in Deps(c, rank, id, true).value.value
  {
    var root := Lookup(c, id).value;
    var ds := Deps(c, rank, id, true).value;
    assert ds.Some?;
    assert [root][0].id == id;
    assert HasId([root], id);
    forall e | HasId([root], e) ensures e == id { }
    InsertAllSpec(c, [root], ds.value);
  }

  lemma {:induction false} SubsetSize<T>(a: set<T>, b: set<T>)
    requires a <= b
    ensures |a| <= |b|
    decreases |a|
  {
    if a != {} {
      var e :| e in a;
      SubsetSize(a - {e}, b - {e});
    }
  }

  /**
   * The tree of an item referenced by x is contained in the tree of x, so it
   * is no larger: a dependency's level never exceeds its dependent's level.
   */
  lemma DependencyTreeContained(c: seq<Item>, rank: map<string, nat>, id: string, t: string)
    requires DistinctIds(c) && Ranked(c, rank)
    requires TreeOf(c, rank, id).Ok? && Refers(Lookup(c, id).value, t)
    ensures TreeOf(c, rank, t).Ok?
    ensures forall e :: HasId(TreeOf(c, rank, t).value, e) ==> HasId(TreeOf(c, rank, id).value, e)
    ensures |TreeOf(c, rank, t).value| <= |TreeOf(c, rank, id).value|
  {
    TreeOfSpec(c, rank, id);
    var tree := TreeOf(c, rank, id).value;
    var ds := Deps(c, rank, id, true).value.value;
    DepsCover(c, rank, id, true, t);
    var dt := Deps(c, rank, t, true).value.value;
    var root := Lookup(c, t).value;
    InsertAllSpec(c, [root], dt);
    forall e | e in dt ensures HasId(c, e) {
      assert e in ds;
      assert HasId(tree, e);
      var k :| 0 <= k < |tree| && tree[k].id == e;
      assert tree[k] in c;
      var i :| 0 <= i < |c| && c[i] == tree[k];
    }
    assert TreeOf(c, rank, t) == InsertAll(c, [root], dt);
    TreeOfSpec(c, rank, t);
    var sub := TreeOf(c, rank, t).value;
    assert IdSet(sub) <= IdSet(tree);
    IdSetSize(sub);
    IdSetSize(tree);
    SubsetSize(IdSet(sub), IdSet(tree));
  }
}

=== FILE: storage_merge.dfy ===
/**
 * Merging per-item dependency trees into one ordered config list
 * (merge_config_trees_to_list and its sort_level): each distinct top item
 * once, grouped by the size of its tree, and within a size by type name and
 * then by the type's order key.
 */
module StorageMerge {
  import opened Wrappers
  import opened Text
  import opened Sorting
  import opened StorageTypes
  import opened StorageConfig

  /** `reg[top_item_id]`: the size of the tree (its level) and its top item. */
  datatype Entry = Entry(level: nat, item: Item)

  predicate InReg(reg: seq<Entry>, id: string) {
    exists k :: 0 <= k < |reg| && reg[k].item.id == id
  }

  predicate DistinctReg(reg: seq<Entry>) {
    forall i, j :: 0 <= i < j < |reg| ==> reg[i].item.id != reg[j].item.id
  }

  function RegItems(reg: seq<Entry>): (r: seq<Item>)
    ensures |r| == |reg| && forall k :: 0 <= k < |reg| ==> r[k] == reg[k].item
    decreases |reg|
  {
    if reg == [] then [] else RegItems(reg[..|reg| - 1]) + [reg[|reg| - 1].item]
  }

  /** The registry after the trees in order: the first tree with a given top wins. */
  function Registry(trees: seq<seq<Item>>): Result<seq<Entry>, StorageError>
    decreases |trees|
  {
    if trees == [] then Ok([])
    else
      var t := trees[|trees| - 1];
      match Registry(trees[..|trees| - 1])
      case Err(e) => Err(e)
      case Ok(reg) =>
        if t == [] then Err(EmptyTree)
        else if InReg(reg, t[0].id) then Ok(reg)
        else Ok(reg + [Entry(|t|, t[0])])
  }

  /** The running max_level: the size of the largest tree, or 0. */
  function MaxLevel(trees: seq<seq<Item>>): nat
    decreases |trees|
  {
    if trees == [] then 0
    else
      var m := MaxLevel(trees[..|trees| - 1]);
      if |trees[|trees| - 1]| > m then |trees[|trees| - 1]| else m
  }

  /** max_level is the size of the largest tree, or 0 when there is none. */
  lemma {:induction false} MaxLevelSpec(trees: seq<seq<Item>>)
    ensures forall k :: 0 <= k < |trees| ==> |trees[k]| <= MaxLevel(trees)
    ensures trees != [] ==> exists k :: 0 <= k < |trees| && |trees[k]| == MaxLevel(trees)
    ensures trees == [] ==> MaxLevel(trees) == 0
    decreases |trees|
  {
    if trees != [] {
      var n := |trees| - 1;
      var init := trees[..n];
      MaxLevelSpec(init);
      assert forall k :: 0 <= k < |init| ==> init[k] == trees[k];
      if |trees[n]| < MaxLevel(trees) {
        var k :| 0 <= k < |init| && |init[k]| == MaxLevel(init);
        assert |trees[k]| == MaxLevel(trees);
      }
    }
  }

  /** The first tree with top id e.item.id is e's tree. */
  predicate FirstTop(trees: seq<seq<Item>>, e: Entry) {
    exists k :: 0 <= k < |trees| && trees[k] != [] && trees[k][0] == e.item && e.level == |trees[k]| &&
      forall k' :: 0 <= k' < k && trees[k'] != [] ==> trees[k'][0].id != e.item.id
  }

  predicate IsTop(trees: seq<seq<Item>>, id: string) {
    exists k :: 0 <= k < |trees| && trees[k] != [] && trees[k][0].id == id
  }

  lemma {:induction false} RegistryOk(trees: seq<seq<Item>>)
    ensures Registry(trees).Ok? <==> forall k :: 0 <= k < |trees| ==> trees[k] != []
    decreases |trees|
  {
    if trees != [] {
      var init := trees[..|trees| - 1];
      RegistryOk(init);
      assert forall k :: 0 <= k < |init| ==> init[k] == trees[k];
    }
  }

  lemma IsTopSnoc(trees: seq<seq<Item>>, id: string)
    requires trees != [] && trees[|trees| - 1] != []
    ensures IsTop(trees, id) <==> IsTop(trees[..|trees| - 1], id) || trees[|trees| - 1][0].id == id
  {
    var n := |trees| - 1;
    var init: seq<seq<Item>> := trees[..n];
    if IsTop(trees, id) {
      var k :| 0 <= k < |trees| && trees[k] != [] && trees[k][0].id == id;
      if k < n { assert init[k][0].id == id; }
    }
    if IsTop(init, id) {
      var k :| 0 <= k < |init| && init[k] != [] && init[k][0].id == id;
      assert trees[k][0].id == id;
    }
  }

  lemma InRegSnoc(reg: seq<Entry>, e: Entry, id: string)
    ensures InReg(reg + [e], id) <==> InReg(reg, id) || e.item.id == id
  {
    var r := reg + [e];
    if InReg(r, id) {
      var k :| 0 <= k < |r| && r[k].item.id == id;
      if k < |reg| { assert reg[k].item.id == id; }
    }
    if InReg(reg, id) {
      var k :| 0 <= k < |reg| && reg[k].item.id == id;
      assert r[k].item.id == id;
    }
    assert r[|reg|] == e;
  }

  /** The registry holds one entry per distinct top id. */
  lemma {:induction false} RegistryIds(trees: seq<seq<Item>>)
    requires Registry(trees).Ok?
    ensures DistinctReg(Registry(trees).value)
    ensures forall id :: InReg(Registry(trees).value, id) <==> IsTop(trees, id)
    decreases |trees|
  {
    if trees != [] {
      var n := |trees| - 1;
      var init := trees[..n];
      var t := trees[n];
      RegistryIds(init);
      var reg0 := Registry(init).value;
      forall id ensures IsTop(trees, id) <==> IsTop(init, id) || t[0].id == id {
        IsTopSnoc(trees, id);
      }
      if !InReg(reg0, t[0].id) {
        var e := Entry(|t|, t[0]);
        forall id ensures InReg(reg0 + [e], id) <==> InReg(reg0, id) || t[0].id == id {
          InRegSnoc(reg0, e, id);
        }
        forall i | 0 <= i < |reg0| ensures reg0[i].item.id != t[0].id { }
      }
    }
  }

  /** Each entry is the top and the size of the first tree with that top. */
  lemma {:induction false} RegistryFirst(trees: seq<seq<Item>>)
    requires Registry(trees).Ok?
    ensures forall k :: 0 <= k < |Registry(trees).value| ==> FirstTop(trees, Registry(trees).value[k])
    decreases |trees|
  {
    if trees != [] {
      var n := |trees| - 1;
      var init := trees[..n];
      var t := trees[n];
      RegistryFirst(init);
      var reg0 := Registry(init).value;
      var reg := Registry(trees).value;
      forall k | 0 <= k < |reg0| ensures FirstTop(trees, reg0[k]) {
        var j :| 0 <= j < |init| && init[j] != [] && init[j][0] == reg0[k].item && reg0[k].level == |init[j]| &&
          forall k' :: 0 <= k' < j && init[k'] != [] ==> init[k'][0].id != reg0[k].item.id;
        assert trees[j] == init[j];
        assert forall k' :: 0 <= k' < j ==> trees[k'] == init[k'];
      }
      if !InReg(reg0, t[0].id) {
        RegistryIds(init);
        forall k' | 0 <= k' < n && trees[k'] != [] ensures trees[k'][0].id != t[0].id {
          assert init[k'] == trees[k'];
          assert IsTop(init, trees[k'][0].id);
        }
        assert FirstTop(trees, Entry(|t|, t[0]));
        forall k | 0 <= k < |reg| ensures FirstTop(trees, reg[k]) {
          if k < |reg0| { assert reg[k] == reg0[k]; }
        }
      }
    }
  }

  /** Once a prefix of the trees fails, the whole merge fails the same way. */
  lemma {:induction false} RegistryErrPersists(trees: seq<seq<Item>>, j: nat)
    requires j <= |trees| && Registry(trees[..j]).Err?
    ensures Registry(trees) == Registry(trees[..j])
    decreases |trees|
  {
    if j < |trees| {
      var init := trees[..|trees| - 1];
      assert init[..j] == trees[..j];
      RegistryErrPersists(init, j);
    } else {
      assert trees[..j] == trees;
    }
  }

  // ---------------------------------------------------------------------
  // sort_level
  // ---------------------------------------------------------------------

  /** The items of type t, in order. */
  function FilterType(xs: seq<Item>, t: string): seq<Item>
    decreases |xs|
  {
    if xs == [] then []
    else FilterType(xs[..|xs| - 1], t) + (if xs[|xs| - 1].stype == t then [xs[|xs| - 1]] else [])
  }

  lemma {:induction false} FilterTypeMembers(xs: seq<Item>, t: string)
    ensures forall x :: x in FilterType(xs, t) <==> x in xs && x.stype == t
    decreases |xs|
  {
    if xs != [] {
      var init := xs[..|xs| - 1];
      assert forall x :: x in xs <==> x in init || x == xs[|xs| - 1];
      FilterTypeMembers(init, t);
    }
  }

  lemma {:induction false} FilterTypeAbsent(xs: seq<Item>, t: string)
    requires forall x :: x in xs ==> x.stype != t
    ensures FilterType(xs, t) == []
    decreases |xs|
  {
    if xs != [] {
      var init := xs[..|xs| - 1];
      assert forall x :: x in init ==> x in xs;
      FilterTypeAbsent(init, t);
    }
  }

  /** The items whose type is in ts, in order. */
  function FilterTypes(xs: seq<Item>, ts: set<string>): (r: seq<Item>)
    decreases |xs|
  {
    if xs == [] then []
    else FilterTypes(xs[..|xs| - 1], ts) + (if xs[|xs| - 1].stype in ts then [xs[|xs| - 1]] else [])
  }

  /** The keys of sreg in insertion order: each type once, by first appearance. */
  function DistinctTypes(xs: seq<Item>): seq<string>
    decreases |xs|
  {
    if xs == [] then []
    else
      var d := DistinctTypes(xs[..|xs| - 1]);
      if xs[|xs| - 1].stype in d then d else d + [xs[|xs| - 1].stype]
  }

  /** sreg's keys: each type of the configs exactly once. */
  lemma {:induction false} DistinctTypesSpec(xs: seq<Item>)
    ensures NoDup(DistinctTypes(xs))
    ensures forall t :: t in DistinctTypes(xs) <==> exists x :: x in xs && x.stype == t
    decreases |xs|
  {
    if xs != [] {
      var init := xs[..|xs| - 1];
      var last := xs[|xs| - 1];
      DistinctTypesSpec(init);
      assert forall x :: x in xs <==> x in init || x == last;
    }
  }

  function TypeNameLe(): (string, string) -> bool {
    StrLe
  }

  lemma TypeNameLeTotalPreorder()
    ensures TotalPreorder(TypeNameLe())
  {
    forall a, b ensures StrLe(a, b) || StrLe(b, a) { StrLeTotal(a, b); }
    forall a, b, c | StrLe(a, b) && StrLe(b, c) ensures StrLe(a, c) { StrLeTrans(a, b, c); }
  }

  /** The items of type t sorted by that type's order key. */
  function GroupSorted(configs: seq<Item>, t: string): Result<seq<Item>, StorageError> {
    match StypeToOrderKey(t)
    case Err(_) => Err(UnknownStorageType(t))
    case Ok(key) => SortByKey(FilterType(configs, t), key)
  }

  function SortGroups(configs: seq<Item>, ts: seq<string>): Result<seq<Item>, StorageError> {
    if ts == [] then Ok([]) else Chain(GroupSorted(configs, ts[0]), SortGroups(configs, ts[1..]))
  }

  /** `sort_level`: the groups of each type, types in name order. */
  function SortLevelSpec(configs: seq<Item>): Result<seq<Item>, StorageError> {
    SortGroups(configs, InsertionSort(DistinctTypes(configs), TypeNameLe()))
  }

  /** The grouping loop of sort_level: sreg and its keys in insertion order. */
  method GroupByType(configs: seq<Item>) returns (sreg: map<string, seq<Item>>, order: seq<string>)
    ensures order == DistinctTypes(configs)
    ensures forall t :: t in sreg <==> t in order
    ensures forall t :: t in sreg ==> sreg[t] == FilterType(configs, t)
  {
    sreg := map[];
    order := [];
    for i := 0 to |configs|
      invariant order == DistinctTypes(configs[..i])
      invariant forall t :: t in sreg <==> t in order
      invariant forall t :: t in sreg ==> sreg[t] == FilterType(configs[..i], t)
    {
      var cfg := configs[i];
      assert configs[..i + 1][..i] == configs[..i];
      if cfg.stype in sreg {
        sreg := sreg[cfg.stype := sreg[cfg.stype] + [cfg]];
      } else {
        DistinctTypesSpec(configs[..i]);
        FilterTypeAbsent(configs[..i], cfg.stype);
        sreg := sreg[cfg.stype := [cfg]];
        order := order + [cfg.stype];
      }
    }
    assert configs[..|configs|] == configs;
  }

  /** `sort_level`. */
  method SortLevel(configs: seq<Item>) returns (r: Result<seq<Item>, StorageError>)
    ensures r == SortLevelSpec(configs)
  {
    var sreg, order := GroupByType(configs);
    var types := InsertionSort(order, TypeNameLe());
    InsertionSortPermutation(order, TypeNameLe());
    ghost var total := SortGroups(configs, types);
    var result: seq<Item> := [];
    assert types[0..] == types;
    ChainUnit(total);
    for k := 0 to |types|
      invariant Chain(Ok(result), SortGroups(configs, types[k..])) == total
    {
      var t := types[k];
      assert types[k..][1..] == types[k + 1..];
      ChainAssoc(Ok(result), GroupSorted(configs, t), SortGroups(configs, types[k + 1..]));
      assert t in multiset(types);
      assert t in order;
      var iorder := StypeToOrderKey(t);
      if iorder.Err? {
        return Err(UnknownStorageType(t));
      }
      var isorted := SortByKey(sreg[t], iorder.value);
      if isorted.Err? {
        return Err(isorted.error);
      }
      result := result + isorted.value;
    }
    assert types[|types|..] == [];
    ChainUnit(Ok(result));
    return Ok(result);
  }

  lemma {:induction false} FilterTypesSplit(xs: seq<Item>, t: string, ts: set<string>)
    requires t !in ts
    ensures multiset(FilterTypes(xs, {t} + ts)) == multiset(FilterType(xs, t)) + multiset(FilterTypes(xs, ts))
    decreases |xs|
  {
    if xs != [] {
      FilterTypesSplit(xs[..|xs| - 1], t, ts);
    }
  }

  lemma {:induction false} FilterTypesAll(xs: seq<Item>, ts: set<string>)
    requires forall k :: 0 <= k < |xs| ==> xs[k].stype in ts
    ensures FilterTypes(xs, ts) == xs
    decreases |xs|
  {
    if xs != [] {
      var init := xs[..|xs| - 1];
      assert forall k :: 0 <= k < |init| ==> init[k] == xs[k];
      FilterTypesAll(init, ts);
      assert xs == init + [xs[|xs| - 1]];
    }
  }

  lemma {:induction false} SortGroupsPermutation(configs: seq<Item>, ts: seq<string>)
    requires NoDup(ts) && SortGroups(configs, ts).Ok?
    ensures multiset(SortGroups(configs, ts).value) == multiset(FilterTypes(configs, set t | t in ts))
  {
    if ts == [] {
      assert (set t | t in ts) == {};
      FilterTypesNone(configs);
    } else {
      var rest := ts[1..];
      assert NoDup(rest) by {
        forall i, j | 0 <= i < j < |rest| ensures rest[i] != rest[j] { assert rest[i] == ts[i + 1] && rest[j] == ts[j + 1]; }
      }
      SortGroupsPermutation(configs, rest);
      assert ts[0] !in rest by {
        forall i | 0 <= i < |rest| ensures rest[i] != ts[0] { assert rest[i] == ts[i + 1]; }
      }
      assert (set t | t in ts) == {ts[0]} + (set t | t in rest) by {
        assert forall t :: t in ts <==> t == ts[0] || t in rest;
      }
      FilterTypesSplit(configs, ts[0], set t | t in rest);
    }
  }

  lemma {:induction false} FilterTypesNone(xs: seq<Item>)
    ensures FilterTypes(xs, {}) == []
    decreases |xs|
  {
    if xs != [] { FilterTypesNone(xs[..|xs| - 1]); }
  }

  /** sort_level only reorders its configs. */
  lemma SortLevelPermutation(configs: seq<Item>)
    requires SortLevelSpec(configs).Ok?
    ensures multiset(SortLevelSpec(configs).value) == multiset(configs)
  {
    var d := DistinctTypes(configs);
    var ts := InsertionSort(d, TypeNameLe());
    InsertionSortPermutation(d, TypeNameLe());
    DistinctTypesSpec(configs);
    PermutationNoDup(d, ts);
    SortGroupsPermutation(configs, ts);
    forall k | 0 <= k < |configs| ensures configs[k].stype in set t | t in ts {
      assert configs[k] in configs;
      assert configs[k].stype in d;
      assert configs[k].stype in multiset(ts);
    }
    FilterTypesAll(configs, set t | t in ts);
  }

  /** a comes no later than b: type names ordered, and the order key within a type. */
  predicate TypeOrdered(a: Item, b: Item) {
    && StrLe(a.stype, b.stype)
    && (a.stype == b.stype ==>
          && ParseType(a.stype).Some?
          && ValueLe(KeyValue(a, OrderKey(ParseType(a.stype).value)), KeyValue(b, OrderKey(ParseType(a.stype).value))))
  }

  lemma {:induction false} SortGroupsTypes(configs: seq<Item>, ts: seq<string>)
    requires SortGroups(configs, ts).Ok?
    ensures forall x :: x in SortGroups(configs, ts).value ==> x.stype in ts
  {
    if ts != [] {
      var rest := ts[1..];
      SortGroupsTypes(configs, rest);
      var g := GroupSorted(configs, ts[0]).value;
      GroupSortedTypes(configs, ts[0]);
      forall x | x in SortGroups(configs, ts).value ensures x.stype in ts {
        if x !in g {
          assert x in SortGroups(configs, rest).value;
          var m :| 0 <= m < |rest| && rest[m] == x.stype;
          assert ts[m + 1] == x.stype;
        }
      }
    }
  }

  lemma GroupSortedTypes(configs: seq<Item>, t: string)
    requires GroupSorted(configs, t).Ok?
    ensures ParseType(t).Some?
    ensures forall x :: x in GroupSorted(configs, t).value ==> x.stype == t
    ensures SortedBy(GroupSorted(configs, t).value, ItemLe(OrderKey(ParseType(t).value)))
  {
    var g := GroupSorted(configs, t).value;
    FilterTypeMembers(configs, t);
    forall x | x in g ensures x.stype == t {
      assert x in multiset(g);
      assert x in FilterType(configs, t);
    }
  }

  /**
   * Within a type, items whose order keys tie stay in the order the level
   * listed them, since the group is filtered in order and sorted stably.
   */
  lemma GroupSortedStable(configs: seq<Item>, t: string, y: Item)
    requires GroupSorted(configs, t).Ok?
    ensures StypeToOrderKey(t).Ok?
    ensures Ties(GroupSorted(configs, t).value, ItemLe(StypeToOrderKey(t).value), y) ==
            Ties(FilterType(configs, t), ItemLe(StypeToOrderKey(t).value), y)
  {
    SortByKeyStable(FilterType(configs, t), StypeToOrderKey(t).value, y);
  }

  /** Every item comes no later than each item after it. */
  predicate LevelOrdered(r: seq<Item>) {
    forall i, j :: 0 <= i < j < |r| ==> TypeOrdered(r[i], r[j])
  }

  /** One sorted group of type t is ordered. */
  lemma GroupOrdered(g: seq<Item>, t: string)
    requires ParseType(t).Some?
    requires forall x :: x in g ==> x.stype == t
    requires SortedBy(g, ItemLe(OrderKey(ParseType(t).value)))
    ensures LevelOrdered(g)
  {
    var key := OrderKey(ParseType(t).value);
    StrLeRefl(t);
    forall i, j | 0 <= i < j < |g| ensures TypeOrdered(g[i], g[j]) {
      assert ItemLe(key)(g[i], g[j]);
      assert g[i] in g && g[j] in g;
    }
  }

  /** Two ordered runs, each item of the first before each of the second. */
  lemma ConcatOrdered(g: seq<Item>, r2: seq<Item>)
    requires LevelOrdered(g) && LevelOrdered(r2)
    requires forall x, y :: x in g && y in r2 ==> TypeOrdered(x, y)
    ensures LevelOrdered(g + r2)
  {
    var r := g + r2;
    forall i, j | 0 <= i < j < |r| ensures TypeOrdered(r[i], r[j]) {
      if j < |g| {
        assert r[i] == g[i] && r[j] == g[j];
      } else if i < |g| {
        assert r[i] == g[i] && r[j] == r2[j - |g|];
        assert g[i] in g && r2[j - |g|] in r2;
      } else {
        assert r[i] == r2[i - |g|] && r[j] == r2[j - |g|];
      }
    }
  }

  lemma {:induction false} SortGroupsOrdered(configs: seq<Item>, ts: seq<string>)
    requires NoDup(ts) && SortedBy(ts, TypeNameLe()) && SortGroups(configs, ts).Ok?
    ensures LevelOrdered(SortGroups(configs, ts).value)
  {
    if ts != [] {
      var rest := ts[1..];
      assert NoDup(rest) && SortedBy(rest, TypeNameLe()) by {
        forall i, j | 0 <= i < j < |rest| ensures rest[i] != rest[j] && StrLe(rest[i], rest[j]) {
          assert rest[i] == ts[i + 1] && rest[j] == ts[j + 1];
        }
      }
      SortGroupsOrdered(configs, rest);
      SortGroupsTypes(configs, rest);
      var t := ts[0];
      GroupSortedTypes(configs, t);
      var g := GroupSorted(configs, t).value;
      var r2 := SortGroups(configs, rest).value;
      GroupOrdered(g, t);
      forall x | x in r2 ensures x.stype != t && StrLe(t, x.stype) {
        var m :| 0 <= m < |rest| && rest[m] == x.stype;
        assert rest[m] == ts[m + 1];
        assert ts[0] != ts[m + 1];
      }
      ConcatOrdered(g, r2);
    }
  }

  /** sort_level's output is ordered by type name, then by each type's order key. */
  lemma SortLevelOrdered(configs: seq<Item>)
    requires SortLevelSpec(configs).Ok?
    ensures LevelOrdered(SortLevelSpec(configs).value)
  {
    var d := DistinctTypes(configs);
    var ts := InsertionSort(d, TypeNameLe());
    InsertionSortPermutation(d, TypeNameLe());
    DistinctTypesSpec(configs);
    PermutationNoDup(d, ts);
    TypeNameLeTotalPreorder();
    InsertionSortSorted(d, TypeNameLe());
    SortGroupsOrdered(configs, ts);
  }

  // ---------------------------------------------------------------------
  // Levels and the merge
  // ---------------------------------------------------------------------

  /** The configs of the entries at level lvl, in registry order. */
  function LevelItems(reg: seq<Entry>, lvl: nat): seq<Item>
    decreases |reg|
  {
    if reg == [] then []
    else LevelItems(reg[..|reg| - 1], lvl) + (if reg[|reg| - 1].level == lvl then [reg[|reg| - 1].item] else [])
  }

  /** The configs of the entries with lo <= level <= hi, in registry order. */
  function InRange(reg: seq<Entry>, lo: nat, hi: nat): seq<Item>
    decreases |reg|
  {
    if reg == [] then []
    else
      InRange(reg[..|reg| - 1], lo, hi) +
        (if lo <= reg[|reg| - 1].level <= hi then [reg[|reg| - 1].item] else [])
  }

  /** The sorted levels lo..hi, concatenated. */
  function Levels(reg: seq<Entry>, lo: nat, hi: nat): Result<seq<Item>, StorageError>
    decreases hi + 1 - lo
  {
    if lo > hi then Ok([])
    else Chain(SortLevelSpec(LevelItems(reg, lo)), Levels(reg, lo + 1, hi))
  }

  /** The merged list, or the first error. */
  function Merged(trees: seq<seq<Item>>): Result<seq<Item>, StorageError> {
    match Registry(trees)
    case Err(e) => Err(e)
    case Ok(reg) => Levels(reg, 0, MaxLevel(trees))
  }

  /** The level_configs loop for one level. */
  method LevelConfigs(reg: seq<Entry>, lvl: nat) returns (configs: seq<Item>)
    ensures configs == LevelItems(reg, lvl)
  {
    configs := [];
    for k := 0 to |reg|
      invariant configs == LevelItems(reg[..k], lvl)
    {
      assert reg[..k + 1][..k] == reg[..k];
      if reg[k].level == lvl {
        configs := configs + [reg[k].item];
      }
    }
    assert reg[..|reg|] == reg;
  }

  /** The registry loop of merge_config_trees_to_list, with the running max_level. */
  method BuildRegistry(trees: seq<seq<Item>>) returns (r: Result<seq<Entry>, StorageError>, maxLevel: nat)
    ensures r == Registry(trees)
    ensures maxLevel == MaxLevel(trees)
  {
    var reg: seq<Entry> := [];
    maxLevel := 0;
    for i := 0 to |trees|
      invariant Registry(trees[..i]) == Ok(reg)
      invariant maxLevel == MaxLevel(trees[..i])
    {
      assert trees[..i + 1][..i] == trees[..i];
      var tree := trees[i];
      if tree == [] {
        RegistryErrPersists(trees, i + 1);
        return Err(EmptyTree), MaxLevel(trees);
      }
      var top := tree[0];
      var level := |tree|;
      if level > maxLevel {
        maxLevel := level;
      }
      if !InReg(reg, top.id) {
        reg := reg + [Entry(level, top)];
      }
    }
    assert trees[..|trees|] == trees;
    return Ok(reg), maxLevel;
  }

  /** One level of the merge: its configs, sorted, appended to merged. */
  method MergeLevel(reg: seq<Entry>, lvl: nat, maxLevel: nat, merged: seq<Item>) returns (r: Result<seq<Item>, StorageError>)
    requires lvl <= maxLevel
    ensures Chain(r, Levels(reg, lvl + 1, maxLevel)) == Chain(Ok(merged), Levels(reg, lvl, maxLevel))
  {
    var levelConfigs := LevelConfigs(reg, lvl);
    var sconfigs := SortLevel(levelConfigs);
    ChainAssoc(Ok(merged), sconfigs, Levels(reg, lvl + 1, maxLevel));
    if sconfigs.Err? {
      return Err(sconfigs.error);
    }
    return Ok(merged + sconfigs.value);
  }

  /** The level loop of merge_config_trees_to_list. */
  method MergeLevels(reg: seq<Entry>, maxLevel: nat) returns (r: Result<seq<Item>, StorageError>)
    ensures r == Levels(reg, 0, maxLevel)
  {
    ghost var total := Levels(reg, 0, maxLevel);
    var merged: seq<Item> := [];
    ChainUnit(total);
    for lvl := 0 to maxLevel + 1
      invariant Chain(Ok(merged), Levels(reg, lvl, maxLevel)) == total
    {
      var step := MergeLevel(reg, lvl, maxLevel, merged);
      if step.Err? {
        return Err(step.error);
      }
      merged := step.value;
    }
    assert Levels(reg, maxLevel + 1, maxLevel) == Ok([]);
    ChainUnit(Ok(merged));
    return Ok(merged);
  }

  /** `merge_config_trees_to_list`. */
  method MergeConfigTreesToList(trees: seq<seq<Item>>) returns (r: Result<seq<Item>, StorageError>)
    ensures r == Merged(trees)
  {
    var registry, maxLevel := BuildRegistry(trees);
    if registry.Err? {
      return Err(registry.error);
    }
    r := MergeLevels(registry.value, maxLevel);
  }

  // ---------------------------------------------------------------------
  // Properties of the merge
  // ---------------------------------------------------------------------

  lemma {:induction false} InRangeEmpty(reg: seq<Entry>, lo: nat, hi: nat)
    requires lo > hi
    ensures InRange(reg, lo, hi) == []
    decreases |reg|
  {
    if reg != [] { InRangeEmpty(reg[..|reg| - 1], lo, hi); }
  }

  lemma {:induction false} InRangeSplit(reg: seq<Entry>, lo: nat, hi: nat)
    requires lo <= hi
    ensures multiset(InRange(reg, lo, hi)) == multiset(LevelItems(reg, lo)) + multiset(InRange(reg, lo + 1, hi))
    decreases |reg|
  {
    if reg != [] { InRangeSplit(reg[..|reg| - 1], lo, hi); }
  }

  lemma {:induction false} InRangeMembers(reg: seq<Entry>, lo: nat, hi: nat)
    ensures forall x :: x in InRange(reg, lo, hi) ==>
      exists k :: 0 <= k < |reg| && reg[k].item == x && lo <= reg[k].level <= hi
    decreases |reg|
  {
    if reg != [] {
      var n := |reg| - 1;
      var init := reg[..n];
      InRangeMembers(init, lo, hi);
      forall x | x in InRange(reg, lo, hi)
        ensures exists k :: 0 <= k < |reg| && reg[k].item == x && lo <= reg[k].level <= hi
      {
        if x in InRange(init, lo, hi) {
          var k :| 0 <= k < |init| && init[k].item == x && lo <= init[k].level <= hi;
          assert reg[k] == init[k];
        } else {
          assert reg[n].item == x && lo <= reg[n].level <= hi;
        }
      }
    }
  }

  lemma {:induction false} LevelItemsInRange(reg: seq<Entry>, lvl: nat)
    ensures LevelItems(reg, lvl) == InRange(reg, lvl, lvl)
    decreases |reg|
  {
    if reg != [] { LevelItemsInRange(reg[..|reg| - 1], lvl); }
  }

  /** The sorted levels lo..hi hold exactly the entries with levels in that range. */
  lemma {:induction false} LevelsPermutation(reg: seq<Entry>, lo: nat, hi: nat)
    requires Levels(reg, lo, hi).Ok?
    ensures multiset(Levels(reg, lo, hi).value) == multiset(InRange(reg, lo, hi))
    decreases hi + 1 - lo
  {
    if lo > hi {
      InRangeEmpty(reg, lo, hi);
    } else {
      LevelsPermutation(reg, lo + 1, hi);
      SortLevelPermutation(LevelItems(reg, lo));
      InRangeSplit(reg, lo, hi);
    }
  }

  lemma {:induction false} InRangeAll(reg: seq<Entry>, hi: nat)
    requires forall k :: 0 <= k < |reg| ==> reg[k].level <= hi
    ensures InRange(reg, 0, hi) == RegItems(reg)
    decreases |reg|
  {
    if reg != [] {
      var init := reg[..|reg| - 1];
      assert forall k :: 0 <= k < |init| ==> init[k] == reg[k];
      InRangeAll(init, hi);
    }
  }

  /** Every entry's level is at most max_level. */
  lemma RegistryLevels(trees: seq<seq<Item>>)
    requires Registry(trees).Ok?
    ensures forall k :: 0 <= k < |Registry(trees).value| ==> Registry(trees).value[k].level <= MaxLevel(trees)
  {
    var reg := Registry(trees).value;
    RegistryFirst(trees);
    MaxLevelSpec(trees);
    forall k | 0 <= k < |reg| ensures reg[k].level <= MaxLevel(trees) {
      assert FirstTop(trees, reg[k]);
      var j :| 0 <= j < |trees| && reg[k].level == |trees[j]|;
    }
  }

  lemma DistinctRegItems(reg: seq<Entry>)
    requires DistinctReg(reg)
    ensures DistinctIds(RegItems(reg))
  {
  }

  /** The level of the entry whose top id is id, or 0 when there is none. */
  function LevelOf(reg: seq<Entry>, id: string): nat {
    if reg == [] then 0
    else if reg[0].item.id == id then reg[0].level
    else LevelOf(reg[1..], id)
  }

  lemma {:induction false} LevelOfEntry(reg: seq<Entry>, k: nat)
    requires DistinctReg(reg) && k < |reg|
    ensures LevelOf(reg, reg[k].item.id) == reg[k].level
  {
    if k > 0 {
      var rest := reg[1..];
      assert rest[k - 1] == reg[k];
      assert reg[0].item.id != reg[k].item.id;
      assert DistinctReg(rest) by {
        forall i, j | 0 <= i < j < |rest| ensures rest[i].item.id != rest[j].item.id {
          assert rest[i] == reg[i + 1] && rest[j] == reg[j + 1];
        }
      }
      LevelOfEntry(rest, k - 1);
    }
  }

  /** The merge only reorders the registry's top items. */
  lemma MergedPermutation(trees: seq<seq<Item>>)
    requires Merged(trees).Ok?
    ensures multiset(Merged(trees).value) == multiset(RegItems(Registry(trees).value))
  {
    var reg := Registry(trees).value;
    LevelsPermutation(reg, 0, MaxLevel(trees));
    RegistryLevels(trees);
    InRangeAll(reg, MaxLevel(trees));
  }

  /** The merge for the trees returns each distinct top once, from the first tree with it. */
  lemma RegItemsIds(reg: seq<Entry>)
    ensures forall id :: HasId(RegItems(reg), id) <==> InReg(reg, id)
  {
    var items := RegItems(reg);
    forall id ensures HasId(items, id) <==> InReg(reg, id) {
      if HasId(items, id) {
        var i :| 0 <= i < |items| && items[i].id == id;
        assert reg[i].item.id == id;
      }
      if InReg(reg, id) {
        var i :| 0 <= i < |reg| && reg[i].item.id == id;
        assert items[i].id == id;
      }
    }
  }

  lemma MergedTops(trees: seq<seq<Item>>)
    requires Merged(trees).Ok?
    ensures DistinctIds(Merged(trees).value)
    ensures forall id :: HasId(Merged(trees).value, id) <==> IsTop(trees, id)
  {
    var reg := Registry(trees).value;
    var r := Merged(trees).value;
    MergedPermutation(trees);
    RegistryIds(trees);
    DistinctRegItems(reg);
    RegItemsIds(reg);
    PermutationIds(RegItems(reg), r);
    forall id ensures HasId(r, id) <==> IsTop(trees, id) {
      assert id in IdSet(r) <==> id in IdSet(RegItems(reg));
    }
  }

  /**
   * Each merged item is the top of the first tree with its id, and its level
   * is that tree's size: a later tree with the same top is dropped.
   */
  lemma MergedFirstTops(trees: seq<seq<Item>>)
    requires Merged(trees).Ok?
    ensures forall x :: x in Merged(trees).value ==>
      FirstTop(trees, Entry(LevelOf(Registry(trees).value, x.id), x))
  {
    var reg := Registry(trees).value;
    var r := Merged(trees).value;
    var items := RegItems(reg);
    MergedPermutation(trees);
    RegistryIds(trees);
    RegistryFirst(trees);
    forall x | x in r ensures FirstTop(trees, Entry(LevelOf(reg, x.id), x)) {
      assert x in multiset(r);
      assert x in items;
      var k :| 0 <= k < |items| && items[k] == x;
      LevelOfEntry(reg, k);
      assert reg[k] == Entry(LevelOf(reg, x.id), x);
    }
  }

  /** a goes before b in the merge: a lower level, or the same level and type order. */
  predicate Before(reg: seq<Entry>, a: Item, b: Item) {
    || LevelOf(reg, a.id) < LevelOf(reg, b.id)
    || (LevelOf(reg, a.id) == LevelOf(reg, b.id) && TypeOrdered(a, b))
  }

  predicate MergeOrdered(reg: seq<Entry>, r: seq<Item>) {
    forall i, j :: 0 <= i < j < |r| ==> Before(reg, r[i], r[j])
  }

  /** The items of Levels(reg, lo, hi) have levels in lo..hi. */
  lemma LevelsLevels(reg: seq<Entry>, lo: nat, hi: nat)
    requires DistinctReg(reg) && Levels(reg, lo, hi).Ok?
    ensures forall x :: x in Levels(reg, lo, hi).value ==> lo <= LevelOf(reg, x.id) <= hi
  {
    var r := Levels(reg, lo, hi).value;
    LevelsPermutation(reg, lo, hi);
    InRangeMembers(reg, lo, hi);
    forall x | x in r ensures lo <= LevelOf(reg, x.id) <= hi {
      assert x in multiset(r);
      assert x in InRange(reg, lo, hi);
      var k :| 0 <= k < |reg| && reg[k].item == x && lo <= reg[k].level <= hi;
      LevelOfEntry(reg, k);
    }
  }

  /** The sorted configs of level lo all have level lo. */
  lemma SortedLevelLevels(reg: seq<Entry>, lo: nat)
    requires DistinctReg(reg) && SortLevelSpec(LevelItems(reg, lo)).Ok?
    ensures forall x :: x in SortLevelSpec(LevelItems(reg, lo)).value ==> LevelOf(reg, x.id) == lo
  {
    var s := SortLevelSpec(LevelItems(reg, lo)).value;
    SortLevelPermutation(LevelItems(reg, lo));
    LevelItemsInRange(reg, lo);
    InRangeMembers(reg, lo, lo);
    forall x | x in s ensures LevelOf(reg, x.id) == lo {
      assert x in multiset(s);
      assert x in InRange(reg, lo, lo);
      var k :| 0 <= k < |reg| && reg[k].item == x && lo <= reg[k].level <= lo;
      LevelOfEntry(reg, k);
    }
  }

  lemma ConcatMergeOrdered(reg: seq<Entry>, s: seq<Item>, rest: seq<Item>, lo: nat)
    requires LevelOrdered(s) && MergeOrdered(reg, rest)
    requires forall x :: x in s ==> LevelOf(reg, x.id) == lo
    requires forall y :: y in rest ==> LevelOf(reg, y.id) > lo
    ensures MergeOrdered(reg, s + rest)
  {
    var r := s + rest;
    forall i, j | 0 <= i < j < |r| ensures Before(reg, r[i], r[j]) {
      if j < |s| {
        assert r[i] == s[i] && r[j] == s[j];
        assert s[i] in s && s[j] in s;
      } else if i < |s| {
        assert r[i] == s[i] && r[j] == rest[j - |s|];
        assert s[i] in s && rest[j - |s|] in rest;
      } else {
        assert r[i] == rest[i - |s|] && r[j] == rest[j - |s|];
      }
    }
  }

  lemma LevelsUnfold(reg: seq<Entry>, lo: nat, hi: nat)
    requires lo <= hi && Levels(reg, lo, hi).Ok?
    ensures SortLevelSpec(LevelItems(reg, lo)).Ok? && Levels(reg, lo + 1, hi).Ok?
    ensures Levels(reg, lo, hi).value == SortLevelSpec(LevelItems(reg, lo)).value + Levels(reg, lo + 1, hi).value
  {
  }

  lemma {:induction false} LevelsOrdered(reg: seq<Entry>, lo: nat, hi: nat)
    requires DistinctReg(reg) && Levels(reg, lo, hi).Ok?
    ensures MergeOrdered(reg, Levels(reg, lo, hi).value)
    decreases hi + 1 - lo
  {
    if lo <= hi {
      LevelsUnfold(reg, lo, hi);
      var s := SortLevelSpec(LevelItems(reg, lo)).value;
      var rest := Levels(reg, lo + 1, hi).value;
      LevelsOrdered(reg, lo + 1, hi);
      SortLevelOrdered(LevelItems(reg, lo));
      SortedLevelLevels(reg, lo);
      LevelsLevels(reg, lo + 1, hi);
      ConcatMergeOrdered(reg, s, rest, lo);
    }
  }

  /**
   * The merge is non-decreasing in level (the size of the top's tree), and
   * within a level ordered by type name and then by the type's order key.
   */
  lemma MergedOrdered(trees: seq<seq<Item>>)
    requires Merged(trees).Ok?
    ensures MergeOrdered(Registry(trees).value, Merged(trees).value)
  {
    RegistryIds(trees);
    LevelsOrdered(Registry(trees).value, 0, MaxLevel(trees));
  }

  lemma SortLevelEmpty()
    ensures SortLevelSpec([]) == Ok([])
  {
    var none: seq<Item> := [];
    assert DistinctTypes(none) == [];
    assert InsertionSort(DistinctTypes(none), TypeNameLe()) == [];
  }

  /** A level range with no entries sorts to nothing. */
  lemma {:induction false} LevelsNone(reg: seq<Entry>, lo: nat, hi: nat)
    requires forall k :: 0 <= k < |reg| ==> reg[k].level < lo
    ensures Levels(reg, lo, hi) == Ok([])
    decreases hi + 1 - lo
  {
    if lo <= hi {
      LevelsNone(reg, lo + 1, hi);
      LevelItemsNone(reg, lo);
      SortLevelEmpty();
      var none: seq<Item> := [];
      assert Levels(reg, lo, hi) == Chain(Ok(none), Ok(none));
      assert none + none == none;
    }
  }

  lemma {:induction false} LevelItemsNone(reg: seq<Entry>, lvl: nat)
    requires forall k :: 0 <= k < |reg| ==> reg[k].level < lvl
    ensures LevelItems(reg, lvl) == []
    decreases |reg|
  {
    if reg != [] {
      var init := reg[..|reg| - 1];
      assert forall k :: 0 <= k < |init| ==> init[k] == reg[k];
      LevelItemsNone(init, lvl);
    }
  }

  /** Raising the top level past every entry adds nothing. */
  lemma {:induction false} LevelsExtend(reg: seq<Entry>, lo: nat, hi: nat, hi': nat)
    requires hi <= hi' && forall k :: 0 <= k < |reg| ==> reg[k].level <= hi
    ensures Levels(reg, lo, hi') == Levels(reg, lo, hi)
    decreases hi + 1 - lo
  {
    if lo > hi {
      assert Levels(reg, lo, hi) == Ok([]);
      LevelsNone(reg, lo, hi');
    } else {
      var head := SortLevelSpec(LevelItems(reg, lo));
      var tail := Levels(reg, lo + 1, hi);
      assert Levels(reg, lo + 1, hi') == tail by {
        LevelsExtend(reg, lo + 1, hi, hi');
      }
      assert Levels(reg, lo, hi') == Chain(head, tail);
      assert Levels(reg, lo, hi) == Chain(head, tail);
    }
  }

  lemma {:induction false} RegistryRepeat(trees: seq<seq<Item>>, more: seq<seq<Item>>)
    requires Registry(trees).Ok?
    requires forall k :: 0 <= k < |more| ==> more[k] != [] && IsTop(trees, more[k][0].id)
    ensures Registry(trees + more) == Registry(trees)
    decreases |more|
  {
    if more != [] {
      var init := more[..|more| - 1];
      var all := trees + more;
      assert all[..|all| - 1] == trees + init;
      assert all[|all| - 1] == more[|more| - 1];
      assert forall k :: 0 <= k < |init| ==> init[k] == more[k];
      RegistryRepeat(trees, init);
      RegistryIds(trees);
      assert InReg(Registry(trees).value, more[|more| - 1][0].id);
    } else {
      assert trees + more == trees;
    }
  }

  lemma {:induction false} MaxLevelGrows(trees: seq<seq<Item>>, more: seq<seq<Item>>)
    ensures MaxLevel(trees) <= MaxLevel(trees + more)
    decreases |more|
  {
    if more != [] {
      var init := more[..|more| - 1];
      var all := trees + more;
      assert all[..|all| - 1] == trees + init;
      MaxLevelGrows(trees, init);
      assert MaxLevel(trees + init) <= MaxLevel(all);
    } else {
      assert trees + more == trees;
    }
  }

  /**
   * A tree whose top id an earlier tree already has is dropped: appending such
   * trees leaves the merge as it was.
   */
  lemma MergedDropsRepeats(trees: seq<seq<Item>>, more: seq<seq<Item>>)
    requires forall k :: 0 <= k < |more| ==> more[k] != [] && IsTop(trees, more[k][0].id)
    ensures Merged(trees + more) == Merged(trees)
  {
    if Registry(trees).Ok? {
      RegistryRepeat(trees, more);
      RegistryLevels(trees);
      MaxLevelGrows(trees, more);
      LevelsExtend(Registry(trees).value, 0, MaxLevel(trees), MaxLevel(trees + more));
    } else {
      assert (trees + more)[..|trees|] == trees;
      RegistryErrPersists(trees + more, |trees|);
    }
  }

  /** Merging the same trees twice over gives the merge of the trees once. */
  lemma MergedTwice(trees: seq<seq<Item>>)
    requires forall k :: 0 <= k < |trees| ==> trees[k] != []
    ensures Merged(trees + trees) == Merged(trees)
  {
    forall k | 0 <= k < |trees| ensures IsTop(trees, trees[k][0].id) {
      assert trees[k] != [] && trees[k][0].id == trees[k][0].id;
    }
    MergedDropsRepeats(trees, trees);
  }
}

=== FILE: storage_types.dfy ===
/**
 * The fixed storage-config type registry: the item types, which fields of
 * each type reference other items, which field orders siblings of a type,
 * and which types each type may be built from.
 */
module StorageTypes {
  import opened Wrappers

  datatype StorageType =
    | Bcache | Dasd | Disk | DmCrypt | Format | LvmPartition
    | LvmVolgroup | Mount | Partition | Raid | Zfs | Zpool

  /** The `type` string an item of this type carries. */
  function TypeName(t: StorageType): string {
    match t
    case Bcache => "bcache"
    case Dasd => "dasd"
    case Disk => "disk"
    case DmCrypt => "dm_crypt"
    case Format => "format"
    case LvmPartition => "lvm_partition"
    case LvmVolgroup => "lvm_volgroup"
    case Mount => "mount"
    case Partition => "partition"
    case Raid => "raid"
    case Zfs => "zfs"
    case Zpool => "zpool"
  }

  /** The registered type named s, if any. */
  function ParseType(s: string): (r: Option<StorageType>)
    ensures r.Some? ==> TypeName(r.value) == s
  {
    if s == "bcache" then Some(Bcache)
    else if s == "dasd" then Some(Dasd)
    else if s == "disk" then Some(Disk)
    else if s == "dm_crypt" then Some(DmCrypt)
    else if s == "format" then Some(Format)
    else if s == "lvm_partition" then Some(LvmPartition)
    else if s == "lvm_volgroup" then Some(LvmVolgroup)
    else if s == "mount" then Some(Mount)
    else if s == "partition" then Some(Partition)
    else if s == "raid" then Some(Raid)
    else if s == "zfs" then Some(Zfs)
    else if s == "zpool" then Some(Zpool)
    else None
  }

  /** Every type's name parses back to that type, so names are distinct. */
  lemma TypeNameRoundTrip(t: StorageType)
    ensures ParseType(TypeName(t)) == Some(t)
  {
  }

  /**
   * The dependency fields of a type. The source keeps them in a set; the
   * model fixes the order in which the source lists them.
   */
  function DepKeys(t: StorageType): seq<string> {
    match t
    case Bcache => ["backing_device", "cache_device"]
    case Dasd => []
    case Disk => []
    case DmCrypt => ["volume"]
    case Format => ["volume"]
    case LvmPartition => ["volgroup"]
    case LvmVolgroup => ["devices"]
    case Mount => ["device"]
    case Partition => ["device"]
    case Raid => ["devices", "spare_devices", "container"]
    case Zfs => ["pool"]
    case Zpool => ["vdevs"]
  }

  /** The single field that orders items of a type. */
  function OrderKey(t: StorageType): string {
    match t
    case Bcache => "name"
    case LvmPartition => "name"
    case LvmVolgroup => "name"
    case Mount => "path"
    case Partition => "number"
    case Zfs => "volume"
    case _ => "id"
  }

  /** The types an item of type t may depend on. */
  function AllowedDeps(t: StorageType): set<StorageType> {
    match t
    case Bcache => {Bcache, Disk, DmCrypt, LvmPartition, Partition, Raid}
    case Dasd => {}
    case Disk => {Dasd}
    case DmCrypt => {Bcache, Disk, DmCrypt, LvmPartition, Partition, Raid}
    case Format => {Bcache, Disk, DmCrypt, LvmPartition, Partition, Raid}
    case LvmPartition => {LvmVolgroup}
    case LvmVolgroup => {Bcache, Disk, DmCrypt, Partition, Raid}
    case Mount => {Format}
    case Partition => {Bcache, Disk, Raid, Partition}
    case Raid => {Bcache, Disk, DmCrypt, LvmPartition, Partition, Raid}
    case Zfs => {Zpool}
    case Zpool => {Disk, Partition}
  }

  datatype TypeError = UnknownType(name: string)

  /** `_stype_to_deps`: the dependency fields of a type named by a string. */
  function StypeToDeps(stype: string): (r: Result<seq<string>, TypeError>)
    ensures r.Ok? <==> ParseType(stype).Some?
    ensures r.Ok? ==> r.value == DepKeys(ParseType(stype).value)
  {
    match ParseType(stype)
    case Some(t) => Ok(DepKeys(t))
    case None => Err(UnknownType(stype))
  }

  /** `_stype_to_order_key`: the order field of a type named by a string. */
  function StypeToOrderKey(stype: string): (r: Result<string, TypeError>)
    ensures r.Ok? <==> ParseType(stype).Some?
    ensures r.Ok? ==> r.value == OrderKey(ParseType(stype).value)
  {
    match ParseType(stype)
    case Some(t) => Ok(OrderKey(t))
    case None => Err(UnknownType(stype))
  }

  /** Only a format can carry a mount, and only a zpool a zfs dataset. */
  lemma MountAndZfsTargets()
    ensures AllowedDeps(Mount) == {Format}
    ensures AllowedDeps(Zfs) == {Zpool}
    ensures forall t :: t !in AllowedDeps(Dasd)
  {
  }

  /**
   * Every type with dependency fields may depend on some type; a disk is the
   * one type allowed a dependency (a dasd) that it has no field to name.
   */
  lemma DepKeysHaveTargets(t: StorageType)
    ensures DepKeys(t) != [] ==> AllowedDeps(t) != {}
    ensures (DepKeys(t) == [] && AllowedDeps(t) != {}) <==> t == Disk
  {
    match t
    case Disk => assert Dasd in AllowedDeps(Disk);
    case Bcache => assert Disk in AllowedDeps(t);
    case DmCrypt => assert Disk in AllowedDeps(t);
    case Format => assert Disk in AllowedDeps(t);
    case LvmPartition => assert LvmVolgroup in AllowedDeps(t);
    case LvmVolgroup => assert Disk in AllowedDeps(t);
    case Mount => assert Format in AllowedDeps(t);
    case Partition => assert Disk in AllowedDeps(t);
    case Raid => assert Disk in AllowedDeps(t);
    case Zfs => assert Zpool in AllowedDeps(t);
    case Zpool => assert Disk in AllowedDeps(t);
    case Dasd =>
  }
}

=== FILE: swap.dfy ===
/**
 * The swap decisions: the suggested swap size for a memory size when no
 * filesystem is given, the defaulting of the swapfile path, the filesystem
 * and kernel checks that rule a swapfile out, and whether a swapfile is
 * made at all.
 *
 * The memory size, the file-system type of the swapfile's directory and the
 * target's kernel major version are parameters; sizes are in bytes and, as
 * `x / 2` is a true division, the suggested size is a real.
 */
module Swap {
  import opened Wrappers
  import opened Text

  const GiB: int := 1073741824

  /** The largest suggestion when neither a maximum nor a filesystem is given. */
  const SuggMax: int := 8 * GiB

  /** How a bracket of the table derives the swap size from the memory size. */
  datatype Formula =
    | Double          // twice the memory
    | Flat(bytes: int) // a fixed size
    | Same            // as much as the memory
    | Half            // half the memory

  function Apply(f: Formula, memsize: int): real {
    match f
    case Double => memsize as real * 2.0
    case Flat(b) => b as real
    case Same => memsize as real
    case Half => memsize as real / 2.0
  }

  /** The brackets in order: the first whose top is at least the memory size applies. */
  const Formulas: seq<(int, Formula)> :=
    [(1 * GiB, Double), (2 * GiB, Flat(2 * GiB)), (4 * GiB, Same), (16 * GiB, Flat(4 * GiB)), (64 * GiB, Half)]

  /** Python's min of two numbers. */
  function Min(a: real, b: real): (r: real)
    ensures r <= a && r <= b && (r == a || r == b)
  {
    if b < a then b else a
  }

  /** A capped size too small to matter (under half the memory and under 4 GiB) becomes no swap. */
  function DropSmall(size: real, memsize: int): real {
    if size < memsize as real / 2.0 && size < (4 * GiB) as real then 0.0 else size
  }

  /** The scan of the bracket table; past the last bracket the maximum itself is the answer. */
  function ScanFormulas(table: seq<(int, Formula)>, memsize: int, maxsize: real): real {
    if table == [] then maxsize
    else if memsize <= table[0].0 then DropSmall(Min(Apply(table[0].1, memsize), maxsize), memsize)
    else ScanFormulas(table[1..], memsize, maxsize)
  }

  /** The maximum in force: the caller's, or 8 GiB. */
  function MaxOrDefault(maxsize: Option<int>): (r: int)
    ensures maxsize.None? ==> r == 8 * GiB
    ensures maxsize.Some? ==> r == maxsize.value
  {
    if maxsize.Some? then maxsize.value else SuggMax
  }

  /** suggested_swapsize with no filesystem. */
  function SuggestedSwapsize(memsize: int, maxsize: Option<int>): real {
    ScanFormulas(Formulas, memsize, MaxOrDefault(maxsize) as real)
  }

  /** The bracket table written out as cases: the size before the cap. */
  function BracketSize(memsize: int): real {
    var m := memsize as real;
    if memsize <= GiB then 2.0 * m
    else if memsize <= 2 * GiB then (2 * GiB) as real
    else if memsize <= 4 * GiB then m
    else if memsize <= 16 * GiB then (4 * GiB) as real
    else m / 2.0
  }

  /** The suggestion written out as cases. */
  function ReferenceSwapsize(memsize: int, maxsize: real): real {
    if memsize > 64 * GiB then maxsize
    else DropSmall(Min(BracketSize(memsize), maxsize), memsize)
  }

  /** The scan of the table computes the written-out cases. */
  lemma {:induction false} ScanIsReference(memsize: int, maxsize: real)
    ensures ScanFormulas(Formulas, memsize, maxsize) == ReferenceSwapsize(memsize, maxsize)
  {
    var t0 := Formulas;
    var t1, t2, t3, t4 := t0[1..], t0[2..], t0[3..], t0[4..];
    assert t0[0] == (GiB, Double) && t1[0] == (2 * GiB, Flat(2 * GiB)) && t2[0] == (4 * GiB, Same);
    assert t3[0] == (16 * GiB, Flat(4 * GiB)) && t4[0] == (64 * GiB, Half);
    assert t1 == t0[1..] && t2 == t1[1..] && t3 == t2[1..] && t4 == t3[1..] && t4[1..] == [];
    if memsize > GiB {
      assert ScanFormulas(t0, memsize, maxsize) == ScanFormulas(t1, memsize, maxsize);
      if memsize > 2 * GiB {
        assert ScanFormulas(t1, memsize, maxsize) == ScanFormulas(t2, memsize, maxsize);
        if memsize > 4 * GiB {
          assert ScanFormulas(t2, memsize, maxsize) == ScanFormulas(t3, memsize, maxsize);
          if memsize > 16 * GiB {
            assert ScanFormulas(t3, memsize, maxsize) == ScanFormulas(t4, memsize, maxsize);
            if memsize > 64 * GiB {
              assert ScanFormulas(t4, memsize, maxsize) == ScanFormulas(t4[1..], memsize, maxsize);
            }
          }
        }
      }
    }
  }

  /** With a non-negative maximum the suggestion lies between 0 and the maximum. */
  lemma SwapsizeBounds(memsize: int, maxsize: Option<int>)
    requires MaxOrDefault(maxsize) >= 0
    ensures 0.0 <= SuggestedSwapsize(memsize, maxsize) <= MaxOrDefault(maxsize) as real
  {
    ScanIsReference(memsize, MaxOrDefault(maxsize) as real);
  }

  /** The suggestion never exceeds the maximum, whatever its sign, unless it is 0. */
  lemma SwapsizeAtMostMax(memsize: int, maxsize: Option<int>)
    ensures SuggestedSwapsize(memsize, maxsize) == 0.0 ||
            SuggestedSwapsize(memsize, maxsize) <= MaxOrDefault(maxsize) as real
  {
    ScanIsReference(memsize, MaxOrDefault(maxsize) as real);
  }

  /** Above 64 GiB of memory the suggestion is exactly the maximum. */
  lemma SwapsizeLargeMemory(memsize: int, maxsize: Option<int>)
    requires memsize > 64 * GiB
    ensures SuggestedSwapsize(memsize, maxsize) == MaxOrDefault(maxsize) as real
  {
    ScanIsReference(memsize, MaxOrDefault(maxsize) as real);
  }

  /**
   * Up to 64 GiB the suggestion is the bracket's size capped at the maximum,
   * or no swap exactly when that capped size is under half the memory and
   * under 4 GiB (or is itself 0).
   */
  lemma SwapsizeCapped(memsize: int, maxsize: Option<int>)
    requires memsize <= 64 * GiB
    ensures var capped := Min(BracketSize(memsize), MaxOrDefault(maxsize) as real);
      var r := SuggestedSwapsize(memsize, maxsize);
      && (r == capped || r == 0.0)
      && (r == 0.0 <==> capped == 0.0 || (capped < memsize as real / 2.0 && capped < (4 * GiB) as real))
  {
    ScanIsReference(memsize, MaxOrDefault(maxsize) as real);
  }

  /** A non-zero suggestion is at least half the memory or at least 4 GiB. */
  lemma SwapsizeNotSmall(memsize: int, maxsize: Option<int>)
    requires memsize <= 64 * GiB
    ensures var r := SuggestedSwapsize(memsize, maxsize);
      r != 0.0 ==> r >= memsize as real / 2.0 || r >= (4 * GiB) as real
  {
    ScanIsReference(memsize, MaxOrDefault(maxsize) as real);
  }

  /** A few memory sizes with the default maximum and with a small one. */
  lemma SwapsizeExamples()
    ensures SuggestedSwapsize(GiB / 2, None) == GiB as real
    ensures SuggestedSwapsize(3 * GiB, None) == (3 * GiB) as real
    ensures SuggestedSwapsize(8 * GiB, None) == (4 * GiB) as real
    ensures SuggestedSwapsize(32 * GiB, None) == (8 * GiB) as real
    ensures SuggestedSwapsize(128 * GiB, None) == (8 * GiB) as real
    ensures SuggestedSwapsize(8 * GiB, Some(GiB)) == 0.0
    ensures SuggestedSwapsize(32 * GiB, Some(20 * GiB)) == (16 * GiB) as real
  {
    ScanIsReference(GiB / 2, SuggMax as real);
    ScanIsReference(3 * GiB, SuggMax as real);
    ScanIsReference(8 * GiB, SuggMax as real);
    ScanIsReference(32 * GiB, SuggMax as real);
    ScanIsReference(128 * GiB, SuggMax as real);
    ScanIsReference(8 * GiB, GiB as real);
    ScanIsReference(32 * GiB, (20 * GiB) as real);
  }

  // ------------------------------------------------------------ swapfile

  /** The swapfile path: /swap.img by default, made absolute by a leading '/'. */
  function SwapfilePath(swapfile: Option<string>): (r: string)
    ensures swapfile.None? ==> r == "/swap.img"
    ensures swapfile.Some? && StartsWith(swapfile.value, "/") ==> r == swapfile.value
    ensures swapfile.Some? && !StartsWith(swapfile.value, "/") ==> r == "/" + swapfile.value
  {
    var path := if swapfile.None? then "/swap.img" else swapfile.value;
    if StartsWith(path, "/") then path else "/" + path
  }

  /** The path is absolute, and defaulting it twice changes nothing. */
  lemma SwapfilePathIdempotent(swapfile: Option<string>)
    ensures StartsWith(SwapfilePath(swapfile), "/")
    ensures SwapfilePath(Some(SwapfilePath(swapfile))) == SwapfilePath(swapfile)
  {
    var r := SwapfilePath(swapfile);
    if swapfile.Some? && !StartsWith(swapfile.value, "/") {
      assert r[..1] == "/";
    }
  }

  /** Why a swapfile cannot be used. */
  datatype SwapError =
    | UnknownFstype
    | NoKernelVersion
    | BtrfsNeedsKernel5
    | ZfsUnsupported

  /**
   * can_use_swapfile: `kernelMajor` is the major version of the target's
   * kernel package, None when it cannot be read; it is consulted only for
   * btrfs and xfs.
   */
  function CanUseSwapfile(fstype: Option<string>, kernelMajor: Option<int>): (r: Outcome<SwapError>)
    ensures r.Pass? <==> && fstype.Some? && fstype.value != "zfs"
                         && (fstype.value in {"btrfs", "xfs"} ==> kernelMajor.Some?)
                         && (fstype.value == "btrfs" ==> kernelMajor.value >= 5)
  {
    if fstype.None? then Fail(UnknownFstype)
    else if fstype.value in ["btrfs", "xfs"] then
      if kernelMajor.None? then Fail(NoKernelVersion)
      else if fstype.value == "btrfs" && kernelMajor.value < 5 then Fail(BtrfsNeedsKernel5)
      else Pass
    else if fstype.value in ["zfs"] then Fail(ZfsUnsupported)
    else Pass
  }

  /** An unknown filesystem and zfs are refused whatever the kernel. */
  lemma CanUseSwapfileRefuses(kernelMajor: Option<int>)
    ensures CanUseSwapfile(None, kernelMajor) == Fail(UnknownFstype)
    ensures CanUseSwapfile(Some("zfs"), kernelMajor) == Fail(ZfsUnsupported)
  {
  }

  /** The kernel matters only on btrfs and xfs, and only its presence on xfs. */
  lemma CanUseSwapfileKernel(fstype: string, k1: Option<int>, k2: Option<int>)
    ensures fstype !in {"btrfs", "xfs"} ==> CanUseSwapfile(Some(fstype), k1) == CanUseSwapfile(Some(fstype), k2)
    ensures fstype == "xfs" && k1.Some? == k2.Some? ==> CanUseSwapfile(Some(fstype), k1) == CanUseSwapfile(Some(fstype), k2)
    ensures CanUseSwapfile(Some("btrfs"), Some(4)) == Fail(BtrfsNeedsKernel5)
    ensures CanUseSwapfile(Some("btrfs"), Some(5)) == Pass
  {
  }

  /** What setup_swapfile does once the size is known. */
  datatype SwapPlan =
    | NoSwapZeroSize
    | NoSwapRefused(error: SwapError)
    | CreateSwap(path: string, size: real, warning: Option<SwapError>)

  /**
   * The decision of setup_swapfile: `fstypeAt` stands for the lookup of the
   * file-system type of a directory of the target. A refusal stops the setup
   * unless `force`, which turns it into a warning.
   */
  function SetupSwapfile(swapfile: Option<string>, size: real, fstypeAt: string -> Option<string>,
                         kernelMajor: Option<int>, force: bool): (r: SwapPlan)
    ensures size == 0.0 <==> r == NoSwapZeroSize
    ensures r.CreateSwap? ==> r.path == SwapfilePath(swapfile) && r.size == size
  {
    if size == 0.0 then NoSwapZeroSize
    else
      var path := SwapfilePath(swapfile);
      match CanUseSwapfile(fstypeAt(Dirname(path)), kernelMajor)
      case Pass => CreateSwap(path, size, None)
      case Fail(e) => if force then CreateSwap(path, size, Some(e)) else NoSwapRefused(e)
  }

  /**
   * A non-zero size is always created when forced, with a warning exactly when
   * the checks refuse; unforced it is created only when they pass.
   */
  lemma SetupSwapfileForce(swapfile: Option<string>, size: real, fstypeAt: string -> Option<string>,
                           kernelMajor: Option<int>)
    requires size != 0.0
    ensures var check := CanUseSwapfile(fstypeAt(Dirname(SwapfilePath(swapfile))), kernelMajor);
      && SetupSwapfile(swapfile, size, fstypeAt, kernelMajor, true) ==
           CreateSwap(SwapfilePath(swapfile), size, if check.Pass? then None else Some(check.error))
      && SetupSwapfile(swapfile, size, fstypeAt, kernelMajor, false) ==
           if check.Pass? then CreateSwap(SwapfilePath(swapfile), size, None) else NoSwapRefused(check.error)
  {
  }
}

=== FILE: text.dfy ===
/**
 * String helpers with the semantics of the Python built-ins the storage code
 * uses: str.isspace, str.split(), str.splitlines(), str.rstrip(), str.upper(),
 * str.replace, str(int), int(str), string comparison, and the POSIX
 * os.path.basename / os.path.dirname.
 */
module Text {
  import opened Wrappers

  /** Python's str.isspace for one character. */
  predicate IsSpace(c: char) {
    c == ' ' || ('\t' <= c <= '\r') || ('\U{1c}' <= c <= '\U{1f}') ||
    c == '\U{85}' || c == '\U{a0}' || c == '\U{1680}' ||
    ('\U{2000}' <= c <= '\U{200a}') || c == '\U{2028}' || c == '\U{2029}' ||
    c == '\U{202f}' || c == '\U{205f}' || c == '\U{3000}'
  }

  /** The characters str.splitlines() treats as line boundaries. */
  predicate IsLineBreak(c: char) {
    ('\n' <= c <= '\r') || ('\U{1c}' <= c <= '\U{1e}') ||
    c == '\U{85}' || c == '\U{2028}' || c == '\U{2029}'
  }

  predicate StartsWith(s: string, prefix: string) {
    |prefix| <= |s| && s[..|prefix|] == prefix
  }

  predicate EndsWith(s: string, suffix: string) {
    |suffix| <= |s| && s[|s| - |suffix|..] == suffix
  }

  /** str.rstrip() with no argument: drop trailing whitespace. */
  function RStrip(s: string): (r: string)
    ensures StartsWith(s, r)
    ensures r == [] || !IsSpace(r[|r| - 1])
    ensures forall i :: |r| <= i < |s| ==> IsSpace(s[i])
  {
    if s == [] || !IsSpace(s[|s| - 1]) then s else RStrip(s[..|s| - 1])
  }

  /** str.lstrip() with no argument: drop leading whitespace. */
  function LStrip(s: string): (r: string)
    ensures EndsWith(s, r)
    ensures r == [] || !IsSpace(r[0])
    ensures forall i :: 0 <= i < |s| - |r| ==> IsSpace(s[i])
  {
    if s == [] || !IsSpace(s[0]) then s else LStrip(s[1..])
  }

  /** str.strip() with no argument: drop whitespace at both ends. */
  function Strip(s: string): string {
    LStrip(RStrip(s))
  }

  /** str.rstrip(c) for one character c. */
  function RStripChar(s: string, c: char): (r: string)
    ensures StartsWith(s, r)
    ensures r == [] || r[|r| - 1] != c
    ensures forall i :: |r| <= i < |s| ==> s[i] == c
  {
    if s == [] || s[|s| - 1] != c then s else RStripChar(s[..|s| - 1], c)
  }

  /** The text before the first occurrence of c: `s.split(c)[0]`. */
  function BeforeFirst(s: string, c: char): (r: string)
    ensures StartsWith(s, r)
    ensures c !in r
    ensures |r| < |s| ==> s[|r|] == c
  {
    if s == [] || s[0] == c then [] else [s[0]] + BeforeFirst(s[1..], c)
  }

  /** Index of the last occurrence of c, or -1 (str.rfind). */
  function RFind(s: string, c: char): (i: int)
    ensures -1 <= i < |s|
    ensures i >= 0 ==> s[i] == c
    ensures forall j :: i < j < |s| ==> s[j] != c
  {
    if s == [] then -1
    else if s[|s| - 1] == c then |s| - 1
    else RFind(s[..|s| - 1], c)
  }

  /** ASCII upper-casing, as str.upper() does for ASCII letters. */
  function UpperChar(c: char): char {
    if 'a' <= c <= 'z' then (c as int - 32) as char else c
  }

  function Upper(s: string): (r: string)
    ensures |r| == |s|
    ensures forall i :: 0 <= i < |s| ==> r[i] == UpperChar(s[i])
  {
    if s == [] then [] else [UpperChar(s[0])] + Upper(s[1..])
  }

  function LowerChar(c: char): char {
    if 'A' <= c <= 'Z' then (c as int + 32) as char else c
  }

  function Lower(s: string): (r: string)
    ensures |r| == |s|
    ensures forall i :: 0 <= i < |s| ==> r[i] == LowerChar(s[i])
  {
    if s == [] then [] else [LowerChar(s[0])] + Lower(s[1..])
  }

  /** s.replace(pat, ''): delete every leftmost non-overlapping occurrence. */
  function RemoveAll(s: string, pat: string): (r: string)
    requires pat != []
    ensures |r| <= |s|
    decreases |s|
  {
    if |s| < |pat| then s
    else if s[..|pat|] == pat then RemoveAll(s[|pat|..], pat)
    else [s[0]] + RemoveAll(s[1..], pat)
  }

  /** Characters of s that are not whitespace, in order: `''.join(s.split())`. */
  function Squeeze(s: string): (r: string)
    ensures forall i :: 0 <= i < |r| ==> !IsSpace(r[i])
  {
    if s == [] then [] else (if IsSpace(s[0]) then [] else [s[0]]) + Squeeze(s[1..])
  }

  lemma {:induction false} SqueezeEmpty(s: string)
    ensures Squeeze(s) == [] <==> forall i :: 0 <= i < |s| ==> IsSpace(s[i])
  {
    if s != [] {
      SqueezeEmpty(s[1..]);
      assert forall i :: 1 <= i < |s| ==> s[i] == s[1..][i - 1];
    }
  }

  function Concat(parts: seq<string>): string {
    if parts == [] then [] else parts[0] + Concat(parts[1..])
  }

  /** Length of the leading run of non-whitespace characters. */
  function WordLength(s: string): (n: nat)
    ensures n <= |s|
    ensures forall i :: 0 <= i < n ==> !IsSpace(s[i])
    ensures n < |s| ==> IsSpace(s[n])
  {
    if s == [] || IsSpace(s[0]) then 0 else 1 + WordLength(s[1..])
  }

  /** str.split() with no argument: the maximal runs of non-whitespace. */
  function Split(s: string): (words: seq<string>)
    ensures forall w :: w in words ==> w != [] && forall i :: 0 <= i < |w| ==> !IsSpace(w[i])
    ensures Concat(words) == Squeeze(s)
    decreases |s|
  {
    if s == [] then []
    else if IsSpace(s[0]) then Split(s[1..])
    else
      var n := WordLength(s);
      SqueezeWord(s, n);
      [s[..n]] + Split(s[n..])
  }

  /** A word followed by a blank or by nothing has its own length as word length. */
  lemma {:induction false} WordLengthOfWord(w: string, rest: string)
    requires forall i :: 0 <= i < |w| ==> !IsSpace(w[i])
    requires rest == [] || IsSpace(rest[0])
    ensures WordLength(w + rest) == |w|
  {
    if w != [] {
      assert (w + rest)[1..] == w[1..] + rest;
      WordLengthOfWord(w[1..], rest);
    }
  }

  /** Splitting a word followed by a blank or by nothing yields that word first. */
  lemma SplitWordThen(w: string, rest: string)
    requires w != [] && forall i :: 0 <= i < |w| ==> !IsSpace(w[i])
    requires rest == [] || IsSpace(rest[0])
    ensures Split(w + rest) == [w] + Split(rest)
  {
    var s := w + rest;
    WordLengthOfWord(w, rest);
    assert s[..|w|] == w;
    assert s[|w|..] == rest;
  }

  /** A leading blank does not change the split. */
  lemma SplitSpaceThen(c: char, rest: string)
    requires IsSpace(c)
    ensures Split([c] + rest) == Split(rest)
  {
    assert ([c] + rest)[1..] == rest;
  }

  /** A word followed by a space and a second word splits into the two words. */
  lemma SplitTwoWords(w1: string, w2: string)
    requires w1 != [] && forall i :: 0 <= i < |w1| ==> !IsSpace(w1[i])
    requires w2 != [] && forall i :: 0 <= i < |w2| ==> !IsSpace(w2[i])
    ensures Split(w1 + " " + w2) == [w1, w2]
  {
    assert Split(w2) == [w2] by {
      SplitWordThen(w2, []);
      assert w2 + [] == w2;
    }
    assert Split(" " + w2) == Split(w2) by {
      SplitSpaceThen(' ', w2);
    }
    assert Split(w1 + (" " + w2)) == [w1] + Split(" " + w2) by {
      SplitWordThen(w1, " " + w2);
    }
    assert w1 + " " + w2 == w1 + (" " + w2);
  }

  lemma {:induction false} SqueezeWord(s: string, n: nat)
    requires n <= |s|
    requires forall i :: 0 <= i < n ==> !IsSpace(s[i])
    ensures Squeeze(s) == s[..n] + Squeeze(s[n..])
  {
    if n > 0 {
      SqueezeWord(s[1..], n - 1);
      assert s[1..][..n - 1] == s[1..n];
      assert s[1..][n - 1..] == s[n..];
      assert s[..n] == [s[0]] + s[1..n];
    }
  }

  /** Index of the first line boundary, or |s| when there is none. */
  function LineEnd(s: string): (i: nat)
    ensures i <= |s|
    ensures forall j :: 0 <= j < i ==> !IsLineBreak(s[j])
    ensures i < |s| ==> IsLineBreak(s[i])
  {
    if s == [] || IsLineBreak(s[0]) then 0 else 1 + LineEnd(s[1..])
  }

  /** str.splitlines(): "\r\n" is one boundary and a final boundary adds no empty line. */
  function SplitLines(s: string): (lines: seq<string>)
    ensures forall k, j :: 0 <= k < |lines| && 0 <= j < |lines[k]| ==> !IsLineBreak(lines[k][j])
    decreases |s|
  {
    if s == [] then []
    else
      var i := LineEnd(s);
      if i == |s| then [s]
      else
        var next := if s[i] == '\r' && i + 1 < |s| && s[i + 1] == '\n' then i + 2 else i + 1;
        [s[..i]] + SplitLines(s[next..])
  }

  /** Lexicographic order on strings by code point, as Python compares str. */
  predicate StrLe(a: string, b: string) {
    a == [] || (b != [] && (a[0] < b[0] || (a[0] == b[0] && StrLe(a[1..], b[1..]))))
  }

  predicate StrLt(a: string, b: string) {
    StrLe(a, b) && a != b
  }

  lemma {:induction false} StrLeRefl(a: string)
    ensures StrLe(a, a)
  {
    if a != [] { StrLeRefl(a[1..]); }
  }

  lemma {:induction false} StrLeTotal(a: string, b: string)
    ensures StrLe(a, b) || StrLe(b, a)
  {
    if a != [] && b != [] && a[0] == b[0] { StrLeTotal(a[1..], b[1..]); }
  }

  lemma {:induction false} StrLeTrans(a: string, b: string, c: string)
    requires StrLe(a, b) && StrLe(b, c)
    ensures StrLe(a, c)
  {
    if a != [] && b != [] && c != [] && a[0] == b[0] == c[0] {
      StrLeTrans(a[1..], b[1..], c[1..]);
    }
  }

  lemma {:induction false} StrLeAntisym(a: string, b: string)
    requires StrLe(a, b) && StrLe(b, a)
    ensures a == b
  {
    if a != [] && b != [] {
      StrLeAntisym(a[1..], b[1..]);
      assert a == [a[0]] + a[1..];
      assert b == [b[0]] + b[1..];
    }
  }

  function DigitChar(d: nat): char
    requires d < 10
  {
    "0123456789"[d]
  }

  predicate IsDigit(c: char) { '0' <= c <= '9' }

  function DigitValue(c: char): nat
    requires IsDigit(c)
  {
    c as int - '0' as int
  }

  /** str(n) for a natural number. */
  function NatToString(n: nat): (s: string)
    ensures s != [] && forall i :: 0 <= i < |s| ==> IsDigit(s[i])
  {
    if n < 10 then [DigitChar(n)] else NatToString(n / 10) + [DigitChar(n % 10)]
  }

  /** str(i) for an integer: a minus sign before the digits of |i|. */
  function IntToString(i: int): string {
    if i < 0 then "-" + NatToString(-i) else NatToString(i)
  }

  /** The value of a string of decimal digits, most significant first. */
  function DigitsValue(s: string): nat
    requires forall i :: 0 <= i < |s| ==> IsDigit(s[i])
  {
    if s == [] then 0 else 10 * DigitsValue(s[..|s| - 1]) + DigitValue(s[|s| - 1])
  }

  predicate AllDigits(s: string) {
    s != [] && forall i :: 0 <= i < |s| ==> IsDigit(s[i])
  }

  /** int(s) for an optionally signed run of ASCII decimal digits. */
  function ParseInt(s: string): (r: Option<int>)
    ensures r.Some? <==> AllDigits(s) || (|s| > 1 && (s[0] == '-' || s[0] == '+') && AllDigits(s[1..]))
  {
    if AllDigits(s) then Some(DigitsValue(s))
    else if |s| > 1 && s[0] == '-' && AllDigits(s[1..]) then Some(0 - DigitsValue(s[1..]) as int)
    else if |s| > 1 && s[0] == '+' && AllDigits(s[1..]) then Some(DigitsValue(s[1..]))
    else None
  }

  lemma {:induction false} DigitsValueOfNat(n: nat)
    ensures DigitsValue(NatToString(n)) == n
  {
    var s := NatToString(n);
    if n >= 10 {
      DigitsValueOfNat(n / 10);
      assert s[..|s| - 1] == NatToString(n / 10);
    }
  }

  /** A minus sign before a run of digits reads as the negated value. */
  lemma ParseNegative(d: string)
    requires AllDigits(d)
    ensures ParseInt("-" + d) == Some(0 - DigitsValue(d) as int)
  {
    var s := "-" + d;
    assert s[1..] == d;
    assert !IsDigit(s[0]);
  }

  /** Printing an integer and reading it back gives the integer. */
  lemma IntToStringRoundTrip(i: int)
    ensures ParseInt(IntToString(i)) == Some(i)
  {
    if i < 0 {
      assert DigitsValue(NatToString(-i)) == -i by {
        DigitsValueOfNat(-i);
      }
      ParseNegative(NatToString(-i));
    } else {
      DigitsValueOfNat(i);
      assert AllDigits(IntToString(i));
    }
  }

  /** os.path.basename: the text after the last '/'. */
  function Basename(p: string): (r: string)
    ensures '/' !in r
    ensures EndsWith(p, r)
  {
    p[RFind(p, '/') + 1..]
  }

  /** os.path.dirname: the text up to the last '/', with trailing '/'s removed unless it is all '/'. */
  function Dirname(p: string): string {
    var head := p[..RFind(p, '/') + 1];
    if head != [] && exists i :: 0 <= i < |head| && head[i] != '/' then RStripChar(head, '/') else head
  }

  /** sep.join(parts) for a one-character separator. */
  function Join(parts: seq<string>, sep: char): string {
    if parts == [] then []
    else if |parts| == 1 then parts[0]
    else parts[0] + [sep] + Join(parts[1..], sep)
  }

  /** s.split(sep) for a one-character separator: the pieces between its occurrences. */
  function SplitOn(s: string, sep: char): (parts: seq<string>)
    ensures parts != []
    ensures forall k :: 0 <= k < |parts| ==> sep !in parts[k]
    decreases |s|
  {
    var head := BeforeFirst(s, sep);
    if |head| == |s| then
      assert s == s[..|head|];
      [s]
    else [head] + SplitOn(s[|head| + 1..], sep)
  }

  lemma {:induction false} BeforeFirstJoined(p: string, sep: char, rest: string)
    requires sep !in p
    ensures BeforeFirst(p + [sep] + rest, sep) == p
    ensures BeforeFirst(p, sep) == p
  {
    if p != [] {
      assert (p + [sep] + rest)[1..] == p[1..] + [sep] + rest;
      BeforeFirstJoined(p[1..], sep, rest);
    }
  }

  /** Splitting a join of separator-free pieces gives the pieces back. */
  lemma {:induction false} SplitJoin(parts: seq<string>, sep: char)
    requires parts != [] && forall k :: 0 <= k < |parts| ==> sep !in parts[k]
    ensures SplitOn(Join(parts, sep), sep) == parts
  {
    var p := parts[0];
    if |parts| == 1 {
      BeforeFirstJoined(p, sep, []);
    } else {
      var rest := Join(parts[1..], sep);
      var s := p + [sep] + rest;
      BeforeFirstJoined(p, sep, rest);
      assert s[|p| + 1..] == rest;
      SplitJoin(parts[1..], sep);
    }
  }

  /** Joining the pieces of a split gives the string back. */
  lemma {:induction false} JoinSplit(s: string, sep: char)
    ensures Join(SplitOn(s, sep), sep) == s
    decreases |s|
  {
    var head := BeforeFirst(s, sep);
    if |head| < |s| {
      var rest := s[|head| + 1..];
      var parts := SplitOn(rest, sep);
      assert SplitOn(s, sep) == [head] + parts;
      assert ([head] + parts)[1..] == parts;
      assert Join(SplitOn(s, sep), sep) == head + [sep] + Join(parts, sep);
      JoinSplit(rest, sep);
      assert s == head + [sep] + rest;
    }
  }
}

=== FILE: wrappers.dfy ===
/** Failure-compatible result types shared by every module of the model. */
module Wrappers {

  datatype Option<+T> = None | Some(value: T) {
    predicate IsFailure() { None? }

    function PropagateFailure<U>(): Option<U>
      requires None?
    {
      None
    }

    function Extract(): T
      requires Some?
    {
      value
    }

    function GetOr(default: T): T {
      match this
      case Some(v) => v
      case None => default
    }
  }

  /** A value or the error the source raises instead of returning it. */
  datatype Result<+T, +E> = Ok(value: T) | Err(error: E) {
    predicate IsFailure() { Err? }

    function PropagateFailure<U>(): Result<U, E>
      requires Err?
    {
      Err(error)
    }

    function Extract(): T
      requires Ok?
    {
      value
    }
  }

  /** The outcome of a check that returns nothing when it passes. */
  datatype Outcome<+E> = Pass | Fail(error: E)
}
